=== FILE: README.md ===
# circuit-ui, modelled in Dafny

circuit-ui draws circuit-board style diagrams in SVG. A diagram is a pan-and-zoom
canvas that holds nodes (boxes with content) and paths (polylines whose segments
must be horizontal, vertical or at exactly 45 degrees). `UIBuilder` adds an
editing state machine on top. This project models the logic under the DOM
plumbing as immutable datatypes over exact `real` coordinates and pure
functions. Each module follows one part of the program:

- `Waypoints` covers `src/lib/Path.ts`:
  - the circuit-legality predicate;
  - the repair pass that inserts a horizontal-then-vertical corner;
  - the "at least two waypoints" error;
  - config defaults;
  - the static route shapes (straight, L and Z).
- `Viewports` covers the viewport arithmetic of `src/lib/Canvas.ts`: pan, clamped zoom, zoom about a point, the world/screen transform, the wheel factor and the zoom sensitivity.
- `Pointer` covers the canvas pointer state machine: the 5 px drag threshold, click versus drag on release, and the momentum coast that decays by 0.95 per frame.
- `Easing` covers the animation frame: progress, the cubic ease-out and the interpolation. It also covers `Canvas.animateTo`.
- `Nodes` covers `src/lib/Node.ts`: config defaults, field-local setters, and the focused and hovered flags that gate clicks and the hover look.
- `Registry` models a JavaScript `Map` keyed by id as a sequence of entries. The sequence keeps insertion order.
- `OrderedSets` models a JavaScript `Set` as a sequence without repeats.
- `Scenes` covers the node and path registries of `src/lib/CircuitUI.ts`, with their duplicate-id errors. It also covers `connectNodes`, content bounds, `destroy` and node focus.
- `Navigation` covers navigation to a node, `panTo`, `zoomTo`, `zoomToFit` and the history stack.
- `Schemas` covers `toSchema` and `fromSchema`.
- `Builder` covers `src/lib/UIBuilder.ts`:
  - modes and selections;
  - the two-click path protocol;
  - node placement;
  - deletion;
  - copy and paste;
  - bounded undo and redo over scene snapshots;
  - node types.
- `Keyboard` covers the builder's keyboard shortcuts.
- `AsWritten` runs the builder's editing operations with the `toSchema` the code actually has, which throws (see "Findings"). Each operation is related to its `Builder` or `Keyboard` counterpart, and the two agree on a scene with no node and no path.

An operation that throws in the source returns a `Result` or an error value
here. Ids that the source generates from `Date.now()` and `Math.random()` are
parameters (`freshId`, `gen`, `ids`). An asynchronous animation becomes its
final viewport. The frame function is modelled separately.

Some behaviour of the code is modelled as written, even where it looks unintended:

- `removeNode` deletes the node before it looks the node up to remove its paths. That lookup then fails, so no path is ever removed (`Scenes.RemoveNode`).
- A padding of 0 becomes 50 (`Navigation.Padding`).
- `zoomTo` and `zoomToFit` do not clamp the zoom.
- `Canvas.animateTo` places the position at the screen centre only when the final zoom is 1 (`Easing.AnimateToCentresIff`).
- An add-node canvas click places the node at the raw click point.
- A press and release on a node first emits the canvas `click`, and only then the node's own click (`Builder.PressNode`). In select mode the canvas click clears the selection, so a press on a node with one listener leaves exactly that node selected, whether or not it was selected before (`Builder.PressSelectsOnly`). In add-node mode a press on a node places a new node at the pointer (`Builder.PressAddsNode`).
- A node that is focused swallows its own clicks (`Nodes.Click`). After the canvas click has cleared the selection, only a node focused by navigation, and not selected, is still focused when its click arrives.
- Nodes that the builder places itself carry two click listeners, so a click on one of them is handled twice. The effects are listed under "Left out" (`Builder.DoubleNodeClick`). In select mode a press on such a node ends with nothing selected (`Builder.PressPlacedSelectsNothing`).
- A new canvas, including one built by `fromSchema`, starts with the view centred: zoom 1 and the world origin at the middle of the container (`Scenes.NewScene`).
- `paste` never pastes the copied paths.

## Model

| member | source | states |
|---|---|---|
| Geometry.Clamp | src/lib/Canvas.ts:415 | `Math.max(min, Math.min(max, v))`: within the limits when they are ordered, the value itself when it already lies inside, and the lower limit when the limits are crossed |
| Geometry.Centre | src/lib/CircuitUI.ts:358-366 | a node's centre lies halfway across its width and halfway down its height |
| Waypoints.LegalIffCompassLine | src/lib/Path.ts:51-65 | a segment is legal iff it is horizontal, vertical or an exact diagonal; legality is symmetric and unchanged by translation |
| Waypoints.CircuitPath | src/lib/Path.ts:86-106 | the inserted piece ends at the target and is legal from the start; it has a corner at (to.x, from.y) exactly when both coordinates differ, otherwise it is just the target |
| Waypoints.Corrected | src/lib/Path.ts:67-84 | the repaired route keeps the first and last waypoint, has only legal segments, and is between n and 2n−1 points long |
| Waypoints.CorrectWaypoints | src/lib/Path.ts:67-84 | the loop over the input builds exactly the repaired route |
| Waypoints.CorrectedKeepsLegal | src/lib/Path.ts:67-84 | a route whose segments are all legal is returned unchanged |
| Waypoints.CorrectedFixedIffLegal | src/lib/Path.ts:67-84 | repair leaves a route unchanged iff every segment was already legal |
| Waypoints.CorrectedIdempotent | src/lib/Path.ts:67-84 | repairing a repaired route changes nothing |
| Waypoints.CorrectedEmbedsInput | src/lib/Path.ts:67-84 | every input point occurs in the output, in order; a legal input segment stays adjacent, and an illegal one gets exactly the corner (next.x, prev.y) in between |
| Waypoints.RepairIsLPath | src/lib/Path.ts:324-338 | repairing an illegal two-point route yields the L route with its corner at the destination |
| Waypoints.MergeDefaultConfig | src/lib/Path.ts:21-30 | the merged config always has a non-empty id, a non-zero width and a non-empty colour; the waypoints are kept; animated defaults to on; a width of 0 becomes the default 3; a truthy id, width or colour and any given animated flag or class name are kept |
| Waypoints.MergeFullIffNormal | src/lib/Path.ts:21-30 | a complete config survives the merge unchanged iff it is already in merged form (non-empty id, non-zero width, non-empty colour) |
| Waypoints.ValidateWaypoints | src/lib/Path.ts:32-49 | fewer than two waypoints is an error; otherwise the result has only legal segments and keeps both endpoints |
| Waypoints.ValidateIsRepair | src/lib/Path.ts:38-48 | validation returns the repaired route, and returns the input itself iff it was already legal |
| Waypoints.NewPath | src/lib/Path.ts:14-48 | construction fails iff there are fewer than two waypoints; a constructed path is well formed, has the given or generated id, and stores the repaired route of the given waypoints (legal waypoints thus stay as given) |
| Waypoints.NewPathFields | src/lib/Path.ts:14-30 | a constructed path takes every field but the waypoints from the merged defaults |
| Waypoints.NewPathFull | src/lib/Path.ts:14-19 | re-creating a well-formed path from its own config gives the same path |
| Waypoints.UpdateWaypoints | src/lib/Path.ts:285-288 | every field but the waypoints stays; too few waypoints are stored and reported as an error, otherwise the stored route is the repaired one |
| Waypoints.Junctions | src/lib/Path.ts:192-208 | one junction per inner waypoint, in order, and none for a route of fewer than two points |
| Waypoints.StraightPath | src/lib/Path.ts:320-322 | the two endpoints, legal iff the segment between them is |
| Waypoints.LPath | src/lib/Path.ts:324-338 | three legal points from start to end; the corner is (to.x, from.y) at the destination end, otherwise (from.x, to.y) |
| Waypoints.ZPath | src/lib/Path.ts:340-348 | four legal points, horizontal then vertical then horizontal, with the vertical leg 0.7 of the way across |
| Viewports.DefaultsAndRoundTrip | src/lib/Canvas.ts:49-69 | empty options give the documented defaults, and a full config survives the merge unchanged |
| Viewports.ScreenToWorld | src/lib/Canvas.ts:505-506 | the world point found for a screen point maps back onto that screen point |
| Viewports.TransformsInverse | src/lib/Canvas.ts:487-490 | the world-to-screen transform is undone by the screen-to-world formula |
| Viewports.Pan | src/lib/Canvas.ts:401-412 | the zoom stays, and every world point appears shifted on screen by exactly the deltas |
| Viewports.Zoom | src/lib/Canvas.ts:414-421 | the offset stays, and the zoom becomes the product clamped into the limits |
| Viewports.ZoomAt | src/lib/Canvas.ts:423-439 | the new zoom is the clamped product, within the limits; when it equals the old zoom nothing changes |
| Viewports.ZoomAtAnchorsPoint | src/lib/Canvas.ts:430-434 | the world point under the cursor is the same before and after zooming about it |
| Viewports.CenterView | src/lib/Canvas.ts:477-484 | zoom 1, with the world origin at the screen centre |
| Viewports.SetZoomSensitivity | src/lib/Canvas.ts:561-563 | the sensitivity always lies in [0.01, 0.5], and a value already inside is kept |
| Viewports.WheelFactor | src/lib/Canvas.ts:235 | scrolling down zooms by 1 − s, any other wheel delta by 1 + s |
| Viewports.Wheel | src/lib/Canvas.ts:228-238 | a wheel event zooms by the wheel factor, clamped to the limits, and the world point under the cursor stays under it |
| Viewports.WheelDirection | src/lib/Canvas.ts:228-238 | from a zoom within the limits, scrolling down never zooms in and scrolling up never zooms out; the result stays within the limits |
| Viewports.SetViewport | src/lib/Canvas.ts:556-559 | afterwards the canvas shows every world point where the given viewport puts it |
| Pointer.Down | src/lib/Canvas.ts:163-177 | a press starts tracking at the press point with no drag, no momentum and any coast stopped |
| Pointer.MoveTracksPointer | src/lib/Canvas.ts:179-208 | each move keeps the gesture invariant: before the threshold nothing has moved; after it the viewport has travelled exactly as far as the pointer; the drag starts once a point lies more than 5 px from the press point |
| Pointer.DragPansOneToOne | src/lib/Canvas.ts:179-208 | over any sequence of moves, the drag has started iff some point went beyond the threshold, and panning stays one to one with the pointer |
| Pointer.Up | src/lib/Canvas.ts:210-226 | a release is a click, at the release point, iff the pointer was pressed and no drag started; otherwise coasting starts iff momentum is enabled and a component of the momentum exceeds 1 |
| Pointer.PressMovesRelease | src/lib/Canvas.ts:210-219 | press, moves, release is a click iff no move went beyond the threshold |
| Pointer.MomentumFrame | src/lib/Canvas.ts:266-283 | a frame continues iff some component of the momentum is at least 0.1; it pans by the momentum and decays it by 0.95 |
| Pointer.Coast | src/lib/Canvas.ts:266-283 | coasting stops at the first frame whose momentum is below 0.1 on both axes; the total pan is 20 times the momentum lost, and the frame count is bounded by 190 times the larger initial speed |
| Easing.Progress | src/lib/Canvas.ts:454 | progress is at most 1, equals 1 iff the duration has elapsed, and is 0 at the start and never negative |
| Easing.EaseOutShape | src/lib/Canvas.ts:457 | the ease-out curve runs from 0 to 1, stays in [0, 1] and never decreases |
| Easing.Lerp | src/lib/Canvas.ts:459-461 | interpolation gives the start at 0 and the target at 1 |
| Easing.LerpBetween | src/lib/Canvas.ts:459-461 | an interpolated value lies between the start and the target |
| Easing.Closer | src/lib/Canvas.ts:459-461 | a later fraction is never farther from the target |
| Easing.Frame | src/lib/Canvas.ts:452-471 | the animation is done iff the duration has elapsed, and then shows the target exactly; at time 0 it shows the start |
| Easing.FrameBetween | src/lib/Canvas.ts:452-471 | every frame's offset and zoom lie between start and target |
| Easing.FramesApproach | src/lib/Canvas.ts:452-471 | a later frame is never farther from the target on any component |
| Easing.Animate | src/lib/Canvas.ts:441-475 | frames are drawn until the first time at which the duration has elapsed, which ends on the target; without such a time every frame is drawn |
| Easing.AnimateToTarget | src/lib/Canvas.ts:441-448 | the target zoom is 1 with fit-to-view and the current zoom otherwise; the target offset puts the position at the screen centre when viewed at zoom 1 |
| Easing.AnimateToCentresIff | src/lib/Canvas.ts:441-448 | the position ends at the screen centre iff the target zoom is 1 or the position is the origin |
| Nodes.MergeDefaultConfig | src/lib/Node.ts:31-41 | id and position are kept verbatim |
| Nodes.DefaultsAndRoundTrip | src/lib/Node.ts:31-41 | defaults: size 200×120, empty content and class, not draggable, z-index 1; a full config survives the merge unchanged |
| Nodes.NewNode | src/lib/Node.ts:20-29 | a new node has the merged config and is neither hovered, focused nor dragging |
| Nodes.LookOf | src/lib/Node.ts:187-210 | the hover look shows iff the node is hovered and not focused |
| Nodes.SetContent | src/lib/Node.ts:251-254 | only the content changes |
| Nodes.SetPosition | src/lib/Node.ts:256-267 | only the position changes |
| Nodes.SetSize | src/lib/Node.ts:269-285 | only the size changes |
| Nodes.SettersCommute | src/lib/Node.ts:251-285 | the setters touch separate fields, so they commute, and a second position overrides the first |
| Nodes.SetFocused | src/lib/Node.ts:360-367 | the focused flag becomes the given value, and nothing else changes |
| Nodes.FocusRoundTrip | src/lib/Node.ts:360-367 | focusing and restoring the old flag gives the same node; focus hides the hover look of a hovered node and unfocus brings it back |
| Nodes.Click | src/lib/Node.ts:149-158 | a click is emitted iff the node is not focused |
| Nodes.MouseEnter | src/lib/Node.ts:137-141 | entering marks the node hovered and emits a hover event |
| Nodes.MouseLeave | src/lib/Node.ts:143-147 | leaving clears hovered and emits a leave event |
| Nodes.DragStart | src/lib/Node.ts:170-176 | a drag starts and is emitted iff the node is draggable; otherwise nothing changes |
| Nodes.DragEnd | src/lib/Node.ts:183-185 | only a draggable node listens for the release, which ends its drag |
| Nodes.FocusAndDragGates | src/lib/Node.ts:116-158 | a non-draggable node never drags; a hovered focused node shows the normal look and swallows clicks, an unfocused one shows the hover look and emits them |
| Registry.Get | src/lib/CircuitUI.ts:64-66 | a lookup finds a value iff the key is registered, and that value is stored under the key |
| Registry.GetAt | src/lib/CircuitUI.ts:64-66 | with unique keys, a lookup returns the value stored at the key's position |
| Registry.Put | src/lib/UIBuilder.ts:506-508 | `Map.set` replaces in place when the key is present and appends otherwise; other entries are untouched and keys stay unique |
| Registry.PutThenGet | src/lib/UIBuilder.ts:506-508 | after a put, the key reads back the new value and every other key reads as before |
| Registry.Delete | src/lib/UIBuilder.ts:510-512 | `Map.delete` removes exactly that key and changes nothing when it is absent |
| Registry.DeleteKeepsUnique | src/lib/UIBuilder.ts:510-512 | deleting keeps keys unique |
| Registry.DeleteKeepsOthers | src/lib/UIBuilder.ts:510-512 | other keys read as before |
| Registry.DeleteRemovesOne | src/lib/UIBuilder.ts:510-512 | with unique keys, deleting a key removes exactly its entry and keeps the rest in order |
| Registry.PutDeleteRoundTrip | src/lib/UIBuilder.ts:506-512 | putting a new key and deleting it gives back the original map |
| Scenes.NewScene | src/lib/Canvas.ts:35-131 | a new scene is well formed and empty, with the merged canvas config; the view is centred on a container of the given size: zoom 1 with the world origin at the screen centre |
| Scenes.AddNode | src/lib/CircuitUI.ts:36-48 | fails with a duplicate-id error iff the id is registered, and then changes nothing; otherwise it appends exactly the new node |
| Scenes.AddNodeKeepsWf | src/lib/CircuitUI.ts:36-48 | adding a node keeps the scene well formed |
| Scenes.AddRemoveNodeRoundTrip | src/lib/CircuitUI.ts:36-62 | removing a node just added gives back the scene and reports success |
| Scenes.KeepUntouched | src/lib/CircuitUI.ts:72-88 | keeps exactly the paths with no waypoint within 10 units of the point on both axes |
| Scenes.RemovePathsConnectedToNode | src/lib/CircuitUI.ts:72-88 | does nothing when the node is not registered; otherwise it drops the paths touching the node's position |
| Scenes.RemoveNode | src/lib/CircuitUI.ts:50-62 | reports whether the id was registered and removes just that node; the paths are left unchanged |
| Scenes.RemoveNodeKeepsWf | src/lib/CircuitUI.ts:50-62 | removing a node keeps the scene well formed |
| Scenes.AddPath | src/lib/CircuitUI.ts:91-106 | the id is the given one or the generated one; it fails iff that id is registered or there are too few waypoints; otherwise it appends one well-formed path under that id |
| Scenes.AddPathKeepsWf | src/lib/CircuitUI.ts:91-106 | adding a path keeps the scene well formed |
| Scenes.RemovePath | src/lib/CircuitUI.ts:108-116 | reports whether the id was registered; afterwards it is not |
| Scenes.RemovePathKeepsWf | src/lib/CircuitUI.ts:108-116 | removing a path keeps the scene well formed |
| Scenes.AddRemovePathRoundTrip | src/lib/CircuitUI.ts:91-116 | removing a path just added gives back the scene and reports success |
| Scenes.ConnectNodes | src/lib/CircuitUI.ts:344-377 | fails with NodesNotFound iff a node is missing; with both present, succeeds iff the path id is new and any overriding route has at least two points; then it appends one path and changes nothing else; the route is by default the L between the two node centres, and the caller's id, width, colour, animated flag, class name and legal route win |
| Scenes.ConnectNodesKeepsWf | src/lib/CircuitUI.ts:344-377 | connecting keeps the scene well formed |
| Scenes.AllWaypoints | src/lib/CircuitUI.ts:319-326 | collects every waypoint of every path, and nothing else |
| Scenes.ContentBounds | src/lib/CircuitUI.ts:303-334 | each side of the bounds lies exactly 100 units beyond some node corner or waypoint |
| Scenes.ContentBoundsContain | src/lib/CircuitUI.ts:303-334 | every node rectangle and every waypoint lies inside the bounds with a 100-unit margin |
| Scenes.Destroy | src/lib/CircuitUI.ts:402-407 | both registries are emptied and nothing else changes |
| Scenes.FocusNode | src/lib/CircuitUI.ts:190-197 | only the named node's focus flag changes; the keys and every other node stay |
| Scenes.FocusNodeKeepsWf | src/lib/CircuitUI.ts:190-197 | focusing keeps the scene well formed |
| Navigation.MergeNavigation | src/lib/CircuitUI.ts:133-139 | each of duration, zoom-out, fit-to-view and padding is the caller's value when given and the default (800, false, false, 50) otherwise |
| Navigation.Padding | src/lib/CircuitUI.ts:155 | a padding of 0 is replaced by 50, any other is kept |
| Navigation.FitZoom | src/lib/CircuitUI.ts:153-169 | the fitted zoom lies within the zoom limits |
| Navigation.FitZoomFits | src/lib/CircuitUI.ts:153-169 | when the limits do not bind, the padded node just fits the screen: within it on both axes and flush on one |
| Navigation.CentreOn | src/lib/CircuitUI.ts:171-175 | the offset puts the given world point at the screen centre at the given zoom |
| Navigation.NavigateZoom | src/lib/CircuitUI.ts:150-169 | the current zoom is kept without fit-to-view; with it the zoom lies within the canvas limits |
| Navigation.NavigateZoomFits | src/lib/CircuitUI.ts:150-169 | with fit-to-view and limits that do not bind, the node plus the padding on both sides fits the screen and fills one axis |
| Navigation.NavigateToNode | src/lib/CircuitUI.ts:127-207 | fails iff the node is missing; otherwise the node becomes active and focused with its centre at the screen centre, the previous active node is unfocused and pushed onto the history when it differs, and nothing else changes |
| Navigation.NavigateKeepsWf | src/lib/CircuitUI.ts:127-207 | navigating keeps the scene well formed |
| Navigation.PanTo | src/lib/CircuitUI.ts:209-217 | only the viewport changes, to the pan target at the current zoom |
| Navigation.PanToCentresIff | src/lib/CircuitUI.ts:209-217 | the target offset puts the position at the screen centre when viewed at zoom 1 |
| Navigation.ZoomTo | src/lib/CircuitUI.ts:219-237 | the zoom becomes exactly the requested one, without clamping, and the world point at the screen centre stays there |
| Navigation.ZoomToKeepsCentre | src/lib/CircuitUI.ts:219-237 | the world point at the screen centre is the same before and after |
| Navigation.FitView | src/lib/CircuitUI.ts:245-258 | 80% of the tighter screen-to-box ratio, with the box centre at the screen centre |
| Navigation.FitViewShowsBox | src/lib/CircuitUI.ts:245-258 | the fitted box lies on screen with at least a tenth of the screen to spare on every side |
| Navigation.ZoomToFit | src/lib/CircuitUI.ts:239-261 | does nothing without nodes; otherwise only the viewport changes, to the fitted view of the content bounds |
| Navigation.ZoomToFitShowsContent | src/lib/CircuitUI.ts:239-261 | all content lands within the middle 80% of the screen on both axes |
| Navigation.NavigateBack | src/lib/CircuitUI.ts:510-515 | with an empty history nothing changes; otherwise the last entry is popped and navigated to, and a vanished node just drops the entry |
| Navigation.BackAfterNavigate | src/lib/CircuitUI.ts:510-515 | after navigating away from an active node, going back makes it active again and leaves the new node on the history |
| Navigation.BackOnce | src/lib/CircuitUI.ts:510-515 | going back activates the popped node and puts the node it left on the history |
| Navigation.BackTwice | src/lib/CircuitUI.ts:510-515 | going back twice restores the active node and the history |
| Schemas.ToSchema | src/lib/CircuitUI.ts:410-451 | the intended export (see "Findings"): version 1.0.0, the canvas config, every node config and every path's waypoints, in registry order |
| Schemas.ToSchemaAsWritten | src/lib/CircuitUI.ts:410-451 | the export as written: it fails iff the scene holds a node or a path, with the first missing getter (`node.getClassName`, else `path.getClassName`); when it succeeds it is the intended export |
| Schemas.ExportRoundTripFails | src/lib/CircuitUI.ts:410-473 | on every non-empty well-formed scene the export as written fails, while importing the intended export succeeds and gives back the paths and as many nodes |
| Schemas.ImportNeedsNoExport | src/lib/CircuitUI.ts:453-473 | importing never goes through the export: a schema with one long-enough path loads into a scene whose paths are exactly the loaded entries, a scene the export as written refuses |
| Schemas.PathEntries | src/lib/CircuitUI.ts:468-470 | each loaded path has the given or generated id and is well formed; legal waypoints are kept as given |
| Schemas.PathEntriesRepaired | src/lib/CircuitUI.ts:468-470 | each loaded path is its options with the path defaults merged in (width, colour, animation, class) and its route repaired |
| Schemas.LoadNodes | src/lib/CircuitUI.ts:463-465 | stops at the first duplicate id; it succeeds iff all ids are new, and then appends one fresh node per config, in order |
| Schemas.LoadPaths | src/lib/CircuitUI.ts:468-470 | stops at the first duplicate id or short path; it succeeds iff all ids are new and every path has two waypoints, and then appends the paths in order |
| Schemas.FromSchema | src/lib/CircuitUI.ts:453-473 | succeeds iff node ids and path ids are unique and every path is long enough; it then holds exactly the loaded nodes and paths under the merged canvas config, with the view centred on the container |
| Schemas.FromSchemaWf | src/lib/CircuitUI.ts:453-473 | an imported scene is well formed |
| Schemas.SchemaRoundTrip | src/lib/CircuitUI.ts:410-473 | importing an export succeeds and reproduces the canvas config, the paths, and the nodes in order, with their interaction flags reset |
| Schemas.ExportedNodes | src/lib/CircuitUI.ts:410-427 | exported node ids are unique, and re-creating each exported node gives back its config |
| Schemas.ExportedPaths | src/lib/CircuitUI.ts:429-439 | exported path ids are unique, every path is long enough, and reloading them reproduces the paths |
| Builder.RegisterTypes | src/lib/UIBuilder.ts:50-54 | every given type is registered, earlier ones stay, and names stay unique; a name reads as the value of its last entry in the list, or as before when the list does not name it |
| Builder.NewBuilder | src/lib/UIBuilder.ts:43-69 | a new builder is consistent, in select mode with nothing selected and empty stacks, and its view is centred on the container; with no types given, only the default type is registered; otherwise exactly the given names are registered, each with the value of its last entry |
| Builder.SetMode | src/lib/UIBuilder.ts:217-221 | the mode is set and any path in progress is dropped; nothing else changes |
| Builder.SelectNode | src/lib/UIBuilder.ts:228-235 | the id joins the selection and a registered node with that id is focused |
| Builder.DeselectNode | src/lib/UIBuilder.ts:237-244 | the id leaves the selection and a registered node with that id is unfocused |
| Builder.ToggleNode | src/lib/UIBuilder.ts:246-252 | flips the id's membership and leaves other ids' membership alone; the node's focus follows its membership |
| Builder.ToggleTwice | src/lib/UIBuilder.ts:246-252 | toggling twice restores the selection and the node's focus |
| Builder.SelectPath | src/lib/UIBuilder.ts:254-261 | the id joins the path selection |
| Builder.DeselectPath | src/lib/UIBuilder.ts:263-266 | the id leaves the path selection |
| Builder.UnfocusAll | src/lib/UIBuilder.ts:270-275 | every listed registered node is unfocused, and every other node stays |
| Builder.ClearSelection | src/lib/UIBuilder.ts:268-282 | both selections become empty and the previously selected nodes are unfocused |
| Builder.SelectNodes | src/lib/UIBuilder.ts:285-287 | the ids are added in order and their registered nodes are focused |
| Builder.SelectPaths | src/lib/UIBuilder.ts:288-290 | the path ids join the selection |
| Builder.SelectAll | src/lib/UIBuilder.ts:284-291 | every registered node and path ends up selected, and every node focused |
| Builder.SaveState | src/lib/UIBuilder.ts:403-413 | with the intended export: pushes a snapshot of the scene, drops the oldest beyond 50, and empties the redo stack |
| Builder.LoadFromSchema | src/lib/UIBuilder.ts:440-457 | clears the selection and replaces both registries by the snapshot; the load succeeds iff the snapshot's ids are unique and its paths long enough |
| Builder.LoadExported | src/lib/UIBuilder.ts:440-457 | loading a snapshot of a well-formed scene succeeds and restores its paths, and its nodes with their flags reset |
| Builder.Undo | src/lib/UIBuilder.ts:416-426 | returns false and changes nothing on an empty stack; otherwise it moves the current scene onto the redo stack and loads the popped snapshot |
| Builder.Redo | src/lib/UIBuilder.ts:428-438 | returns false and changes nothing on an empty stack; otherwise it moves the current scene onto the undo stack and loads the popped snapshot |
| Builder.UndoPushes | src/lib/UIBuilder.ts:416-426 | undo leaves the current scene on top of the redo stack |
| Builder.RedoExported | src/lib/UIBuilder.ts:428-438 | redoing onto a snapshot of a well-formed scene succeeds and restores it |
| Builder.UndoThenRedo | src/lib/UIBuilder.ts:416-438 | undo followed by redo restores the paths and the nodes, with their flags reset |
| Builder.UndoThenRedoStacks | src/lib/UIBuilder.ts:416-438 | undo followed by redo restores the redo stack and the undo stack below its top |
| Builder.UndoRestoresCheckpoint | src/lib/UIBuilder.ts:404-426 | undo right after a checkpoint restores the scene that was saved |
| Builder.PathCreation | src/lib/UIBuilder.ts:198-214 | the first click records the start, a click on the start node does nothing, and a click on another node pushes a checkpoint and connects the two nodes |
| Builder.TwoClicksConnect | src/lib/UIBuilder.ts:198-214 | two clicks on different registered nodes add one L path between their centres and leave a checkpoint of the scene before |
| Builder.DeleteNode | src/lib/UIBuilder.ts:316-320 | always checkpoints and deselects; it reports whether the node was registered and removes only it, leaving the paths |
| Builder.RemoveNodes | src/lib/UIBuilder.ts:327-329 | removes exactly the listed nodes; unknown ids are tolerated |
| Builder.RemovePaths | src/lib/UIBuilder.ts:332-334 | removes exactly the listed paths; unknown ids are tolerated |
| Builder.DeleteSelected | src/lib/UIBuilder.ts:322-338 | does nothing with empty selections; otherwise one checkpoint, every selected node and path removed, and both selections emptied |
| Builder.Registered | src/lib/UIBuilder.ts:350-363 | the selected ids that still exist: an in-order subsequence of the selection holding each registered id as often as the selection does and no other id, without repeats when the selection has none |
| Builder.CopiedNodes | src/lib/UIBuilder.ts:350-355 | one config per selected registered node, in selection order: the i-th is the config of the i-th such node |
| Builder.CopiedPaths | src/lib/UIBuilder.ts:358-363 | one config per selected registered path, in selection order: the i-th is the config of the i-th such path |
| Builder.Copy | src/lib/UIBuilder.ts:345-369 | replaces only the clipboard, with the configs of the selected ids that still exist, one per id and in selection order |
| Builder.CopiedNodesOfBuilder | src/lib/UIBuilder.ts:350-355 | the copied nodes are the configs of the selected registered nodes: each one is copied, nothing else is, and the i-th entry belongs to the i-th such node |
| Builder.CopiedPathsOfBuilder | src/lib/UIBuilder.ts:358-363 | the copied paths are the configs of the selected registered paths: each one is copied, nothing else is, and the i-th entry belongs to the i-th such path |
| Builder.TypeCaption | src/lib/UIBuilder.ts:304 | the active type's label when it has a non-empty one, otherwise "New Node" |
| Builder.TypeSize | src/lib/UIBuilder.ts:305 | the active type's default size when it has one, otherwise 200×120 |
| Builder.Placed | src/lib/UIBuilder.ts:300-309 | a placed node is draggable and uses the type's caption and size at the click point; overrides win |
| Builder.AddNodeAtPosition | src/lib/UIBuilder.ts:294-314 | always checkpoints; it fails on a duplicate id and otherwise appends the placed node |
| Builder.CanvasClick | src/lib/UIBuilder.ts:109-115 | in select mode it clears the selection; in add-node mode it places a node at the raw click point; in the other modes it does nothing |
| Builder.HandleNodeClick | src/lib/UIBuilder.ts:182-196 | select mode toggles the node, add-path mode continues the path protocol, delete mode deletes the node, and add-node mode does nothing |
| Builder.NodeClick | src/lib/Node.ts:149-158 | the node's own click, without the canvas click before it: a click on a missing or focused node does nothing; otherwise the builder handles it |
| Builder.SelectedNodeKeepsSelection | src/lib/UIBuilder.ts:182-196 | the node's listener alone, in select mode, for a node with one listener: it selects and focuses the node, and a second listener call is swallowed |
| Builder.DoubleNodeClick | src/lib/UIBuilder.ts:460-464 | the node's own click on a node with two listeners: the handler runs twice behind one focus check; a missing or focused node swallows the click |
| Builder.DoubleClickSelect | src/lib/UIBuilder.ts:246-252 | the two listeners alone, in select mode: the toggles cancel, the selection is unchanged and the node is focused only if it was selected |
| Builder.PressNode | src/lib/Canvas.ts:209-219 | a press and release on a node runs the canvas click and then the node's click; in add-path and delete mode, where the canvas click does nothing, it is the node's click alone; the builder stays consistent |
| Builder.PressSelectsOnly | src/lib/UIBuilder.ts:109-115 | in select mode, a press on a registered node with one listener selects exactly that node and no path, and focuses it; only a node focused without being selected swallows the click and ends with nothing selected |
| Builder.PressPlacedSelectsNothing | src/lib/UIBuilder.ts:109-115 | in select mode, a press on a node the builder placed leaves no node and no path selected |
| Builder.PressAddsNode | src/lib/UIBuilder.ts:109-115 | in add-node mode, a press on a node places a new node at the pointer, exactly as a click on the empty canvas does |
| Builder.ClicksIgnoredWhenAdding | src/lib/UIBuilder.ts:182-196 | in add-node mode a node's click, with one listener or two, leaves the builder as it is and reports nothing |
| Builder.DoubleClickStartsPath | src/lib/UIBuilder.ts:198-214 | with two listeners, the first add-path click records the start once |
| Builder.DoubleClickRestartsPath | src/lib/UIBuilder.ts:198-214 | with two listeners, a click that completes a path connects the nodes and starts a new pending path at the end node |
| Builder.DoubleClickDelete | src/lib/UIBuilder.ts:316-320 | with two listeners, a delete-mode click pushes two checkpoints, the top one without the node |
| Builder.Shifted | src/lib/UIBuilder.ts:385-392 | the pasted config is the copied one under the new id, moved by (50, 50) |
| Builder.PasteStep | src/lib/UIBuilder.ts:394-396 | adds the pasted node, focused, and selects it |
| Builder.PasteNodes | src/lib/UIBuilder.ts:381-397 | pastes the copies in order and stops at the first duplicate id |
| Builder.Paste | src/lib/UIBuilder.ts:371-401 | does nothing with an empty clipboard; otherwise it checkpoints and succeeds iff all new ids are fresh, each new node being its copy moved by (50, 50) and selected; paths are untouched |
| Builder.PasteSelectsPasted | src/lib/UIBuilder.ts:371-401 | a successful paste leaves exactly the new ids selected |
| Builder.SetActiveNodeType | src/lib/UIBuilder.ts:522-527 | only a registered type becomes active |
| Builder.AddNodeType | src/lib/UIBuilder.ts:506-508 | registers the type under its name, and other types stay |
| Builder.RemoveNodeType | src/lib/UIBuilder.ts:510-512 | reports whether the type was registered and unregisters it, and other types stay |
| Builder.RemovedTypeFallsBack | src/lib/UIBuilder.ts:297-305 | after removing the active type, new nodes fall back to "New Node" at 200×120 |
| Keyboard.Lower | src/lib/UIBuilder.ts:129 | lower-casing maps each character on its own |
| Keyboard.LowerIdempotent | src/lib/UIBuilder.ts:129 | lower-casing twice is lower-casing once |
| Keyboard.Shortcut | src/lib/UIBuilder.ts:123-180 | nothing happens when shortcuts are off or the target is not the canvas; with Ctrl/Cmd only undo, redo, copy, paste and select-all fire, and without them only escape, delete and mode switches do |
| Keyboard.ShortcutInsensitive | src/lib/UIBuilder.ts:129-130 | the key is compared without case, and Ctrl and Cmd are interchangeable |
| Keyboard.UndoRedoKeys | src/lib/UIBuilder.ts:132-141 | undo is exactly Ctrl/Cmd+Z and redo exactly Ctrl/Cmd+Shift+Z |
| Keyboard.ModeKeys | src/lib/UIBuilder.ts:166-177 | each mode is chosen exactly by its digit, pressed without Ctrl or Cmd |
| Keyboard.Perform | src/lib/UIBuilder.ts:132-178 | escape returns to select mode with nothing selected; undo and redo move one snapshot between the stacks and do nothing on an empty stack; every shortcut keeps the builder consistent |
| Keyboard.KeyDown | src/lib/UIBuilder.ts:126-179 | a press that is no shortcut changes nothing, and every press keeps the builder consistent |
| Keyboard.IgnoredPresses | src/lib/UIBuilder.ts:124-127 | with shortcuts off or the focus outside the canvas, no key press changes anything |
| AsWritten.SaveState | src/lib/UIBuilder.ts:403-413 | succeeds iff the scene holds no node and no path, and is then the intended `saveState`, pushing a blank snapshot |
| AsWritten.SaveStateKeepsBlank | src/lib/UIBuilder.ts:403-413 | a checkpoint that goes through keeps every snapshot on the stacks blank |
| AsWritten.Undo | src/lib/UIBuilder.ts:416-426 | nothing happens on an empty stack; on a scene with a node or a path the export throws and the builder stays as it was; on an empty scene it is the intended `undo` |
| AsWritten.Redo | src/lib/UIBuilder.ts:428-438 | the mirror image of `undo`: nothing on an empty stack, the builder unchanged with an error on a non-empty scene, the intended `redo` otherwise |
| AsWritten.UndoRedoKeepBlank | src/lib/UIBuilder.ts:416-438 | undo and redo keep every snapshot blank |
| AsWritten.UndoRestoresNothing | src/lib/UIBuilder.ts:416-426 | from blank snapshots, an undo that goes through leaves a scene with no node and no path, and reports no error |
| AsWritten.PathCreation | src/lib/UIBuilder.ts:198-214 | never changes a node or a path; a click that completes a path on a non-empty scene throws at its checkpoint and leaves the builder as it was; the other clicks are the intended ones |
| AsWritten.TwoClicksNeverConnect | src/lib/UIBuilder.ts:198-214 | two clicks on different registered nodes record the start and then throw at the checkpoint, the start still pending |
| AsWritten.DeleteNode | src/lib/UIBuilder.ts:316-320 | never deletes a node or a path and never answers true; on a non-empty scene the checkpoint throws and the builder stays; on an empty one it is the intended `deleteNode` |
| AsWritten.DeleteSelected | src/lib/UIBuilder.ts:322-338 | never removes a node or a path; with a selection on a non-empty scene the checkpoint throws and the builder stays; on an empty scene it is the intended `deleteSelected` |
| AsWritten.AddNodeAtPosition | src/lib/UIBuilder.ts:294-314 | succeeds iff the scene holds no node and no path, and then the new node is the only one; otherwise the checkpoint throws and the builder stays |
| AsWritten.Paste | src/lib/UIBuilder.ts:371-401 | nothing with an empty clipboard; on a non-empty scene the checkpoint throws and the builder stays; on an empty scene it is the intended `paste` |
| AsWritten.CanvasClick | src/lib/UIBuilder.ts:109-115 | the intended canvas click, except that in add-node mode on a non-empty scene the placement throws and the builder stays |
| AsWritten.HandleNodeClick | src/lib/UIBuilder.ts:182-196 | no mode adds or removes a node or a path; select and add-node mode are the intended ones; delete mode on a non-empty scene throws and the builder stays |
| AsWritten.NodeClick | src/lib/Node.ts:149-158 | no click adds or removes a node or a path; in delete mode a click on a registered unfocused node throws at the checkpoint and the builder stays |
| AsWritten.DoubleNodeClick | src/lib/UIBuilder.ts:460-464 | with two listeners, no click adds or removes a node or a path; select and add-node mode are the intended ones |
| AsWritten.PressNode | src/lib/Canvas.ts:209-219 | a press on a registered node never adds or removes a node or a path in any mode; in select mode it is the intended press |
| AsWritten.Perform | src/lib/UIBuilder.ts:132-178 | undo, redo, paste and delete leave the builder as it was on a non-empty scene; every other shortcut, and every shortcut on an empty scene, is the intended one |
| AsWritten.KeyDown | src/lib/UIBuilder.ts:126-179 | a press that is no shortcut changes nothing; an editing shortcut on a non-empty scene leaves the builder as it was; on an empty scene every press is the intended one |

## Left out

- `src/lib/BuilderUI.ts`, `src/lib/CircuitUIReact.ts`, `src/demo/portfolio.ts`, `script.js`, `src/index.ts` and `vite.config.ts` are not part of this model. They hold HTML panels, React glue, demo content, a legacy page, re-exports and build config.
- `src/lib/types.ts` only declares types. The datatypes follow it.
- SVG and DOM element creation, styling, CSS transitions and cursor changes are left out. So are `hide`, `show`, `setStyle`, `setColor`, `setWidth`, `setOpacity`, `highlight`, `pulse` and path animation, because they only change what is drawn.
- Event emission (`emit`, `emitEvent`, `CustomEvent`) and listener lists are left out. The model returns the event an operation would emit where the event matters, as in `Nodes.Click`.
- Listener lists are not modelled as data. What they do to node clicks is modelled instead. The `addNode` override (`src/lib/UIBuilder.ts:460-464`) gives every node one `handleNodeClick` listener. Nodes that the builder places itself get a second listener from an explicit `setupNodeBuilderEvents` call: `addNodeAtPosition` (`:312`), `paste` (`:395`) and `loadFromSchema`, which undo and redo also use (`:451`). For those nodes one click runs the handler twice behind a single focus check (`Builder.DoubleNodeClick`):
  - in select mode the two toggles cancel, so such a node cannot be selected by clicking it (`Builder.DoubleClickSelect`);
  - in add-path mode a click that completes a path starts a new pending path at the end node (`Builder.DoubleClickRestartsPath`);
  - in delete mode two checkpoints are pushed, and the top one already lacks the node (`Builder.DoubleClickDelete`).

  `Builder.NodeClick`, `Builder.SelectedNodeKeepsSelection`, `Builder.PathCreation` and `Builder.TwoClicksConnect` describe nodes with a single listener, i.e. nodes added through `addNode` by the caller.
- Builder.NodeClick: is the node's own click alone. A real press runs the canvas click first; that whole press is `Builder.PressNode`.
- Builder.SelectedNodeKeepsSelection: is the node's listener alone. After a real press in select mode exactly the pressed node is selected (`Builder.PressSelectsOnly`).
- Builder.DoubleNodeClick: is the two listeners alone, without the canvas click before them (`Builder.PressNode` with `doubled`).
- Builder.DoubleClickSelect: is the two listeners alone. After a real press in select mode nothing is selected (`Builder.PressPlacedSelectsNothing`).
- `requestAnimationFrame` and `Date.now()` timing are left out. An animation is a pure frame function of elapsed time (`Easing.Frame`, `Easing.Animate`) plus its final viewport. Navigation functions return the final viewport of their animation.
- Ids from `Date.now()` and `Math.random()` are left out. They become parameters.
- Touch handlers are left out. They forward to the mouse handlers that are modelled.
- Node drag moves are left out, because `handleDragMove` does nothing.
- The waypoint `direction` tag is left out, because no code reads it.
- `console` logging and the debug overlay are left out. Only the overlay's screen-to-world formula is kept (`Viewports.ScreenToWorld`).
- The schema's `metadata` timestamps are left out.
- `toSchema` calls getters that neither class defines: `getClassName`, `isDraggable`, `getZIndex`, `getType` and `getData` on a node (`src/lib/CircuitUI.ts:421-425`, against `src/lib/Node.ts:370-375`), and `getClassName` on a path (`src/lib/CircuitUI.ts:437`, against `src/lib/Path.ts:351-357`). So it throws a `TypeError` on every scene holding a node or a path (`Schemas.ToSchemaAsWritten`, see "Findings"). The intended export (`Schemas.ToSchema`) writes each node's config record, which holds all of those fields, and each path's config.
- The `Map` and `Set` records are left out. JSON text is left out too: `exportToJSON` and `importFromJSON` are `JSON.stringify` and `JSON.parse` around the schema record.
- `searchNodes` and `highlightNodes` are left out. Their search relies on Unicode `toLowerCase`, and highlighting is styling only.
- Keyboard.Lower: folds only the ASCII letters A to Z, not the full Unicode `toLowerCase`. Only ASCII key names reach the shortcuts.
- `mergeBuilderConfig` toolbar and panel settings are left out. `shortcuts.enabled` is the `enabled` parameter of `Keyboard.Shortcut`, and custom keys are never read.
- Coordinates are exact reals, not IEEE-754 doubles. Rounding, `Infinity` and `NaN` are not modelled.
- Navigation.NavigateToNode, Navigation.ZoomTo and Navigation.ZoomToFit exclude a zero node size, a zero current zoom and zero-size content by precondition. With those inputs the source divides by zero and computes `Infinity` or `NaN`.
- Easing.Progress: excludes a non-positive duration by precondition, for the same reason.
- The canvas's DOM `container` and `getViewportSize` are not modelled. `dimensions` is merged with its 3000×2000 default and exported (`Viewports.DefaultsAndRoundTrip`), but it is never used as the screen size: the screen size is an explicit parameter, as the source reads it from the container.
- Navigation.MergeNavigation: keeps only duration, zoom-out, fit-to-view and padding. `onComplete` is a callback into caller code.
- Builder.PasteNodes: an error stops the paste mid-way, as the source's thrown exception does. Nodes pasted before the error stay.
- Schemas.ToSchema: is the intended export. As written, `toSchema` throws on every scene with a node or a path (`Schemas.ToSchemaAsWritten`).
- Schemas.SchemaRoundTrip: holds of the intended export. As written, the export throws on every non-empty scene, so there is nothing to import (`Schemas.ExportRoundTripFails`).
- Schemas.ExportedNodes: describes the node entries of the intended export. The export as written throws before it produces any (`Schemas.ToSchemaAsWritten`).
- Schemas.ExportedPaths: describes the path entries of the intended export. The export as written throws before it produces any (`Schemas.ToSchemaAsWritten`).
- Builder.SaveState: uses the intended export. As written, taking the snapshot throws on a scene with a node or a path, and nothing is pushed (`AsWritten.SaveState`).
- Builder.LoadExported: loads a snapshot of the intended export. As written, every snapshot on the stacks is of an empty scene (`AsWritten.UndoRedoKeepBlank`).
- Builder.Undo: uses the intended export. As written, undo on a non-empty scene throws and changes nothing (`AsWritten.Undo`).
- Builder.Redo: uses the intended export. As written, redo on a non-empty scene throws and changes nothing (`AsWritten.Redo`).
- Builder.UndoPushes: describes the intended undo. As written, the push is never reached on a non-empty scene (`AsWritten.Undo`).
- Builder.RedoExported: relies on the intended export. As written, no snapshot of a non-empty scene exists (`AsWritten.SaveState`).
- Builder.UndoThenRedo: holds of the intended undo and redo. As written, undo on a non-empty scene throws at its first step (`AsWritten.Undo`).
- Builder.UndoThenRedoStacks: holds of the intended undo and redo. As written, both throw on a non-empty scene and leave the stacks alone (`AsWritten.Undo`, `AsWritten.Redo`).
- Builder.UndoRestoresCheckpoint: holds of the intended checkpoint. As written, an undo that goes through restores a scene with no node and no path (`AsWritten.UndoRestoresNothing`).
- Builder.PathCreation: uses the intended checkpoint. As written, the completing click throws at `saveState` and no path is added (`AsWritten.PathCreation`).
- Builder.TwoClicksConnect: uses the intended checkpoint. As written, the second click throws and the start stays pending (`AsWritten.TwoClicksNeverConnect`).
- Builder.DeleteNode: uses the intended checkpoint. As written, the checkpoint throws on a non-empty scene and nothing is deleted (`AsWritten.DeleteNode`).
- Builder.DeleteSelected: uses the intended checkpoint. As written, nothing is ever removed (`AsWritten.DeleteSelected`).
- Builder.AddNodeAtPosition: uses the intended checkpoint. As written, a node can be placed only on an empty scene (`AsWritten.AddNodeAtPosition`).
- Builder.CanvasClick: uses the intended checkpoint in add-node mode (`AsWritten.CanvasClick`). It is the canvas handler alone; on a node it runs before the node's click (`Builder.PressNode`).
- Builder.HandleNodeClick: uses the intended checkpoint in add-path and delete mode. As written, no mode changes which nodes and paths exist (`AsWritten.HandleNodeClick`).
- Builder.DoubleClickRestartsPath: uses the intended checkpoint. As written, the completing run throws before it connects (`AsWritten.DoubleNodeClick`, `AsWritten.PathCreation`).
- Builder.DoubleClickDelete: uses the intended checkpoint. As written, the first run throws and pushes no checkpoint (`AsWritten.DoubleNodeClick`, `AsWritten.DeleteNode`).
- Builder.Paste: uses the intended checkpoint. As written, paste on a non-empty scene throws and nothing is pasted (`AsWritten.Paste`).
- Builder.PasteSelectsPasted: describes the intended paste. As written, the selection is reached only on an empty scene (`AsWritten.Paste`).
- Keyboard.Perform: uses the intended export. As written, undo, redo, paste and delete leave a non-empty scene's builder as it was (`AsWritten.Perform`).
- Keyboard.KeyDown: uses the intended export. As written, an editing shortcut on a non-empty scene changes nothing (`AsWritten.KeyDown`).

## Findings

| source | as written | input that shows it | evidently intended | confidence | as-written member | corrected member |
|---|---|---|---|---|---|---|
| src/lib/CircuitUI.ts:421-425 | `toSchema` calls `getClassName`, `isDraggable`, `getZIndex`, `getType` and `getData` on each node, and `getClassName` on each path (:437); the classes define none of them | a scene with one node | export each node's and each path's config | not executed | Schemas.ToSchemaAsWritten | Schemas.ToSchema |
| src/lib/UIBuilder.ts:403-413 | `saveState` calls the throwing `toSchema` before it pushes | a builder whose scene holds one node | push a snapshot of the scene | not executed | AsWritten.SaveState | Builder.SaveState |
| src/lib/UIBuilder.ts:416-426 | `undo` calls the throwing `toSchema` before it restores | one checkpoint taken on an empty scene, then one node added through `addNode`, then undo | the current scene goes to the redo stack and the checkpoint is restored | not executed | AsWritten.Undo | Builder.Undo |
| src/lib/UIBuilder.ts:428-438 | `redo` calls the throwing `toSchema` before it restores | a non-empty redo stack and a scene with one node | the current scene goes to the undo stack and the redone scene is restored | not executed | AsWritten.Redo | Builder.Redo |
| src/lib/UIBuilder.ts:198-214 | the completing click of a path calls the throwing `saveState` before `connectNodes` | add-path mode, clicks on two registered nodes | the two nodes are connected | not executed | AsWritten.PathCreation | Builder.PathCreation |
| src/lib/UIBuilder.ts:316-320 | `deleteNode` calls the throwing `saveState` first | delete mode, a click on a registered node | the node is removed | not executed | AsWritten.DeleteNode | Builder.DeleteNode |
| src/lib/UIBuilder.ts:322-338 | `deleteSelected` calls the throwing `saveState` first | one node selected, then Delete | the selected nodes and paths are removed | not executed | AsWritten.DeleteSelected | Builder.DeleteSelected |
| src/lib/UIBuilder.ts:294-314 | `addNodeAtPosition` calls the throwing `saveState` first | add-node mode, a click on the canvas of a scene with one node | a second node is placed | not executed | AsWritten.AddNodeAtPosition | Builder.AddNodeAtPosition |
| src/lib/UIBuilder.ts:371-401 | `paste` calls the throwing `saveState` first | one node copied, then paste | the copy is pasted 50 units off and selected | not executed | AsWritten.Paste | Builder.Paste |
| src/lib/UIBuilder.ts:109-115 | the add-node branch of the canvas click reaches the throwing `saveState` | add-node mode, a click on the canvas of a scene with one node | a node is placed at the pointer | not executed | AsWritten.CanvasClick | Builder.CanvasClick |
| src/lib/UIBuilder.ts:182-196 | the delete branch and the completing add-path branch reach the throwing `saveState` | delete mode, a click on a registered node | the node is deleted | not executed | AsWritten.HandleNodeClick | Builder.HandleNodeClick |
| src/lib/UIBuilder.ts:132-178 | undo, redo, paste and delete shortcuts reach the throwing `toSchema` | Ctrl+Z with one checkpoint on a scene with one node | the checkpoint is restored | not executed | AsWritten.Perform | Keyboard.Perform |
| src/lib/UIBuilder.ts:126-179 | the `keydown` listener hands its editing shortcuts to the throwing operations | Delete with one node selected | the node is removed | not executed | AsWritten.KeyDown | Keyboard.KeyDown |

=== FILE: as_written.dfy ===
/** The builder's editing operations as `src/lib/UIBuilder.ts` runs them,
    with the `toSchema` that throws on the first node or path
    (`Schemas.ToSchemaAsWritten`). `saveState`, `undo` and `redo` call it
    before they change anything, so a snapshot that throws leaves the builder
    as it was, and the exception leaves the operation. The members of
    `Builder` use the intended export instead; each operation here is
    related to its counterpart there, and on a scene with no node and no
    path the two agree. */
module AsWritten {
  import opened Results
  import opened Geometry
  import opened Registry
  import opened Scenes
  import opened Schemas
  import Builder
  import Keyboard

  /** Why an operation stopped: its snapshot threw, or the scene refused
      the change. */
  datatype Failure = SnapshotFailed(thrown: ExportError) | SceneFailed(refused: SceneError)

  /** The outcome of an operation of `Builder`, its scene error wrapped as a
      `Failure`. */
  function Lifted(r: (Builder.Builder, Option<SceneError>)): (Builder.Builder, Option<Failure>) {
    (r.0, if r.1.Some? then Some(SceneFailed(r.1.value)) else None)
  }

  /** The error `toSchema` throws on a scene it cannot export. */
  function Thrown(s: Scene): ExportError
    requires !Exportable(s)
  {
    ToSchemaAsWritten(s).error
  }

  /** A registry in which no key is registered is empty. */
  lemma NothingRegistered<T>(r: seq<Entry<T>>)
    requires forall k :: !Has(r, k)
    ensures r == []
  {
    if |r| > 0 {
      assert Has(r, r[0].key);
    }
  }

  /** `saveState`: `toSchema` first, then the push. It succeeds exactly on a
      scene with nothing in it, then doing what the intended `saveState`
      does, and the snapshot it pushes is of an empty scene. */
  function SaveState(b: Builder.Builder): (r: Result<Builder.Builder, ExportError>)
    ensures r.Ok? <==> Exportable(b.scene)
    ensures r.Ok? ==> r.value == Builder.SaveState(b)
    ensures r.Ok? ==> Blank(r.value.undo[|r.value.undo| - 1])
  {
    match ToSchemaAsWritten(b.scene)
    case Err(e) => Err(e)
    case Ok(sc) => Ok(Builder.Push(b, sc))
  }

  /** Is the snapshot one of a scene with no node and no path? */
  predicate Blank(sc: Schema) {
    sc.nodes == [] && sc.paths == []
  }

  /** Every snapshot on either stack is blank. This holds of a new builder
      (both stacks are empty) and every snapshot operation keeps it. */
  predicate BlankSnapshots(b: Builder.Builder) {
    && (forall i :: 0 <= i < |b.undo| ==> Blank(b.undo[i]))
    && (forall i :: 0 <= i < |b.redo| ==> Blank(b.redo[i]))
  }

  /** `undo`: with an empty stack nothing happens; otherwise `toSchema` of
      the current scene comes first, and its throw stops the undo before
      anything changes. On a scene with nothing in it, this is the intended
      `undo`. */
  function Undo(b: Builder.Builder, gen: seq<string>): (r: (Builder.Builder, bool, Option<Failure>))
    requires |b.undo| > 0 ==> |gen| == |b.undo[|b.undo| - 1].paths|
    requires forall i :: 0 <= i < |gen| ==> gen[i] != ""
    ensures |b.undo| == 0 ==> r == (b, false, None)
    ensures |b.undo| > 0 && !Exportable(b.scene) ==> r == (b, false, Some(SnapshotFailed(Thrown(b.scene))))
    ensures Exportable(b.scene) ==>
      var u := Builder.Undo(b, gen);
      r == (u.0, u.1, Lifted((u.0, u.2)).1)
  {
    if |b.undo| == 0 then (b, false, None)
    else
      match ToSchemaAsWritten(b.scene)
      case Err(e) => (b, false, Some(SnapshotFailed(e)))
      case Ok(sc) =>
        var loaded := Builder.LoadFromSchema(b, b.undo[|b.undo| - 1], gen);
        (loaded.0.(undo := b.undo[..|b.undo| - 1], redo := b.redo + [sc]), true, Lifted(loaded).1)
  }

  /** `redo`: the mirror image of `undo`. */
  function Redo(b: Builder.Builder, gen: seq<string>): (r: (Builder.Builder, bool, Option<Failure>))
    requires |b.redo| > 0 ==> |gen| == |b.redo[|b.redo| - 1].paths|
    requires forall i :: 0 <= i < |gen| ==> gen[i] != ""
    ensures |b.redo| == 0 ==> r == (b, false, None)
    ensures |b.redo| > 0 && !Exportable(b.scene) ==> r == (b, false, Some(SnapshotFailed(Thrown(b.scene))))
    ensures Exportable(b.scene) ==>
      var u := Builder.Redo(b, gen);
      r == (u.0, u.1, Lifted((u.0, u.2)).1)
  {
    if |b.redo| == 0 then (b, false, None)
    else
      match ToSchemaAsWritten(b.scene)
      case Err(e) => (b, false, Some(SnapshotFailed(e)))
      case Ok(sc) =>
        var loaded := Builder.LoadFromSchema(b, b.redo[|b.redo| - 1], gen);
        (loaded.0.(redo := b.redo[..|b.redo| - 1], undo := b.undo + [sc]), true, Lifted(loaded).1)
  }

  /** `saveState` keeps every snapshot blank. */
  lemma SaveStateKeepsBlank(b: Builder.Builder)
    requires BlankSnapshots(b) && SaveState(b).Ok?
    ensures BlankSnapshots(SaveState(b).value)
  {
    var r := SaveState(b).value;
    forall i | 0 <= i < |r.undo|
      ensures Blank(r.undo[i])
    {
      if i < |r.undo| - 1 {
        assert r.undo[i] == r.undo[..|r.undo| - 1][i];
      }
    }
  }

  /** `undo` and `redo` keep every snapshot blank: what they push is the
      export of an empty scene, and what stays was there before. */
  lemma UndoRedoKeepBlank(b: Builder.Builder)
    requires BlankSnapshots(b)
    ensures |b.undo| > 0 ==> |b.undo[|b.undo| - 1].paths| == 0 && BlankSnapshots(Undo(b, []).0)
    ensures |b.redo| > 0 ==> |b.redo[|b.redo| - 1].paths| == 0 && BlankSnapshots(Redo(b, []).0)
  {
    if |b.undo| > 0 {
      assert Blank(b.undo[|b.undo| - 1]);
      var r := Undo(b, []).0;
      if Exportable(b.scene) {
        assert r.undo == b.undo[..|b.undo| - 1] && r.redo == b.redo + [ToSchema(b.scene)];
      }
    }
    if |b.redo| > 0 {
      assert Blank(b.redo[|b.redo| - 1]);
      var r := Redo(b, []).0;
      if Exportable(b.scene) {
        assert r.redo == b.redo[..|b.redo| - 1] && r.undo == b.undo + [ToSchema(b.scene)];
      }
    }
  }

  /** The discrepancy in `undo`: from blank snapshots, an undo that goes
      through leaves a scene with no node and no path. So no undo ever brings
      back a node or a path, where the intended one restores the checkpoint
      (`Builder.UndoRestoresCheckpoint`). */
  lemma UndoRestoresNothing(b: Builder.Builder)
    requires BlankSnapshots(b) && |b.undo| > 0
    ensures |b.undo[|b.undo| - 1].paths| == 0
    ensures var r := Undo(b, []);
      r.1 ==> r.0.scene.nodes == [] && r.0.scene.paths == [] && r.2.None?
  {
    var top := b.undo[|b.undo| - 1];
    assert Blank(top);
    assert NodeIds(top.nodes) == [];
    assert PathIds(top.paths, []) == [];
  }

  /** `handlePathCreation`: the snapshot is taken only when a click on a
      second node completes the path, and there it throws, since both nodes
      are in the scene. So no click ever adds a path or changes a node; a
      click that does not complete a path, or one on a scene with nothing in
      it, does what the intended one does. */
  function PathCreation(b: Builder.Builder, id: string, freshId: string): (r: (Builder.Builder, Option<Failure>))
    requires freshId != ""
    ensures r.0.scene.paths == b.scene.paths && r.0.scene.nodes == b.scene.nodes
    ensures Exportable(b.scene) || b.state.pathStart.None? || b.state.pathStart == Some(id) ==>
      r == Lifted(Builder.PathCreation(b, id, freshId))
    ensures !Exportable(b.scene) && b.state.pathStart.Some? && b.state.pathStart.value != id ==>
      r == (b, Some(SnapshotFailed(Thrown(b.scene))))
  {
    match b.state.pathStart
    case None => (b.(state := b.state.(pathStart := Some(id))), None)
    case Some(start) =>
      if start == id then (b, None)
      else
        match SaveState(b)
        case Err(e) => (b, Some(SnapshotFailed(e)))
        case Ok(_) => Lifted(Builder.PathCreation(b, id, freshId))
  }

  /** The discrepancy in the two-click path: where the intended builder
      connects two registered nodes (`Builder.TwoClicksConnect`), the second
      click as written throws at its snapshot and leaves the builder as the
      first click left it, the start still pending. */
  lemma TwoClicksNeverConnect(b: Builder.Builder, a: string, c: string, freshId: string)
    requires freshId != "" && b.state.pathStart.None? && a != c
    requires Has(b.scene.nodes, a) && Has(b.scene.nodes, c)
    ensures var first := PathCreation(b, a, freshId);
      var second := PathCreation(first.0, c, freshId);
      && first.1.None? && first.0.state.pathStart == Some(a)
      && second == (first.0, Some(SnapshotFailed(NotAFunction("node", "getClassName"))))
  {
  }

  /** `deleteNode`: the snapshot comes first. On a scene with nothing in it
      there is nothing to delete and this is the intended `deleteNode`;
      otherwise the snapshot throws. Either way no node is deleted and the
      answer, when there is one, is false. */
  function DeleteNode(b: Builder.Builder, id: string): (r: (Builder.Builder, bool, Option<ExportError>))
    ensures r.0.scene.nodes == b.scene.nodes && r.0.scene.paths == b.scene.paths && !r.1
    ensures Exportable(b.scene) ==> var d := Builder.DeleteNode(b, id); r == (d.0, d.1, None)
    ensures !Exportable(b.scene) ==> r == (b, false, Some(Thrown(b.scene)))
  {
    match SaveState(b)
    case Err(e) => (b, false, Some(e))
    case Ok(_) =>
      var d := Builder.DeleteNode(b, id);
      NothingRegistered(d.0.scene.nodes);
      (d.0, d.1, None)
  }

  /** `deleteSelected`: with nothing selected nothing happens; otherwise the
      snapshot comes first. On a scene with nothing in it this is the
      intended `deleteSelected`; otherwise the snapshot throws. Either way
      nothing is ever removed. */
  function DeleteSelected(b: Builder.Builder): (r: (Builder.Builder, Option<ExportError>))
    ensures r.0.scene.nodes == b.scene.nodes && r.0.scene.paths == b.scene.paths
    ensures Exportable(b.scene) ==> r == (Builder.DeleteSelected(b), None)
    ensures !Exportable(b.scene) ==>
      r == if |b.state.selectedNodes| == 0 && |b.state.selectedPaths| == 0 then (b, None) else (b, Some(Thrown(b.scene)))
  {
    if |b.state.selectedNodes| == 0 && |b.state.selectedPaths| == 0 then (b, None)
    else
      match SaveState(b)
      case Err(e) => (b, Some(e))
      case Ok(_) =>
        var d := Builder.DeleteSelected(b);
        NothingRegistered(d.scene.nodes);
        NothingRegistered(d.scene.paths);
        (d, None)
  }

  /** `addNodeAtPosition`: the snapshot comes first, so a node can be placed
      only on a scene with nothing in it, where it becomes the only node;
      there this is the intended `addNodeAtPosition`. */
  function AddNodeAtPosition(b: Builder.Builder, p: Point, ov: Builder.NodeOverrides, freshId: string)
    : (r: (Builder.Builder, Option<Failure>))
    ensures r.1.None? <==> Exportable(b.scene)
    ensures r.1.None? ==> |r.0.scene.nodes| == 1 && r.0.scene.nodes[0].key == ov.id.GetOr(freshId)
    ensures Exportable(b.scene) ==> r == Lifted(Builder.AddNodeAtPosition(b, p, ov, freshId))
    ensures !Exportable(b.scene) ==> r == (b, Some(SnapshotFailed(Thrown(b.scene))))
  {
    match SaveState(b)
    case Err(e) => (b, Some(SnapshotFailed(e)))
    case Ok(_) => Lifted(Builder.AddNodeAtPosition(b, p, ov, freshId))
  }

  /** `paste`: nothing happens with an empty clipboard; otherwise the
      snapshot comes first, so the copied nodes are pasted only into a scene
      with nothing in it, where this is the intended `paste`. */
  function Paste(b: Builder.Builder, ids: seq<string>): (r: (Builder.Builder, Option<Failure>))
    requires |ids| == |b.state.clipboard.nodes|
    ensures |ids| == 0 ==> r == (b, None)
    ensures |ids| > 0 && !Exportable(b.scene) ==> r == (b, Some(SnapshotFailed(Thrown(b.scene))))
    ensures Exportable(b.scene) ==> r == Lifted(Builder.Paste(b, ids))
  {
    if |ids| == 0 then (b, None)
    else
      match SaveState(b)
      case Err(e) => (b, Some(SnapshotFailed(e)))
      case Ok(_) => Lifted(Builder.Paste(b, ids))
  }

  /** The canvas `click`: select mode clears the selection, add-node mode
      places a node, which throws unless the scene has nothing in it. */
  function CanvasClick(b: Builder.Builder, p: Point, freshId: string): (r: (Builder.Builder, Option<Failure>))
    ensures b.state.mode != Builder.AddNodeMode || Exportable(b.scene) ==> r == Lifted(Builder.CanvasClick(b, p, freshId))
    ensures b.state.mode == Builder.AddNodeMode && !Exportable(b.scene) ==>
      r == (b, Some(SnapshotFailed(Thrown(b.scene))))
  {
    match b.state.mode
    case SelectMode => (Builder.ClearSelection(b), None)
    case AddNodeMode => AddNodeAtPosition(b, p, Builder.NoNodeOverrides, freshId)
    case _ => (b, None)
  }

  /** `handleNodeClick`: select mode toggles, add-path mode feeds the
      two-click path, delete mode deletes and add-node mode ignores the
      click. No mode adds or removes a node or a path: the snapshots of
      the completing click and of the deletion throw on the scene that holds
      the clicked node. In select and add-node mode, and on a scene with
      nothing in it, this is the intended `handleNodeClick`. */
  function HandleNodeClick(b: Builder.Builder, id: string, freshId: string): (r: (Builder.Builder, Option<Failure>))
    requires freshId != ""
    ensures forall k :: Has(r.0.scene.nodes, k) <==> Has(b.scene.nodes, k)
    ensures r.0.scene.paths == b.scene.paths
    ensures b.state.mode == Builder.SelectMode || b.state.mode == Builder.AddNodeMode || Exportable(b.scene) ==>
      r == Lifted(Builder.HandleNodeClick(b, id, freshId))
    ensures b.state.mode == Builder.DeleteMode && !Exportable(b.scene) ==>
      r == (b, Some(SnapshotFailed(Thrown(b.scene))))
  {
    match b.state.mode
    case SelectMode => (Builder.ToggleNode(b, id), None)
    case AddPathMode => PathCreation(b, id, freshId)
    case DeleteMode =>
      var d := DeleteNode(b, id);
      (d.0, if d.2.Some? then Some(SnapshotFailed(d.2.value)) else None)
    case AddNodeMode => (b, None)
  }

  /** A click that reaches a registered node: a focused node swallows it,
      any other hands it to `handleNodeClick`. As written, no click on a node
      adds or removes a node or a path, and a click in delete mode on a node
      that does not swallow it throws. */
  function NodeClick(b: Builder.Builder, id: string, freshId: string): (r: (Builder.Builder, Option<Failure>))
    requires freshId != ""
    ensures forall k :: Has(r.0.scene.nodes, k) <==> Has(b.scene.nodes, k)
    ensures r.0.scene.paths == b.scene.paths
    ensures b.state.mode == Builder.SelectMode || b.state.mode == Builder.AddNodeMode ==>
      r == Lifted(Builder.NodeClick(b, id, freshId))
    ensures b.state.mode == Builder.DeleteMode && Has(b.scene.nodes, id) && !Get(b.scene.nodes, id).value.focused ==>
      r == (b, Some(SnapshotFailed(NotAFunction("node", "getClassName"))))
  {
    match Get(b.scene.nodes, id)
    case None => (b, None)
    case Some(n) => if Nodes.Click(n).1.None? then (b, None) else HandleNodeClick(b, id, freshId)
  }

  /** A click on a node with the builder's two listeners: the handler runs
      twice behind one focus check, and a throw in the first run skips the
      second. As written, no such click adds or removes a node or a path. */
  function DoubleNodeClick(b: Builder.Builder, id: string, freshId: string): (r: (Builder.Builder, Option<Failure>))
    requires freshId != ""
    ensures forall k :: Has(r.0.scene.nodes, k) <==> Has(b.scene.nodes, k)
    ensures r.0.scene.paths == b.scene.paths
    ensures b.state.mode == Builder.SelectMode || b.state.mode == Builder.AddNodeMode ==>
      r == Lifted(Builder.DoubleNodeClick(b, id, freshId))
  {
    match Get(b.scene.nodes, id)
    case None => (b, None)
    case Some(n) =>
      if Nodes.Click(n).1.None? then (b, None)
      else
        var first := HandleNodeClick(b, id, freshId);
        if first.1.Some? then first else HandleNodeClick(first.0, id, freshId)
  }

  /** A press and release on node `id` without a drag: the canvas `click`
      first, then the node's click. As written, a press on a registered node
      never adds or removes a node or a path, whatever the mode: in add-node
      mode the placement's snapshot throws, since the pressed node is in the
      scene. In select mode this is the intended press. */
  function PressNode(b: Builder.Builder, id: string, p: Point, doubled: bool, canvasId: string, freshId: string)
    : (r: (Builder.Builder, Option<Failure>))
    requires freshId != ""
    ensures Has(b.scene.nodes, id) ==>
      (forall k :: Has(r.0.scene.nodes, k) <==> Has(b.scene.nodes, k)) && r.0.scene.paths == b.scene.paths
    ensures b.state.mode == Builder.SelectMode ==> r == Lifted(Builder.PressNode(b, id, p, doubled, canvasId, freshId))
  {
    var c := CanvasClick(b, p, canvasId);
    var n := if doubled then DoubleNodeClick(c.0, id, freshId) else NodeClick(c.0, id, freshId);
    (n.0, if c.1.Some? then c.1 else n.1)
  }

  /** A keyboard shortcut. Undo, redo, paste and delete take a snapshot
      first; on a scene with a node or a path they leave the builder as it
      is. The other shortcuts, and every shortcut on a scene with nothing in
      it, do what the intended ones do. */
  function Perform(b: Builder.Builder, a: Keyboard.Action, gen: seq<string>, pasteIds: seq<string>)
    : (r: (Builder.Builder, Option<Failure>))
    requires Keyboard.Supplied(b, a, gen, pasteIds)
    ensures Exportable(b.scene) || !Editing(a) ==> r == Lifted(Keyboard.Perform(b, a, gen, pasteIds))
    ensures !Exportable(b.scene) && Editing(a) ==> r.0 == b
  {
    match a
    case UndoAction => var u := Undo(b, gen); (u.0, u.2)
    case RedoAction => var u := Redo(b, gen); (u.0, u.2)
    case PasteAction => Paste(b, pasteIds)
    case DeleteAction =>
      var d := DeleteSelected(b);
      (d.0, if d.1.Some? then Some(SnapshotFailed(d.1.value)) else None)
    case _ => Lifted(Keyboard.Perform(b, a, gen, pasteIds))
  }

  /** The shortcuts that take a snapshot. */
  predicate Editing(a: Keyboard.Action) {
    a == Keyboard.UndoAction || a == Keyboard.RedoAction || a == Keyboard.PasteAction || a == Keyboard.DeleteAction
  }

  /** The `keydown` listener. A press that is not a shortcut changes nothing;
      on a scene with a node or a path no press changes which nodes and paths
      exist or the history stacks, except through a mode or selection
      shortcut. */
  function KeyDown(b: Builder.Builder, enabled: bool, e: Keyboard.KeyEvent, gen: seq<string>, pasteIds: seq<string>)
    : (r: (Builder.Builder, Option<Failure>))
    requires Keyboard.Shortcut(enabled, e).Some? ==> Keyboard.Supplied(b, Keyboard.Shortcut(enabled, e).value, gen, pasteIds)
    ensures Keyboard.Shortcut(enabled, e).None? ==> r == (b, None)
    ensures Exportable(b.scene) ==> r == Lifted(Keyboard.KeyDown(b, enabled, e, gen, pasteIds))
    ensures !Exportable(b.scene) && Keyboard.Shortcut(enabled, e).Some? && Editing(Keyboard.Shortcut(enabled, e).value) ==> r.0 == b
  {
    match Keyboard.Shortcut(enabled, e)
    case None => (b, None)
    case Some(a) => Perform(b, a, gen, pasteIds)
  }
}

=== FILE: builder.dfy ===
/** The editing state machine of `src/lib/UIBuilder.ts`: a mode, the node
    and path selections, the pending start of a two-click path, a clipboard,
    the registered node types, and two stacks of scene snapshots for undo and
    redo, all over the scene of `CircuitUI`. Generated ids are parameters;
    the DOM events that drive the builder become the operations below. */
module Builder {
  import opened Results
  import opened Geometry
  import opened Viewports
  import opened Waypoints
  import opened Nodes
  import opened Registry
  import opened Scenes
  import opened Schemas
  import opened OrderedSets

  datatype Mode = SelectMode | AddNodeMode | AddPathMode | DeleteMode

  /** The most snapshots the undo stack keeps. */
  const MaxUndoSteps := 50

  /** A `NodeTypeDefinition`, reduced to what node creation reads; `caption`
      is its `label`. */
  datatype NodeType = NodeType(caption: string, defaultSize: Option<Size>)

  const DefaultTypeName := "default"
  const DefaultNodeType := NodeType("Default Node", Some(Size(200.0, 120.0)))

  datatype Clipboard = Clipboard(nodes: seq<NodeConfig>, paths: seq<PathConfig>)

  /** `BuilderState`; of `pathInProgress` only the start node matters, its
      waypoint list is never filled. */
  datatype BuilderState = BuilderState(
    mode: Mode,
    selectedNodes: seq<string>,
    selectedPaths: seq<string>,
    pathStart: Option<string>,
    clipboard: Clipboard,
    activeNodeType: string)

  /** A `UIBuilder`: the scene it extends, its state, the two snapshot stacks
      (top last) and the node-type registry. */
  datatype Builder = Builder(
    scene: Scene,
    state: BuilderState,
    undo: seq<Schema>,
    redo: seq<Schema>,
    nodeTypes: seq<Entry<NodeType>>)

  /** What every reachable builder satisfies. */
  predicate Inv(b: Builder) {
    && Wf(b.scene)
    && Distinct(b.state.selectedNodes) && Distinct(b.state.selectedPaths)
    && |b.undo| + |b.redo| <= MaxUndoSteps
    && UniqueKeys(b.nodeTypes)
  }

  /** `createInitialState`. */
  const InitialState := BuilderState(SelectMode, [], [], None, Clipboard([], []), DefaultTypeName)

  /** Register node types in order; a later type with the same name replaces
      an earlier one in place. */
  function RegisterTypes(r: seq<Entry<NodeType>>, types: seq<Entry<NodeType>>): (out: seq<Entry<NodeType>>)
    decreases |types|
    ensures forall i :: 0 <= i < |types| ==> Has(out, types[i].key)
    ensures forall k :: Has(r, k) ==> Has(out, k)
    ensures UniqueKeys(r) ==> UniqueKeys(out)
    ensures forall k :: Get(out, k) == if Has(types, k) then LastWrite(types, k) else Get(r, k)
  {
    if |types| == 0 then r
    else
      var r1 := Put(r, types[0].key, types[0].value);
      forall k ensures Get(r1, k) == if types[0].key == k then Some(types[0].value) else Get(r, k) {
        PutThenGet(r, types[0].key, types[0].value, k);
      }
      forall k ensures Has(types, k) <==> types[0].key == k || Has(types[1..], k) {
        HasCons(types, k);
      }
      forall k | Has(r, k) ensures Has(r1, k) {
        var i :| 0 <= i < |r| && r[i].key == k;
        assert r1[i].key == k by {
          if Has(r, types[0].key) {
            assert Keys(r1)[i] == Keys(r)[i];
          }
        }
      }
      var out := RegisterTypes(r1, types[1..]);
      assert forall i :: 1 <= i < |types| ==> types[i] == types[1..][i - 1];
      out
  }

  /** The constructor: the scene of `CircuitUI` in a container of size
      `screen` (so the view starts centred on the world origin), the initial
      state, empty stacks, and the given node types, or the single default
      type when none is given. */
  function NewBuilder(canvas: CanvasOptions, screen: Size, types: seq<Entry<NodeType>>): (b: Builder)
    ensures Inv(b)
    ensures b.scene == NewScene(canvas, screen) && b.state == InitialState
    ensures b.scene.viewport == CenterView(screen)
    ensures b.undo == [] && b.redo == []
    ensures |types| == 0 ==> b.nodeTypes == [Entry(DefaultTypeName, DefaultNodeType)]
    ensures forall i :: 0 <= i < |types| ==> Has(b.nodeTypes, types[i].key)
    ensures |types| > 0 ==> forall k :: Get(b.nodeTypes, k) == LastWrite(types, k)
  {
    var registered := RegisterTypes([], types);
    Builder(NewScene(canvas, screen), InitialState, [], [],
      if |registered| == 0 then [Entry(DefaultTypeName, DefaultNodeType)] else registered)
  }

  /** `setMode`: the mode changes and any pending path is dropped. */
  function SetMode(b: Builder, m: Mode): (r: Builder)
    ensures r.state.mode == m && r.state.pathStart.None?
    ensures r == b.(state := r.state)
    ensures r.state == b.state.(mode := r.state.mode, pathStart := r.state.pathStart)
  {
    b.(state := b.state.(mode := m, pathStart := None))
  }

  /** `selectNode`: the id joins the selection (even if no such node exists)
      and the node, if any, is focused. */
  function SelectNode(b: Builder, id: string): (r: Builder)
    ensures forall k :: Has(r.scene.nodes, k) <==> Has(b.scene.nodes, k)
    ensures id in r.state.selectedNodes
    ensures forall y :: y in r.state.selectedNodes <==> y in b.state.selectedNodes || y == id
    ensures Has(b.scene.nodes, id) ==> Get(r.scene.nodes, id) == Some(Get(b.scene.nodes, id).value.(focused := true))
    ensures forall k :: k != id ==> Get(r.scene.nodes, k) == Get(b.scene.nodes, k)
    ensures r.scene == b.scene.(nodes := r.scene.nodes)
    ensures r == b.(scene := r.scene, state := r.state)
    ensures r.state == b.state.(selectedNodes := r.state.selectedNodes)
    ensures Inv(b) ==> Inv(r)
  {
    FocusNodeKeepsWf(b.scene, id, true);
    b.(scene := FocusNode(b.scene, id, true),
       state := b.state.(selectedNodes := Insert(b.state.selectedNodes, id)))
  }

  /** `deselectNode`: the id leaves the selection and the node, if any, is
      unfocused. */
  function DeselectNode(b: Builder, id: string): (r: Builder)
    ensures forall k :: Has(r.scene.nodes, k) <==> Has(b.scene.nodes, k)
    ensures id !in r.state.selectedNodes
    ensures forall y :: y in r.state.selectedNodes <==> y in b.state.selectedNodes && y != id
    ensures Has(b.scene.nodes, id) ==> !Get(r.scene.nodes, id).value.focused
    ensures forall k :: k != id ==> Get(r.scene.nodes, k) == Get(b.scene.nodes, k)
    ensures r.scene == b.scene.(nodes := r.scene.nodes)
    ensures r == b.(scene := r.scene, state := r.state)
    ensures r.state == b.state.(selectedNodes := r.state.selectedNodes)
    ensures Inv(b) ==> Inv(r)
  {
    FocusNodeKeepsWf(b.scene, id, false);
    b.(scene := FocusNode(b.scene, id, false),
       state := b.state.(selectedNodes := Remove(b.state.selectedNodes, id)))
  }

  /** `toggleNodeSelection`. */
  function ToggleNode(b: Builder, id: string): (r: Builder)
    ensures forall k :: Has(r.scene.nodes, k) <==> Has(b.scene.nodes, k)
    ensures id in r.state.selectedNodes <==> id !in b.state.selectedNodes
    ensures forall y :: y != id ==> (y in r.state.selectedNodes <==> y in b.state.selectedNodes)
    ensures Has(b.scene.nodes, id) ==> Get(r.scene.nodes, id).value.focused == (id in r.state.selectedNodes)
    ensures forall k :: k != id ==> Get(r.scene.nodes, k) == Get(b.scene.nodes, k)
    ensures Inv(b) ==> Inv(r)
  {
    if id in b.state.selectedNodes then DeselectNode(b, id) else SelectNode(b, id)
  }

  /** Toggling twice gives back the selection's members and the node's focus
      as selection left it; from an unselected id it gives back the
      selection exactly. */
  lemma ToggleTwice(b: Builder, id: string)
    ensures forall y :: y in ToggleNode(ToggleNode(b, id), id).state.selectedNodes <==> y in b.state.selectedNodes
    ensures id !in b.state.selectedNodes ==>
      ToggleNode(ToggleNode(b, id), id).state.selectedNodes == b.state.selectedNodes
    ensures Has(b.scene.nodes, id) ==>
      Get(ToggleNode(ToggleNode(b, id), id).scene.nodes, id).value.focused == (id in b.state.selectedNodes)
  {
    InsertRemove(b.state.selectedNodes, id);
  }

  /** `selectPath`; the highlight is presentation only. */
  function SelectPath(b: Builder, id: string): (r: Builder)
    ensures forall y :: y in r.state.selectedPaths <==> y in b.state.selectedPaths || y == id
    ensures r == b.(state := b.state.(selectedPaths := r.state.selectedPaths))
    ensures Inv(b) ==> Inv(r)
  {
    b.(state := b.state.(selectedPaths := Insert(b.state.selectedPaths, id)))
  }

  /** `deselectPath`. */
  function DeselectPath(b: Builder, id: string): (r: Builder)
    ensures forall y :: y in r.state.selectedPaths <==> y in b.state.selectedPaths && y != id
    ensures r == b.(state := b.state.(selectedPaths := r.state.selectedPaths))
    ensures Inv(b) ==> Inv(r)
  {
    b.(state := b.state.(selectedPaths := Remove(b.state.selectedPaths, id)))
  }

  /** Unfocus every node whose id is listed. */
  function UnfocusAll(s: Scene, ids: seq<string>): (r: Scene)
    ensures forall k :: Has(r.nodes, k) <==> Has(s.nodes, k)
    decreases |ids|
    ensures forall k :: k in ids && Has(s.nodes, k) ==> !Get(r.nodes, k).value.focused
    ensures forall k :: k !in ids ==> Get(r.nodes, k) == Get(s.nodes, k)
    ensures r == s.(nodes := r.nodes)
    ensures Wf(s) ==> Wf(r)
  {
    if |ids| == 0 then s
    else
      var s1 := FocusNode(s, ids[0], false);
      FocusNodeKeepsWf(s, ids[0], false);
      var r := UnfocusAll(s1, ids[1..]);
      assert forall k :: k in ids <==> k == ids[0] || k in ids[1..];
      r
  }

  /** `clearSelection`: the selected nodes that still exist are unfocused and
      both selections are emptied. */
  function ClearSelection(b: Builder): (r: Builder)
    ensures forall k :: Has(r.scene.nodes, k) <==> Has(b.scene.nodes, k)
    ensures r.state.selectedNodes == [] && r.state.selectedPaths == []
    ensures forall k :: k in b.state.selectedNodes && Has(b.scene.nodes, k) ==> !Get(r.scene.nodes, k).value.focused
    ensures forall k :: k !in b.state.selectedNodes ==> Get(r.scene.nodes, k) == Get(b.scene.nodes, k)
    ensures r.scene == b.scene.(nodes := r.scene.nodes)
    ensures r == b.(scene := r.scene, state := r.state)
    ensures r.state == b.state.(selectedNodes := [], selectedPaths := [])
    ensures Inv(b) ==> Inv(r)
  {
    b.(scene := UnfocusAll(b.scene, b.state.selectedNodes),
       state := b.state.(selectedNodes := [], selectedPaths := []))
  }

  /** Select every listed node, in order. */
  function SelectNodes(b: Builder, ids: seq<string>): (r: Builder)
    decreases |ids|
    ensures forall k :: Has(r.scene.nodes, k) <==> Has(b.scene.nodes, k)
    ensures r.state.selectedNodes == InsertAll(b.state.selectedNodes, ids)
    ensures forall k :: k in ids && Has(b.scene.nodes, k) ==> Get(r.scene.nodes, k).value.focused
    ensures forall k :: k !in ids ==> Get(r.scene.nodes, k) == Get(b.scene.nodes, k)
    ensures r.scene == b.scene.(nodes := r.scene.nodes)
    ensures r == b.(scene := r.scene, state := r.state)
    ensures r.state == b.state.(selectedNodes := r.state.selectedNodes)
    ensures Inv(b) ==> Inv(r)
  {
    if |ids| == 0 then b
    else
      var r := SelectNodes(SelectNode(b, ids[0]), ids[1..]);
      assert forall k :: k in ids <==> k == ids[0] || k in ids[1..];
      r
  }

  /** Select every listed path, in order. */
  function SelectPaths(b: Builder, ids: seq<string>): (r: Builder)
    decreases |ids|
    ensures forall y :: y in r.state.selectedPaths <==> y in b.state.selectedPaths || y in ids
    ensures r == b.(state := b.state.(selectedPaths := r.state.selectedPaths))
    ensures Inv(b) ==> Inv(r)
  {
    if |ids| == 0 then b
    else
      var r := SelectPaths(SelectPath(b, ids[0]), ids[1..]);
      assert forall k :: k in ids <==> k == ids[0] || k in ids[1..];
      r
  }

  /** `selectAll`: every node, then every path, in registry order. */
  function SelectAll(b: Builder): (r: Builder)
    ensures forall k :: Has(r.scene.nodes, k) <==> Has(b.scene.nodes, k)
    ensures forall k :: Has(b.scene.nodes, k) ==> k in r.state.selectedNodes && Get(r.scene.nodes, k).value.focused
    ensures forall k :: Has(b.scene.paths, k) ==> k in r.state.selectedPaths
    ensures forall y :: y in r.state.selectedNodes <==> y in b.state.selectedNodes || Has(b.scene.nodes, y)
    ensures forall y :: y in r.state.selectedPaths <==> y in b.state.selectedPaths || Has(b.scene.paths, y)
    ensures Inv(b) ==> Inv(r)
  {
    KeysHas(b.scene.nodes);
    KeysHas(b.scene.paths);
    SelectPaths(SelectNodes(b, Keys(b.scene.nodes)), Keys(b.scene.paths))
  }

  lemma KeysHas<T>(r: seq<Entry<T>>)
    ensures forall k :: k in Keys(r) <==> Has(r, k)
  {
    forall k | Has(r, k) ensures k in Keys(r) {
      var i :| 0 <= i < |r| && r[i].key == k;
      assert Keys(r)[i] == k;
    }
  }

  /** The second half of `saveState`: the snapshot `sc` is pushed onto the
      undo stack, the oldest snapshot is dropped once there are more than 50,
      and the redo stack is emptied. */
  function Push(b: Builder, sc: Schema): (r: Builder)
    ensures r.redo == []
    ensures |r.undo| > 0 && r.undo[|r.undo| - 1] == sc
    ensures |r.undo| == if |b.undo| < MaxUndoSteps then |b.undo| + 1 else |b.undo|
    ensures r.undo[..|r.undo| - 1] == b.undo[|b.undo| + 1 - |r.undo|..]
    ensures r == b.(undo := r.undo, redo := r.redo)
    ensures Inv(b) ==> Inv(r)
  {
    var pushed := b.undo + [sc];
    var undo := if |pushed| > MaxUndoSteps then pushed[1..] else pushed;
    assert undo[..|undo| - 1] == b.undo[|b.undo| + 1 - |undo|..];
    b.(undo := undo, redo := [])
  }

  /** `saveState`, with the intended export: the current scene is pushed
      onto the undo stack, the oldest snapshot is dropped once there are more
      than 50, and the redo stack is emptied. */
  function SaveState(b: Builder): (r: Builder)
    ensures r.redo == []
    ensures |r.undo| > 0 && r.undo[|r.undo| - 1] == ToSchema(b.scene)
    ensures |r.undo| == if |b.undo| < MaxUndoSteps then |b.undo| + 1 else |b.undo|
    ensures r.undo[..|r.undo| - 1] == b.undo[|b.undo| + 1 - |r.undo|..]
    ensures r == b.(undo := r.undo, redo := r.redo)
    ensures Inv(b) ==> Inv(r)
  {
    Push(b, ToSchema(b.scene))
  }

  /** `loadFromSchema`: the selection is cleared, the registries emptied and
      the snapshot's nodes and then paths re-added, until one throws. The
      canvas, viewport, active node and history are not reset, nor are the
      mode, the pending path and the clipboard. `gen` stands for the ids
      generated for path records without one. */
  function LoadFromSchema(b: Builder, sc: Schema, gen: seq<string>): (r: (Builder, Option<SceneError>))
    requires |gen| == |sc.paths| && forall i :: 0 <= i < |gen| ==> gen[i] != ""
    ensures r.0.state == b.state.(selectedNodes := [], selectedPaths := [])
    ensures r.0 == b.(scene := r.0.scene, state := r.0.state)
    ensures r.0.scene == b.scene.(nodes := r.0.scene.nodes, paths := r.0.scene.paths)
    ensures Inv(b) ==> Inv(r.0)
    ensures r.1.None? <==> AllNew<Node>([], NodeIds(sc.nodes)) && AllNew<PathConfig>([], PathIds(sc.paths, gen)) && LongEnough(sc.paths)
    ensures r.1.None? ==> r.0.scene.nodes == NodeEntries(sc.nodes) && r.0.scene.paths == PathEntries(sc.paths, gen)
  {
    var b1 := ClearSelection(b);
    var s0 := Destroy(b1.scene);
    var (s1, e1) := LoadNodes(s0, sc.nodes);
    if e1.Some? then (b1.(scene := s1), e1)
    else
      var (s2, e2) := LoadPaths(s1, sc.paths, gen);
      (b1.(scene := s2), e2)
  }

  /** `undo`: with an empty stack nothing happens and the answer is false;
      otherwise the current scene goes onto the redo stack and the most recent
      snapshot is popped and loaded. */
  function Undo(b: Builder, gen: seq<string>): (r: (Builder, bool, Option<SceneError>))
    requires |b.undo| > 0 ==> |gen| == |b.undo[|b.undo| - 1].paths|
    requires forall i :: 0 <= i < |gen| ==> gen[i] != ""
    ensures !r.1 <==> |b.undo| == 0
    ensures !r.1 ==> r.0 == b && r.2.None?
    ensures r.1 ==> r.0.undo == b.undo[..|b.undo| - 1] && r.0.redo == b.redo + [ToSchema(b.scene)]
    ensures r.1 ==> r.0 == LoadFromSchema(b, b.undo[|b.undo| - 1], gen).0.(undo := r.0.undo, redo := r.0.redo)
    ensures r.1 ==> r.2 == LoadFromSchema(b, b.undo[|b.undo| - 1], gen).1
    ensures Inv(b) ==> Inv(r.0)
  {
    if |b.undo| == 0 then (b, false, None)
    else
      var top := b.undo[|b.undo| - 1];
      var loaded := LoadFromSchema(b, top, gen);
      (loaded.0.(undo := b.undo[..|b.undo| - 1], redo := b.redo + [ToSchema(b.scene)]), true, loaded.1)
  }

  /** `redo`: the mirror image of `undo`. */
  function Redo(b: Builder, gen: seq<string>): (r: (Builder, bool, Option<SceneError>))
    requires |b.redo| > 0 ==> |gen| == |b.redo[|b.redo| - 1].paths|
    requires forall i :: 0 <= i < |gen| ==> gen[i] != ""
    ensures !r.1 <==> |b.redo| == 0
    ensures !r.1 ==> r.0 == b && r.2.None?
    ensures r.1 ==> r.0.redo == b.redo[..|b.redo| - 1] && r.0.undo == b.undo + [ToSchema(b.scene)]
    ensures r.1 ==> r.0 == LoadFromSchema(b, b.redo[|b.redo| - 1], gen).0.(undo := r.0.undo, redo := r.0.redo)
    ensures r.1 ==> r.2 == LoadFromSchema(b, b.redo[|b.redo| - 1], gen).1
    ensures Inv(b) ==> Inv(r.0)
  {
    if |b.redo| == 0 then (b, false, None)
    else
      var top := b.redo[|b.redo| - 1];
      var loaded := LoadFromSchema(b, top, gen);
      (loaded.0.(redo := b.redo[..|b.redo| - 1], undo := b.undo + [ToSchema(b.scene)]), true, loaded.1)
  }

  /** Scene `r` holds the registries of scene `s` as a snapshot rebuilds
      them: every path exactly, every node's configuration in order, with
      the interaction flags cleared (snapshots do not record them). */
  predicate RegistriesRestored(r: Scene, s: Scene) {
    && r.paths == s.paths
    && |r.nodes| == |s.nodes|
    && forall i :: 0 <= i < |s.nodes| ==>
         r.nodes[i] == Entry(s.nodes[i].key, Node(s.nodes[i].value.config, false, false, false))
  }

  /** Loading the snapshot of a well-formed scene cannot fail and rebuilds
      its registries: every path exactly, every node configuration in order
      with the flags cleared. */
  lemma LoadExported(b: Builder, s: Scene, gen: seq<string>)
    requires Wf(s)
    requires |gen| == |s.paths| && forall i :: 0 <= i < |gen| ==> gen[i] != ""
    ensures var r := LoadFromSchema(b, ToSchema(s), gen);
      && r.1.None?
      && RegistriesRestored(r.0.scene, s)
  {
    ExportedNodes(s);
    ExportedPaths(s, gen);
  }

  /** An undo and then a redo, `gen1` and `gen2` standing for the ids each
      generates. The redo is given enough ids for the snapshot it restores
      (`UndoPushes` shows the guard holds whenever `gen2` has one id
      per path of `b`). */
  function UndoRedo(b: Builder, gen1: seq<string>, gen2: seq<string>): (Builder, bool, Option<SceneError>)
    requires |b.undo| > 0
    requires |gen1| == |b.undo[|b.undo| - 1].paths| && forall i :: 0 <= i < |gen1| ==> gen1[i] != ""
    requires forall i :: 0 <= i < |gen2| ==> gen2[i] != ""
  {
    var u := Undo(b, gen1).0;
    if |u.redo| > 0 && |gen2| == |u.redo[|u.redo| - 1].paths| then Redo(u, gen2)
    else (u, false, None)
  }

  /** Undo followed by redo restores the registries as they were before the
      undo: every path exactly, every node's configuration in order (the
      interaction flags are cleared, since snapshots do not record them). */
  lemma UndoThenRedo(b: Builder, gen1: seq<string>, gen2: seq<string>)
    requires Inv(b) && |b.undo| > 0
    requires |gen1| == |b.undo[|b.undo| - 1].paths| && forall i :: 0 <= i < |gen1| ==> gen1[i] != ""
    requires |gen2| == |b.scene.paths| && forall i :: 0 <= i < |gen2| ==> gen2[i] != ""
    ensures var r := UndoRedo(b, gen1, gen2);
      && r.1 && r.2.None?
      && RegistriesRestored(r.0.scene, b.scene)
  {
    var u := UndoRedoIsRedo(b, gen1, gen2);
    RedoExported(u, b.scene, gen2);
  }

  /** Undo followed by redo puts both history stacks back, except that the
      top undo snapshot is now the one of the restored scene. */
  lemma UndoThenRedoStacks(b: Builder, gen1: seq<string>, gen2: seq<string>)
    requires Inv(b) && |b.undo| > 0
    requires |gen1| == |b.undo[|b.undo| - 1].paths| && forall i :: 0 <= i < |gen1| ==> gen1[i] != ""
    requires |gen2| == |b.scene.paths| && forall i :: 0 <= i < |gen2| ==> gen2[i] != ""
    ensures var r := UndoRedo(b, gen1, gen2);
      && r.0.redo == b.redo
      && |r.0.undo| == |b.undo|
      && r.0.undo[..|r.0.undo| - 1] == b.undo[..|b.undo| - 1]
  {
    var u := UndoRedoIsRedo(b, gen1, gen2);
    RedoStacks(u, gen2, b.undo, b.redo);
  }

  /** Redo after an undo that popped `undo` and pushed onto `redo` puts both
      stacks back up to the top undo snapshot. */
  lemma RedoStacks(u: Builder, gen: seq<string>, undo: seq<Schema>, redo: seq<Schema>)
    requires |u.redo| > 0 && |gen| == |u.redo[|u.redo| - 1].paths|
    requires forall i :: 0 <= i < |gen| ==> gen[i] != ""
    requires |undo| > 0 && u.undo == undo[..|undo| - 1] && u.redo[..|u.redo| - 1] == redo
    ensures var r := Redo(u, gen);
      && r.0.redo == redo
      && |r.0.undo| == |undo|
      && r.0.undo[..|r.0.undo| - 1] == undo[..|undo| - 1]
  {
    var r := Redo(u, gen);
    assert r.0.undo == u.undo + [ToSchema(u.scene)];
    assert r.0.undo[..|r.0.undo| - 1] == u.undo;
  }

  /** What undo leaves for redo: the scene it was called on, on top of the
      old redo stack, with the rest of the undo stack below. */
  lemma UndoPushes(b: Builder, gen: seq<string>) returns (u: Builder)
    requires |b.undo| > 0 && |gen| == |b.undo[|b.undo| - 1].paths|
    requires forall i :: 0 <= i < |gen| ==> gen[i] != ""
    ensures u == Undo(b, gen).0
    ensures |u.redo| > 0 && u.redo[|u.redo| - 1] == ToSchema(b.scene) && u.redo[..|u.redo| - 1] == b.redo
    ensures u.undo == b.undo[..|b.undo| - 1]
  {
    u := Undo(b, gen).0;
    assert u.redo == b.redo + [ToSchema(b.scene)];
  }

  /** Given ids for the current scene's paths, the redo after an undo goes
      through: it is the redo of the builder the undo left. */
  lemma UndoRedoIsRedo(b: Builder, gen1: seq<string>, gen2: seq<string>) returns (u: Builder)
    requires |b.undo| > 0
    requires |gen1| == |b.undo[|b.undo| - 1].paths| && forall i :: 0 <= i < |gen1| ==> gen1[i] != ""
    requires |gen2| == |b.scene.paths| && forall i :: 0 <= i < |gen2| ==> gen2[i] != ""
    ensures |u.redo| > 0 && u.redo[|u.redo| - 1] == ToSchema(b.scene) && u.redo[..|u.redo| - 1] == b.redo
    ensures u.undo == b.undo[..|b.undo| - 1]
    ensures |gen2| == |u.redo[|u.redo| - 1].paths|
    ensures UndoRedo(b, gen1, gen2) == Redo(u, gen2)
  {
    u := UndoPushes(b, gen1);
  }

  /** Redo of a snapshot taken from a well-formed scene rebuilds that
      scene's registries. */
  lemma RedoExported(u: Builder, s: Scene, gen: seq<string>)
    requires |u.redo| > 0 && u.redo[|u.redo| - 1] == ToSchema(s) && Wf(s)
    requires |gen| == |s.paths| && forall i :: 0 <= i < |gen| ==> gen[i] != ""
    ensures var r := Redo(u, gen);
      && r.1 && r.2.None?
      && RegistriesRestored(r.0.scene, s)
      && r.0.redo == u.redo[..|u.redo| - 1]
      && r.0.undo == u.undo + [ToSchema(u.scene)]
  {
    LoadExported(u, s, gen);
  }

  /** `handlePathCreation`: the first click remembers its node as the start;
      a click on another node records a snapshot and connects the start to
      it with an L-shaped path. A click on the start node itself does
      nothing. When `connectNodes` throws, the snapshot is already taken and
      the start is still pending. */
  function PathCreation(b: Builder, id: string, freshId: string): (r: (Builder, Option<SceneError>))
    requires freshId != ""
    ensures b.state.pathStart.None? ==> r == (b.(state := b.state.(pathStart := Some(id))), None)
    ensures b.state.pathStart == Some(id) ==> r == (b, None)
    ensures b.state.pathStart.Some? && b.state.pathStart.value != id ==>
      var start := b.state.pathStart.value;
      var c := ConnectNodes(b.scene, start, id, NoOverrides, freshId);
      && r.0.undo == SaveState(b).undo && r.0.redo == []
      && (r.1.None? <==> c.Ok?)
      && (c.Ok? ==> r.0.scene == c.value && r.0.state.pathStart.None?)
      && (c.Err? ==> r.0.scene == b.scene && r.1 == Some(c.error) && r.0.state == b.state)
    ensures r.0.nodeTypes == b.nodeTypes
    ensures r.0.state == b.state.(pathStart := r.0.state.pathStart)
    ensures Inv(b) ==> Inv(r.0)
  {
    match b.state.pathStart
    case None => (b.(state := b.state.(pathStart := Some(id))), None)
    case Some(start) =>
      if start == id then (b, None)
      else
        var saved := SaveState(b);
        ConnectNodesKeepsWf(b.scene, start, id, NoOverrides, freshId);
        var c := ConnectNodes(b.scene, start, id, NoOverrides, freshId);
        if c.Err? then (saved, Some(c.error))
        else (saved.(scene := c.value, state := saved.state.(pathStart := None)), None)
  }

  /** Two clicks in add-path mode, on two different registered nodes, add
      exactly one path: from the centre of the first to the centre of the
      second, cornered at the second, under the generated id. The scene
      before the second click is the one undo restores. */
  lemma TwoClicksConnect(b: Builder, a: string, c: string, freshId: string)
    requires freshId != "" && b.state.pathStart.None? && a != c
    requires Has(b.scene.nodes, a) && Has(b.scene.nodes, c) && !Has(b.scene.paths, freshId)
    ensures var r := PathCreation(PathCreation(b, a, freshId).0, c, freshId);
      && r.1.None?
      && r.0.state.pathStart.None?
      && r.0.scene.nodes == b.scene.nodes
      && |r.0.scene.paths| == |b.scene.paths| + 1
      && r.0.scene.paths[..|b.scene.paths|] == b.scene.paths
      && r.0.scene.paths[|b.scene.paths|].key == freshId
      && r.0.scene.paths[|b.scene.paths|].value.waypoints ==
           LPath(NodeCentre(Get(b.scene.nodes, a).value), NodeCentre(Get(b.scene.nodes, c).value), true)
      && r.0.undo[|r.0.undo| - 1] == ToSchema(b.scene)
  {
    var b1 := PathCreation(b, a, freshId).0;
    var s := ConnectNodes(b.scene, a, c, NoOverrides, freshId);
    assert s.Ok?;
    var w := LPath(NodeCentre(Get(b.scene.nodes, a).value), NodeCentre(Get(b.scene.nodes, c).value), true);
    assert s == AddPath(b.scene, PathOptions(None, w, None, None, None, None), freshId);
  }

  /** `deleteNode`: a snapshot, the id leaves the selection, and the node, if
      registered, is removed; the answer says whether it was. Paths are left
      alone (see `Scenes.RemoveNode`). */
  function DeleteNode(b: Builder, id: string): (r: (Builder, bool))
    ensures r.1 <==> Has(b.scene.nodes, id)
    ensures !Has(r.0.scene.nodes, id)
    ensures forall k :: k != id ==> (Has(r.0.scene.nodes, k) <==> Has(b.scene.nodes, k))
    ensures forall k :: k != id ==> Get(r.0.scene.nodes, k) == Get(b.scene.nodes, k)
    ensures r.0.scene.paths == b.scene.paths
    ensures forall y :: y in r.0.state.selectedNodes <==> y in b.state.selectedNodes && y != id
    ensures r.0.undo == SaveState(b).undo && r.0.redo == []
    ensures r.0.state.mode == b.state.mode
    ensures Inv(b) ==> Inv(r.0)
  {
    var d := DeselectNode(SaveState(b), id);
    var rm := RemoveNode(d.scene, id);
    forall k | k != id
      ensures Get(rm.0.nodes, k) == Get(d.scene.nodes, k)
    {
      DeleteKeepsOthers(d.scene.nodes, id, k);
    }
    assert Wf(d.scene) ==> Wf(rm.0) by {
      if Wf(d.scene) { RemoveNodeKeepsWf(d.scene, id); }
    }
    (d.(scene := rm.0), rm.1)
  }

  /** Remove every listed node from the scene, one `removeNode` at a time. */
  function RemoveNodes(s: Scene, ids: seq<string>): (r: Scene)
    decreases |ids|
    ensures forall k :: Has(r.nodes, k) <==> Has(s.nodes, k) && k !in ids
    ensures forall k :: k !in ids ==> Get(r.nodes, k) == Get(s.nodes, k)
    ensures r == s.(nodes := r.nodes)
    ensures Wf(s) ==> Wf(r)
  {
    if |ids| == 0 then s
    else
      var s1 := RemoveNode(s, ids[0]).0;
      assert Wf(s) ==> Wf(s1) by {
        if Wf(s) { RemoveNodeKeepsWf(s, ids[0]); }
      }
      forall k | k != ids[0]
        ensures Get(s1.nodes, k) == Get(s.nodes, k)
      {
        DeleteKeepsOthers(s.nodes, ids[0], k);
      }
      var r := RemoveNodes(s1, ids[1..]);
      assert forall k :: k in ids <==> k == ids[0] || k in ids[1..];
      r
  }

  /** Remove every listed path from the scene, one `removePath` at a time. */
  function RemovePaths(s: Scene, ids: seq<string>): (r: Scene)
    decreases |ids|
    ensures forall k :: Has(r.paths, k) <==> Has(s.paths, k) && k !in ids
    ensures forall k :: k !in ids ==> Get(r.paths, k) == Get(s.paths, k)
    ensures r == s.(paths := r.paths)
    ensures Wf(s) ==> Wf(r)
  {
    if |ids| == 0 then s
    else
      var s1 := RemovePath(s, ids[0]).0;
      assert Wf(s) ==> Wf(s1) by {
        if Wf(s) { RemovePathKeepsWf(s, ids[0]); }
      }
      forall k | k != ids[0]
        ensures Get(s1.paths, k) == Get(s.paths, k)
      {
        DeleteKeepsOthers(s.paths, ids[0], k);
      }
      var r := RemovePaths(s1, ids[1..]);
      assert forall k :: k in ids <==> k == ids[0] || k in ids[1..];
      r
  }

  /** `deleteSelected`: with nothing selected, nothing happens. Otherwise one
      snapshot is taken, every selected node and every selected path is
      removed, and the selection is cleared; everything not selected stays
      exactly as it was. */
  function DeleteSelected(b: Builder): (r: Builder)
    ensures |b.state.selectedNodes| == 0 && |b.state.selectedPaths| == 0 ==> r == b
    ensures |b.state.selectedNodes| > 0 || |b.state.selectedPaths| > 0 ==>
      && r.undo == SaveState(b).undo && r.redo == []
      && r.state == b.state.(selectedNodes := [], selectedPaths := [])
    ensures forall k :: Has(r.scene.nodes, k) <==> Has(b.scene.nodes, k) && k !in b.state.selectedNodes
    ensures forall k :: Has(r.scene.paths, k) <==> Has(b.scene.paths, k) && k !in b.state.selectedPaths
    ensures forall k :: k !in b.state.selectedNodes ==> Get(r.scene.nodes, k) == Get(b.scene.nodes, k)
    ensures forall k :: k !in b.state.selectedPaths ==> Get(r.scene.paths, k) == Get(b.scene.paths, k)
    ensures Inv(b) ==> Inv(r)
  {
    if |b.state.selectedNodes| == 0 && |b.state.selectedPaths| == 0 then b
    else
      var saved := SaveState(b);
      var s1 := RemoveNodes(saved.scene, b.state.selectedNodes);
      var s2 := RemovePaths(s1, b.state.selectedPaths);
      ClearSelection(saved.(scene := s2))
  }

  /** The listed keys that have something registered, in list order. */
  function Registered<T>(r: seq<Entry<T>>, ids: seq<string>): (ks: seq<string>)
    decreases |ids|
    ensures |ks| <= |ids|
    ensures forall k :: k in ks <==> k in ids && Has(r, k)
    ensures Subsequence(ks, ids)
    ensures forall k :: multiset(ks)[k] == if Has(r, k) then multiset(ids)[k] else 0
    ensures Distinct(ids) ==> Distinct(ks)
  {
    if |ids| == 0 then []
    else
      var rest := Registered(r, ids[1..]);
      var ks := if Has(r, ids[0]) then [ids[0]] + rest else rest;
      FilterStep(ids, rest, ks, Has(r, ids[0]));
      assert forall k :: multiset(ks)[k] == if Has(r, k) then multiset(ids)[k] else 0 by {
        forall k ensures multiset(ks)[k] == if Has(r, k) then multiset(ids)[k] else 0 {
          assert multiset(rest)[k] == if Has(r, k) then multiset(ids[1..])[k] else 0;
        }
      }
      ks
  }

  /** One step of an in-order filter: keeping or dropping the head of `ids`
      in front of a filtered tail keeps the membership, order, count and
      no-repeat facts of the tail. */
  lemma FilterStep(ids: seq<string>, rest: seq<string>, ks: seq<string>, keep: bool)
    requires |ids| > 0 && ks == if keep then [ids[0]] + rest else rest
    requires Subsequence(rest, ids[1..])
    requires forall k :: k in rest ==> k in ids[1..]
    ensures Subsequence(ks, ids)
    ensures forall k :: k in ks <==> (k == ids[0] && keep) || k in rest
    ensures forall k :: k in ids <==> k == ids[0] || k in ids[1..]
    ensures multiset(ks) == (if keep then multiset{ids[0]} else multiset{}) + multiset(rest)
    ensures multiset(ids) == multiset{ids[0]} + multiset(ids[1..])
    ensures Distinct(ids) && Distinct(rest) ==> Distinct(ks)
  {
    assert ids == [ids[0]] + ids[1..];
    if keep {
      assert ks[1..] == rest;
    }
    if Distinct(ids) && Distinct(rest) {
      DistinctTail(ids);
      if keep {
        DistinctCons(ids[0], rest);
      }
    }
  }

  /** The configurations of the selected nodes that still exist, in
      selection order. */
  function CopiedNodes(r: seq<Entry<Node>>, sel: seq<string>): (cs: seq<NodeConfig>)
    ensures |cs| <= |sel|
    ensures |cs| == |Registered(r, sel)|
    ensures forall i :: 0 <= i < |cs| ==> cs[i] == Get(r, Registered(r, sel)[i]).value.config
    ensures forall k :: k in sel && Has(r, k) ==> Get(r, k).value.config in cs
    ensures forall c :: c in cs ==> exists k :: k in sel && Get(r, k).Some? && Get(r, k).value.config == c
  {
    var nk := Registered(r, sel);
    var cs := seq(|nk|, i requires 0 <= i < |nk| => Get(r, nk[i]).value.config);
    NodeConfigsOf(r, sel, nk, cs);
    cs
  }

  /** Reading the configs of the registered keys `nk` picked from `sel`
      reads the config of every selected registered node and nothing else. */
  lemma NodeConfigsOf(r: seq<Entry<Node>>, sel: seq<string>, nk: seq<string>, cs: seq<NodeConfig>)
    requires forall k :: k in nk <==> k in sel && Has(r, k)
    requires |cs| == |nk| && forall i :: 0 <= i < |nk| ==> cs[i] == Get(r, nk[i]).value.config
    ensures forall k :: k in sel && Has(r, k) ==> Get(r, k).value.config in cs
    ensures forall c :: c in cs ==> exists k :: k in sel && Get(r, k).Some? && Get(r, k).value.config == c
  {
    forall k | k in sel && Has(r, k)
      ensures Get(r, k).value.config in cs
    {
      var i :| 0 <= i < |nk| && nk[i] == k;
      assert cs[i] == Get(r, k).value.config;
    }
    forall c | c in cs
      ensures exists k :: k in sel && Get(r, k).Some? && Get(r, k).value.config == c
    {
      var i :| 0 <= i < |cs| && cs[i] == c;
      assert nk[i] in nk;
    }
  }

  /** The same for paths. */
  lemma PathConfigsOf(r: seq<Entry<PathConfig>>, sel: seq<string>, pk: seq<string>, ps: seq<PathConfig>)
    requires forall k :: k in pk <==> k in sel && Has(r, k)
    requires |ps| == |pk| && forall i :: 0 <= i < |pk| ==> ps[i] == Get(r, pk[i]).value
    ensures forall k :: k in sel && Has(r, k) ==> Get(r, k).value in ps
    ensures forall c :: c in ps ==> exists k :: k in sel && Get(r, k) == Some(c)
  {
    forall k | k in sel && Has(r, k)
      ensures Get(r, k).value in ps
    {
      var i :| 0 <= i < |pk| && pk[i] == k;
      assert ps[i] == Get(r, k).value;
    }
    forall c | c in ps
      ensures exists k :: k in sel && Get(r, k) == Some(c)
    {
      var i :| 0 <= i < |ps| && ps[i] == c;
      assert pk[i] in pk;
    }
  }

  /** The selected paths that still exist, in selection order. */
  function CopiedPaths(r: seq<Entry<PathConfig>>, sel: seq<string>): (ps: seq<PathConfig>)
    ensures |ps| <= |sel|
    ensures |ps| == |Registered(r, sel)|
    ensures forall i :: 0 <= i < |ps| ==> Some(ps[i]) == Get(r, Registered(r, sel)[i])
    ensures forall k :: k in sel && Has(r, k) ==> Get(r, k).value in ps
    ensures forall c :: c in ps ==> exists k :: k in sel && Get(r, k) == Some(c)
  {
    var pk := Registered(r, sel);
    var ps := seq(|pk|, i requires 0 <= i < |pk| => Get(r, pk[i]).value);
    PathConfigsOf(r, sel, pk, ps);
    ps
  }

  /** `copy`: the clipboard becomes the configurations of the selected nodes
      and paths that still exist, in selection order; nothing else changes. */
  function Copy(b: Builder): (r: Builder)
    ensures r == b.(state := b.state.(clipboard := r.state.clipboard))
    ensures CopiesSelectedNodes(b, r.state.clipboard.nodes)
    ensures CopiesSelectedPaths(b, r.state.clipboard.paths)
  {
    var cs := CopiedNodes(b.scene.nodes, b.state.selectedNodes);
    var ps := CopiedPaths(b.scene.paths, b.state.selectedPaths);
    CopiedNodesOfBuilder(b, cs);
    CopiedPathsOfBuilder(b, ps);
    b.(state := b.state.(clipboard := Clipboard(cs, ps)))
  }

  /** `cs` holds the configs of the selected nodes that still exist, one per
      such id and in selection order, and nothing else. */
  predicate CopiesSelectedNodes(b: Builder, cs: seq<NodeConfig>) {
    && (forall k :: k in b.state.selectedNodes && Has(b.scene.nodes, k) ==> Get(b.scene.nodes, k).value.config in cs)
    && (forall c :: c in cs ==>
          exists k :: k in b.state.selectedNodes && Get(b.scene.nodes, k).Some? && Get(b.scene.nodes, k).value.config == c)
    && |cs| <= |b.state.selectedNodes|
    && var nk := Registered(b.scene.nodes, b.state.selectedNodes);
       && |cs| == |nk|
       && forall i :: 0 <= i < |nk| ==> cs[i] == Get(b.scene.nodes, nk[i]).value.config
  }

  /** `ps` holds the configs of the selected paths that still exist, one per
      such id and in selection order, and nothing else. */
  predicate CopiesSelectedPaths(b: Builder, ps: seq<PathConfig>) {
    && (forall k :: k in b.state.selectedPaths && Has(b.scene.paths, k) ==> Get(b.scene.paths, k).value in ps)
    && (forall c :: c in ps ==> exists k :: k in b.state.selectedPaths && Get(b.scene.paths, k) == Some(c))
    && |ps| <= |b.state.selectedPaths|
    && var pk := Registered(b.scene.paths, b.state.selectedPaths);
       && |ps| == |pk|
       && forall i :: 0 <= i < |pk| ==> Some(ps[i]) == Get(b.scene.paths, pk[i])
  }

  /** The node half of `Copy`'s contract. */
  lemma CopiedNodesOfBuilder(b: Builder, cs: seq<NodeConfig>)
    requires cs == CopiedNodes(b.scene.nodes, b.state.selectedNodes)
    ensures CopiesSelectedNodes(b, cs)
  {
  }

  /** The path half of `Copy`'s contract. */
  lemma CopiedPathsOfBuilder(b: Builder, ps: seq<PathConfig>)
    requires ps == CopiedPaths(b.scene.paths, b.state.selectedPaths)
    ensures CopiesSelectedPaths(b, ps)
  {
  }

  /** Any operation that records a snapshot first can be undone: the next
      undo rebuilds the registries the builder had before it, every path
      exactly and every node's configuration in order. */
  lemma UndoRestoresCheckpoint(b: Builder, after: Builder, gen: seq<string>)
    requires Wf(b.scene) && after.undo == SaveState(b).undo
    requires |gen| == |b.scene.paths| && forall i :: 0 <= i < |gen| ==> gen[i] != ""
    ensures var r := Undo(after, gen);
      && r.1 && r.2.None?
      && RegistriesRestored(r.0.scene, b.scene)
  {
    LoadExported(after, b.scene, gen);
  }

  /** The optional fields of the `Partial<NodeConfig>` a caller of
      `addNodeAtPosition` may pass; they are spread last and so win. */
  datatype NodeOverrides = NodeOverrides(
    id: Option<string>,
    position: Option<Point>,
    size: Option<Size>,
    content: Option<string>,
    className: Option<string>,
    draggable: Option<bool>,
    zIndex: Option<real>)

  const NoNodeOverrides := NodeOverrides(None, None, None, None, None, None, None)

  /** The content a new node of the active type gets: the type's label when
      the type is registered and its label is not empty, else "New Node". */
  function TypeCaption(b: Builder): (c: string)
    ensures c != ""
    ensures Has(b.nodeTypes, b.state.activeNodeType) && Get(b.nodeTypes, b.state.activeNodeType).value.caption != "" ==>
      c == Get(b.nodeTypes, b.state.activeNodeType).value.caption
    ensures !Has(b.nodeTypes, b.state.activeNodeType) ==> c == "New Node"
  {
    match Get(b.nodeTypes, b.state.activeNodeType)
    case Some(t) => if t.caption != "" then t.caption else "New Node"
    case None => "New Node"
  }

  /** The size a new node of the active type gets: the type's default size
      when it has one, else 200 by 120. */
  function TypeSize(b: Builder): (z: Size)
    ensures Has(b.nodeTypes, b.state.activeNodeType) && Get(b.nodeTypes, b.state.activeNodeType).value.defaultSize.Some? ==>
      z == Get(b.nodeTypes, b.state.activeNodeType).value.defaultSize.value
    ensures !Has(b.nodeTypes, b.state.activeNodeType) ==> z == Size(200.0, 120.0)
  {
    match Get(b.nodeTypes, b.state.activeNodeType)
    case Some(t) => t.defaultSize.GetOr(Size(200.0, 120.0))
    case None => Size(200.0, 120.0)
  }

  /** The configuration `addNodeAtPosition` builds: a generated id, the
      clicked position, the active type's content and size, draggable; every
      override replaces the computed field. */
  function Placed(b: Builder, p: Point, ov: NodeOverrides, freshId: string): (o: NodeOptions)
    ensures ov == NoNodeOverrides ==>
      Nodes.MergeDefaultConfig(o) == NodeConfig(freshId, p, TypeSize(b), TypeCaption(b), "", true, 1.0)
    ensures o.id == ov.id.GetOr(freshId) && o.position == ov.position.GetOr(p)
  {
    NodeOptions(ov.id.GetOr(freshId), ov.position.GetOr(p), Some(ov.size.GetOr(TypeSize(b))),
      Some(ov.content.GetOr(TypeCaption(b))), ov.className, Some(ov.draggable.GetOr(true)), ov.zIndex)
  }

  /** `addNodeAtPosition`: a snapshot, then the node is added. A taken id
      makes `addNode` throw after the snapshot; the scene is then unchanged. */
  function AddNodeAtPosition(b: Builder, p: Point, ov: NodeOverrides, freshId: string): (r: (Builder, Option<SceneError>))
    ensures var id := ov.id.GetOr(freshId);
      && (r.1.None? <==> !Has(b.scene.nodes, id))
      && (r.1.Some? ==> r.1.value == DuplicateNodeId(id) && r.0.scene == b.scene)
      && (r.1.None? ==> r.0.scene.nodes == b.scene.nodes + [Entry(id, NewNode(Placed(b, p, ov, freshId)))])
    ensures r.0.undo == SaveState(b).undo && r.0.redo == []
    ensures r.0 == b.(scene := r.0.scene, undo := r.0.undo, redo := r.0.redo)
    ensures r.0.scene == b.scene.(nodes := r.0.scene.nodes)
    ensures Inv(b) ==> Inv(r.0)
  {
    var saved := SaveState(b);
    var o := Placed(b, p, ov, freshId);
    var step := AddNode(b.scene, o);
    if step.Err? then (saved, Some(step.error))
    else
      assert Wf(b.scene) ==> Wf(step.value) by {
        if Wf(b.scene) { AddNodeKeepsWf(b.scene, o); }
      }
      (saved.(scene := step.value), None)
  }

  /** A click on the empty canvas at `p` (the canvas reports the pointer's
      client coordinates): in select mode it clears the selection, in
      add-node mode it places a node of the active type there; in the other
      modes it does nothing. */
  function CanvasClick(b: Builder, p: Point, freshId: string): (r: (Builder, Option<SceneError>))
    ensures b.state.mode == SelectMode ==>
      r.1.None? && r.0.state.selectedNodes == [] && r.0.state.selectedPaths == [] &&
      (forall k :: Has(r.0.scene.nodes, k) <==> Has(b.scene.nodes, k)) && r.0.undo == b.undo
    ensures b.state.mode == AddNodeMode ==>
      (r.1.None? <==> !Has(b.scene.nodes, freshId)) &&
      (r.1.None? ==> Get(r.0.scene.nodes, freshId) == Some(NewNode(Placed(b, p, NoNodeOverrides, freshId))))
    ensures b.state.mode == AddPathMode || b.state.mode == DeleteMode ==> r == (b, None)
    ensures b.state.mode != SelectMode ==> r.0.state == b.state
    ensures Inv(b) ==> Inv(r.0)
  {
    match b.state.mode
    case SelectMode => (ClearSelection(b), None)
    case AddNodeMode =>
      var r := AddNodeAtPosition(b, p, NoNodeOverrides, freshId);
      assert r.1.None? ==> Get(r.0.scene.nodes, freshId) == Some(NewNode(Placed(b, p, NoNodeOverrides, freshId))) by {
        if r.1.None? {
          PutThenGet(b.scene.nodes, freshId, NewNode(Placed(b, p, NoNodeOverrides, freshId)), freshId);
        }
      }
      r
    case _ => (b, None)
  }

  /** `handleNodeClick`: what a click on a node does in each mode. Select
      mode toggles the node's selection; add-path mode feeds the two-click
      path; delete mode deletes the node; add-node mode ignores it. */
  function HandleNodeClick(b: Builder, id: string, freshId: string): (r: (Builder, Option<SceneError>))
    requires freshId != ""
    ensures b.state.mode == SelectMode ==>
      r.1.None? && (id in r.0.state.selectedNodes <==> id !in b.state.selectedNodes) &&
      (forall y :: y != id ==> (y in r.0.state.selectedNodes <==> y in b.state.selectedNodes)) &&
      r.0.undo == b.undo && r.0.scene.paths == b.scene.paths
    ensures b.state.mode == AddPathMode ==> r.0.scene.nodes == b.scene.nodes
    ensures b.state.mode == DeleteMode ==>
      r.1.None? && !Has(r.0.scene.nodes, id) && id !in r.0.state.selectedNodes &&
      r.0.undo == SaveState(b).undo
    ensures b.state.mode == AddNodeMode ==> r == (b, None)
    ensures Inv(b) ==> Inv(r.0)
  {
    match b.state.mode
    case SelectMode => (ToggleNode(b, id), None)
    case AddPathMode => PathCreation(b, id, freshId)
    case DeleteMode => (DeleteNode(b, id).0, None)
    case AddNodeMode => (b, None)
  }

  /** A click that reaches a registered node: a focused node swallows it,
      any other node hands it to `handleNodeClick`. */
  function NodeClick(b: Builder, id: string, freshId: string): (r: (Builder, Option<SceneError>))
    requires freshId != ""
    ensures !Has(b.scene.nodes, id) || Get(b.scene.nodes, id).value.focused ==> r == (b, None)
    ensures Has(b.scene.nodes, id) && !Get(b.scene.nodes, id).value.focused ==> r == HandleNodeClick(b, id, freshId)
    ensures Inv(b) ==> Inv(r.0)
  {
    match Get(b.scene.nodes, id)
    case None => (b, None)
    case Some(n) => if Click(n).1.None? then (b, None) else HandleNodeClick(b, id, freshId)
  }

  /** Selecting a node focuses it, and a focused node swallows clicks: once
      a click has selected a node in select mode, further clicks on it leave
      the builder as it is, so the node cannot be deselected by clicking it
      again. */
  lemma SelectedNodeKeepsSelection(b: Builder, id: string, freshId: string)
    requires freshId != "" && b.state.mode == SelectMode
    requires Has(b.scene.nodes, id) && !Get(b.scene.nodes, id).value.focused && id !in b.state.selectedNodes
    ensures var once := NodeClick(b, id, freshId).0;
      && id in once.state.selectedNodes
      && NodeClick(once, id, freshId) == (once, None)
  {
  }
  /** A click on a node the builder placed itself (`addNodeAtPosition`,
      `paste`, `loadFromSchema`): such a node carries two `handleNodeClick`
      listeners, one from the `addNode` override and one from the explicit
      `setupNodeBuilderEvents` call, so one click runs the handler twice
      behind a single focus check. An error thrown by the first run skips
      the second. */
  function DoubleNodeClick(b: Builder, id: string, freshId: string): (r: (Builder, Option<SceneError>))
    requires freshId != ""
    ensures !Has(b.scene.nodes, id) || Get(b.scene.nodes, id).value.focused ==> r == (b, None)
    ensures Inv(b) ==> Inv(r.0)
  {
    match Get(b.scene.nodes, id)
    case None => (b, None)
    case Some(n) =>
      if Click(n).1.None? then (b, None)
      else
        var first := HandleNodeClick(b, id, freshId);
        if first.1.Some? then first else HandleNodeClick(first.0, id, freshId)
  }

  /** In select mode the doubled listener's two toggles cancel: the
      selection is as before, so an unselected node stays unselected, and
      the node ends focused only if it was selected. */
  lemma DoubleClickSelect(b: Builder, id: string, freshId: string)
    requires freshId != "" && Has(b.scene.nodes, id) && !Get(b.scene.nodes, id).value.focused
    requires b.state.mode == SelectMode
    ensures var r := DoubleNodeClick(b, id, freshId);
      && r.1.None?
      && (forall y :: y in r.0.state.selectedNodes <==> y in b.state.selectedNodes)
      && (id !in b.state.selectedNodes ==> r.0.state.selectedNodes == b.state.selectedNodes)
      && Get(r.0.scene.nodes, id).value.focused == (id in b.state.selectedNodes)
  {
    assert DoubleNodeClick(b, id, freshId) == (ToggleNode(ToggleNode(b, id), id), None);
    ToggleTwice(b, id);
  }

  /** In add-path mode the first click of a path is recorded once: the
      second listener sees its own node as the start and does nothing. */
  lemma DoubleClickStartsPath(b: Builder, id: string, freshId: string)
    requires freshId != "" && Has(b.scene.nodes, id) && !Get(b.scene.nodes, id).value.focused
    requires b.state.mode == AddPathMode && b.state.pathStart.None?
    ensures DoubleNodeClick(b, id, freshId) == (b.(state := b.state.(pathStart := Some(id))), None)
  {
    var b1 := b.(state := b.state.(pathStart := Some(id)));
    assert HandleNodeClick(b, id, freshId) == (b1, None);
    assert HandleNodeClick(b1, id, freshId) == (b1, None);
  }

  /** In add-path mode a click that completes a path at once starts a new
      pending path at the node it ended on. */
  lemma DoubleClickRestartsPath(b: Builder, id: string, freshId: string)
    requires freshId != "" && Has(b.scene.nodes, id) && !Get(b.scene.nodes, id).value.focused
    requires b.state.mode == AddPathMode && b.state.pathStart.Some? && b.state.pathStart.value != id
    requires ConnectNodes(b.scene, b.state.pathStart.value, id, NoOverrides, freshId).Ok?
    ensures var r := DoubleNodeClick(b, id, freshId);
      && r.1.None?
      && r.0.scene == ConnectNodes(b.scene, b.state.pathStart.value, id, NoOverrides, freshId).value
      && r.0.state.pathStart == Some(id)
  {
    var first := PathCreation(b, id, freshId);
    assert HandleNodeClick(b, id, freshId) == first;
    assert first.1.None? && first.0.state.pathStart.None? && first.0.state.mode == AddPathMode;
    var b2 := first.0.(state := first.0.state.(pathStart := Some(id)));
    assert PathCreation(first.0, id, freshId) == (b2, None);
    assert HandleNodeClick(first.0, id, freshId) == (b2, None);
  }


  /** In delete mode the doubled listener deletes twice: two checkpoints are
      pushed, and the top one already lacks the node, so one undo does not
      bring it back. */
  lemma DoubleClickDelete(b: Builder, id: string, freshId: string)
    requires freshId != "" && Has(b.scene.nodes, id) && !Get(b.scene.nodes, id).value.focused
    requires b.state.mode == DeleteMode
    ensures var r := DoubleNodeClick(b, id, freshId);
      var once := DeleteNode(b, id).0;
      && r.1.None? && !Has(r.0.scene.nodes, id)
      && r.0.undo == SaveState(once).undo
      && r.0.undo[|r.0.undo| - 1] == ToSchema(once.scene)
  {
    var once := DeleteNode(b, id).0;
    DeleteModeClick(b, id, freshId);
    DeleteModeClick(once, id, freshId);
    assert DoubleNodeClick(b, id, freshId) == HandleNodeClick(once, id, freshId);
    var saved := SaveState(once);
    assert saved.undo[|saved.undo| - 1] == ToSchema(once.scene);
  }

  /** In delete mode a node click is `deleteNode` and cannot fail. */
  lemma DeleteModeClick(b: Builder, id: string, freshId: string)
    requires freshId != "" && b.state.mode == DeleteMode
    ensures HandleNodeClick(b, id, freshId) == (DeleteNode(b, id).0, None)
  {
  }



  /** A press and release on node `id` without a drag in between. The press
      reaches the canvas container and the canvas listens for the release on
      the document, so the release first emits the canvas `click` at the
      pointer `p`; only then does the browser deliver the DOM click to the
      node, whose listener is the first that can stop it. `doubled` says
      whether the node carries the builder's two listeners. An error thrown by
      the canvas handler does not cancel the node's click. */
  function PressNode(b: Builder, id: string, p: Point, doubled: bool, canvasId: string, freshId: string)
    : (r: (Builder, Option<SceneError>))
    requires freshId != ""
    ensures b.state.mode == AddPathMode || b.state.mode == DeleteMode ==>
      r == if doubled then DoubleNodeClick(b, id, freshId) else NodeClick(b, id, freshId)
    ensures Inv(b) ==> Inv(r.0)
  {
    var c := CanvasClick(b, p, canvasId);
    var n := if doubled then DoubleNodeClick(c.0, id, freshId) else NodeClick(c.0, id, freshId);
    (n.0, if c.1.Some? then c.1 else n.1)
  }

  /** In select mode a press on a node with one listener leaves exactly that
      node selected and focused, and no path selected: the canvas click clears
      the selection, which unfocuses the node if it was selected, and the
      node's click then selects it. Only a node focused without being
      selected (after navigation) swallows the click and ends with nothing
      selected. */
  lemma PressSelectsOnly(b: Builder, id: string, p: Point, canvasId: string, freshId: string)
    requires freshId != "" && b.state.mode == SelectMode && Has(b.scene.nodes, id)
    ensures var r := PressNode(b, id, p, false, canvasId, freshId);
      var swallowed := Get(b.scene.nodes, id).value.focused && id !in b.state.selectedNodes;
      && r.1.None?
      && r.0.state.selectedPaths == []
      && r.0.state.selectedNodes == (if swallowed then [] else [id])
      && Get(r.0.scene.nodes, id).value.focused == (swallowed || id in r.0.state.selectedNodes)
  {
    var c := ClearSelection(b);
    assert CanvasClick(b, p, canvasId) == (c, None);
    if !Get(c.scene.nodes, id).value.focused {
      assert NodeClick(c, id, freshId) == (ToggleNode(c, id), None);
    }
  }

  /** In select mode a press on a node the builder placed itself leaves
      nothing selected: the canvas click clears the selection and the two
      listeners toggle the node on and off again. */
  lemma PressPlacedSelectsNothing(b: Builder, id: string, p: Point, canvasId: string, freshId: string)
    requires freshId != "" && b.state.mode == SelectMode && Has(b.scene.nodes, id)
    ensures var r := PressNode(b, id, p, true, canvasId, freshId);
      && r.1.None?
      && r.0.state.selectedNodes == [] && r.0.state.selectedPaths == []
      && Get(r.0.scene.nodes, id).value.focused == (Get(b.scene.nodes, id).value.focused && id !in b.state.selectedNodes)
  {
    var c := ClearSelection(b);
    assert CanvasClick(b, p, canvasId) == (c, None);
    if !Get(c.scene.nodes, id).value.focused {
      assert DoubleNodeClick(c, id, freshId) == (ToggleNode(ToggleNode(c, id), id), None);
      ToggleTwice(c, id);
    }
  }

  /** In add-node mode a press on a node places a new node at the raw
      pointer position, exactly as a click on the empty canvas would; the
      node's own click is ignored in that mode. */
  lemma PressAddsNode(b: Builder, id: string, p: Point, doubled: bool, canvasId: string, freshId: string)
    requires freshId != "" && b.state.mode == AddNodeMode
    ensures PressNode(b, id, p, doubled, canvasId, freshId) == CanvasClick(b, p, canvasId)
  {
    var c := CanvasClick(b, p, canvasId);
    ClicksIgnoredWhenAdding(c.0, id, freshId);
  }

  /** In add-node mode a click on a node changes nothing, whether the node
      has one listener or two. */
  lemma ClicksIgnoredWhenAdding(b: Builder, id: string, freshId: string)
    requires freshId != "" && b.state.mode == AddNodeMode
    ensures NodeClick(b, id, freshId) == (b, None)
    ensures DoubleNodeClick(b, id, freshId) == (b, None)
  {
    assert HandleNodeClick(b, id, freshId) == (b, None);
  }

  /** The offset of a pasted node from the node it copies, on both axes. */
  const PasteOffset := 50.0

  /** The configuration a pasted node gets: the copied one under a new id,
      moved by the paste offset. */
  function Shifted(c: NodeConfig, id: string): (o: NodeOptions)
    ensures Nodes.MergeDefaultConfig(o) ==
      c.(id := id, position := Point(c.position.x + PasteOffset, c.position.y + PasteOffset))
  {
    Nodes.Full(c).(id := id, position := Point(c.position.x + PasteOffset, c.position.y + PasteOffset))
  }

  /** What pasting `cs` under `ids` into `b` achieves: it succeeds exactly
      when every id is new and no two are equal, and then the ids join the
      selection in order and each names its moved copy, focused; every
      other node is left as it was, and nothing outside the node registry
      and the node selection changes. */
  ghost predicate Pasted(b: Builder, cs: seq<NodeConfig>, ids: seq<string>, r: (Builder, Option<SceneError>))
    requires |ids| == |cs|
  {
    && (r.1.None? <==> AllNew(b.scene.nodes, ids))
    && (r.1.None? ==> r.0.state.selectedNodes == InsertAll(b.state.selectedNodes, ids))
    && (r.1.None? ==> forall k :: Has(r.0.scene.nodes, k) <==> Has(b.scene.nodes, k) || k in ids)
    && (r.1.None? ==> forall i :: 0 <= i < |ids| ==>
          Get(r.0.scene.nodes, ids[i]) == Some(Node(Nodes.MergeDefaultConfig(Shifted(cs[i], ids[i])), false, true, false)))
    && (forall k :: k !in ids ==> Get(r.0.scene.nodes, k) == Get(b.scene.nodes, k))
    && r.0.scene == b.scene.(nodes := r.0.scene.nodes)
    && r.0 == b.(scene := r.0.scene, state := r.0.state)
    && r.0.state == b.state.(selectedNodes := r.0.state.selectedNodes)
  }

  /** Paste the configurations `cs` under the ids `ids`, one at a time: add
      the moved copy and select it. The first taken id stops the paste with
      the nodes before it already added. */
  function PasteNodes(b: Builder, cs: seq<NodeConfig>, ids: seq<string>): (r: (Builder, Option<SceneError>))
    requires |ids| == |cs|
    decreases |ids|
    ensures Pasted(b, cs, ids, r)
    ensures Inv(b) ==> Inv(r.0)
  {
    if |ids| == 0 then (b, None)
    else
      var o := Shifted(cs[0], ids[0]);
      if Has(b.scene.nodes, o.id) then (b, Some(DuplicateNodeId(o.id)))
      else
        var b1 := PasteStep(b, o);
        var rest := PasteNodes(b1, cs[1..], ids[1..]);
        PastedStep(b, cs, ids, b1, rest);
        rest
  }

  /** A paste of the first configuration followed by a paste of the rest is
      a paste of all of them. */
  lemma PastedStep(b: Builder, cs: seq<NodeConfig>, ids: seq<string>, b1: Builder, rest: (Builder, Option<SceneError>))
    requires |ids| == |cs| > 0 && !Has(b.scene.nodes, ids[0])
    requires b1 == PasteStep(b, Shifted(cs[0], ids[0]))
    requires Pasted(b1, cs[1..], ids[1..], rest)
    ensures Pasted(b, cs, ids, rest)
  {
    PastedFreshStep(b, cs, ids, b1);
    assert forall k :: k in ids <==> k == ids[0] || k in ids[1..];
    if rest.1.None? {
      PastedNodesStep(b, cs, ids, b1, rest);
    }
  }

  /** The ids of a paste are all new to `b` iff the first is and the rest are
      new to the builder after the first step. */
  lemma PastedFreshStep(b: Builder, cs: seq<NodeConfig>, ids: seq<string>, b1: Builder)
    requires |ids| == |cs| > 0 && !Has(b.scene.nodes, ids[0])
    requires b1 == PasteStep(b, Shifted(cs[0], ids[0]))
    ensures AllNew(b1.scene.nodes, ids[1..]) <==> AllNew(b.scene.nodes, ids)
  {
    var e := Entry(ids[0], NewNode(Shifted(cs[0], ids[0])));
    AllNewStep(b.scene.nodes, ids, e);
    forall k ensures Has(b1.scene.nodes, k) <==> Has(b.scene.nodes + [e], k) {
      HasAppend(b.scene.nodes, e, k);
    }
  }

  /** After a complete paste, every pasted id holds its moved copy, focused:
      the first one from the first step, the others from the rest. */
  lemma PastedNodesStep(b: Builder, cs: seq<NodeConfig>, ids: seq<string>, b1: Builder, rest: (Builder, Option<SceneError>))
    requires |ids| == |cs| > 0 && !Has(b.scene.nodes, ids[0])
    requires b1 == PasteStep(b, Shifted(cs[0], ids[0]))
    requires Pasted(b1, cs[1..], ids[1..], rest) && rest.1.None?
    requires AllNew(b.scene.nodes, ids)
    ensures forall i :: 0 <= i < |ids| ==>
      Get(rest.0.scene.nodes, ids[i]) == Some(Node(Nodes.MergeDefaultConfig(Shifted(cs[i], ids[i])), false, true, false))
  {
    forall i | 0 <= i < |ids|
      ensures Get(rest.0.scene.nodes, ids[i]) == Some(Node(Nodes.MergeDefaultConfig(Shifted(cs[i], ids[i])), false, true, false))
    {
      if i > 0 {
        assert ids[i] == ids[1..][i - 1] && cs[i] == cs[1..][i - 1];
      } else {
        assert ids[0] !in ids[1..] by {
          forall j | 0 <= j < |ids| - 1 ensures ids[1..][j] != ids[0] {
            assert ids[1..][j] == ids[j + 1];
          }
        }
      }
    }
  }

  /** One step of a paste: add the node and select it. */
  function PasteStep(b: Builder, o: NodeOptions): (r: Builder)
    requires !Has(b.scene.nodes, o.id)
    ensures forall k :: Has(r.scene.nodes, k) <==> Has(b.scene.nodes, k) || k == o.id
    ensures Get(r.scene.nodes, o.id) == Some(Node(Nodes.MergeDefaultConfig(o), false, true, false))
    ensures forall k :: k != o.id ==> Get(r.scene.nodes, k) == Get(b.scene.nodes, k)
    ensures r.state.selectedNodes == Insert(b.state.selectedNodes, o.id)
    ensures r.scene == b.scene.(nodes := r.scene.nodes)
    ensures r == b.(scene := r.scene, state := r.state)
    ensures r.state == b.state.(selectedNodes := r.state.selectedNodes)
    ensures Inv(b) ==> Inv(r)
  {
    var s1 := AddNode(b.scene, o).value;
    PutThenGet(b.scene.nodes, o.id, NewNode(o), o.id);
    forall k | k != o.id
      ensures Get(s1.nodes, k) == Get(b.scene.nodes, k)
    {
      PutThenGet(b.scene.nodes, o.id, NewNode(o), k);
    }
    forall k
      ensures Has(s1.nodes, k) <==> Has(b.scene.nodes, k) || k == o.id
    {
      HasAppend(b.scene.nodes, Entry(o.id, NewNode(o)), k);
    }
    assert Wf(b.scene) ==> Wf(s1) by {
      if Wf(b.scene) { AddNodeKeepsWf(b.scene, o); }
    }
    SelectNode(b.(scene := s1), o.id)
  }

  /** `paste`: nothing happens when no node was copied. Otherwise a
      snapshot is taken, the selection is cleared, and every copied node is
      added 50 units down and right of the original under a new id and
      selected. Copied paths are not pasted. */
  function Paste(b: Builder, ids: seq<string>): (r: (Builder, Option<SceneError>))
    requires |ids| == |b.state.clipboard.nodes|
    ensures |ids| == 0 ==> r == (b, None)
    ensures |ids| > 0 ==> r.0.undo == SaveState(b).undo && r.0.redo == []
    ensures |ids| > 0 ==> r.0.state.selectedPaths == []
    ensures |ids| > 0 ==> (r.1.None? <==> AllNew(b.scene.nodes, ids))
    ensures r.1.None? ==> forall i :: 0 <= i < |ids| ==>
      Get(r.0.scene.nodes, ids[i]) == Some(Node(Nodes.MergeDefaultConfig(Shifted(b.state.clipboard.nodes[i], ids[i])), false, true, false))
    ensures r.1.None? ==> forall k :: Has(r.0.scene.nodes, k) <==> Has(b.scene.nodes, k) || k in ids
    ensures forall k :: k !in ids && k !in b.state.selectedNodes ==> Get(r.0.scene.nodes, k) == Get(b.scene.nodes, k)
    ensures r.0.scene.paths == b.scene.paths
    ensures Inv(b) ==> Inv(r.0)
  {
    if |ids| == 0 then (b, None)
    else
      var cleared := ClearSelection(SaveState(b));
      var r := PasteNodes(cleared, b.state.clipboard.nodes, ids);
      assert Pasted(cleared, b.state.clipboard.nodes, ids, r);
      AllNewSameKeys(cleared.scene.nodes, b.scene.nodes, ids);
      r
  }

  /** Whether ids are new depends only on which keys are registered. */
  lemma AllNewSameKeys<T>(r: seq<Entry<T>>, q: seq<Entry<T>>, ids: seq<string>)
    requires forall k :: Has(r, k) <==> Has(q, k)
    ensures AllNew(r, ids) <==> AllNew(q, ids)
  {
  }

  /** After a paste with new, distinct ids, the selection is exactly the
      pasted nodes, in paste order. */
  lemma PasteSelectsPasted(b: Builder, ids: seq<string>)
    requires |ids| == |b.state.clipboard.nodes| && |ids| > 0
    requires AllNew(b.scene.nodes, ids)
    ensures Paste(b, ids).1.None?
    ensures Paste(b, ids).0.state.selectedNodes == ids
  {
    assert Distinct(ids);
    InsertAllFresh([], ids);
  }

  /** `setActiveNodeType`: only a registered type can become active. */
  function SetActiveNodeType(b: Builder, t: string): (r: Builder)
    ensures Has(b.nodeTypes, t) ==> r.state.activeNodeType == t
    ensures !Has(b.nodeTypes, t) ==> r == b
    ensures r == b.(state := b.state.(activeNodeType := r.state.activeNodeType))
  {
    if Has(b.nodeTypes, t) then b.(state := b.state.(activeNodeType := t)) else b
  }

  /** `addNodeType`: registers the type, replacing one of the same name. */
  function AddNodeType(b: Builder, t: string, nt: NodeType): (r: Builder)
    ensures Get(r.nodeTypes, t) == Some(nt)
    ensures forall k :: k != t ==> Get(r.nodeTypes, k) == Get(b.nodeTypes, k)
    ensures r == b.(nodeTypes := r.nodeTypes)
    ensures Inv(b) ==> Inv(r)
  {
    forall k | k != t
      ensures Get(Put(b.nodeTypes, t, nt), k) == Get(b.nodeTypes, k)
    {
      PutThenGet(b.nodeTypes, t, nt, k);
    }
    PutThenGet(b.nodeTypes, t, nt, t);
    b.(nodeTypes := Put(b.nodeTypes, t, nt))
  }

  /** `removeNodeType`: answers whether the type was registered. The active
      type is not reset, so it may name a type that no longer exists. */
  function RemoveNodeType(b: Builder, t: string): (r: (Builder, bool))
    ensures r.1 <==> Has(b.nodeTypes, t)
    ensures !Has(r.0.nodeTypes, t)
    ensures forall k :: k != t ==> Get(r.0.nodeTypes, k) == Get(b.nodeTypes, k)
    ensures r.0 == b.(nodeTypes := r.0.nodeTypes)
    ensures Inv(b) ==> Inv(r.0)
  {
    forall k | k != t
      ensures Get(Delete(b.nodeTypes, t), k) == Get(b.nodeTypes, k)
    {
      DeleteKeepsOthers(b.nodeTypes, t, k);
    }
    assert UniqueKeys(b.nodeTypes) ==> UniqueKeys(Delete(b.nodeTypes, t)) by {
      if UniqueKeys(b.nodeTypes) { DeleteKeepsUnique(b.nodeTypes, t); }
    }
    (b.(nodeTypes := Delete(b.nodeTypes, t)), Has(b.nodeTypes, t))
  }

  /** Removing the active node type makes later placements fall back to the
      generic content and size. */
  lemma RemovedTypeFallsBack(b: Builder, p: Point, freshId: string)
    ensures var r := RemoveNodeType(b, b.state.activeNodeType).0;
      Nodes.MergeDefaultConfig(Placed(r, p, NoNodeOverrides, freshId)) ==
        NodeConfig(freshId, p, Size(200.0, 120.0), "New Node", "", true, 1.0)
  {
  }
}

=== FILE: easing.dfy ===
/** The animated viewport transitions of `Canvas.animateTo` and
    `CircuitUI.animateViewport`: each animation frame reads the clock, turns the
    elapsed time into a progress in [0, 1], eases it with a cubic ease-out and
    interpolates every viewport component from the start towards the target.
    The clock and the frame scheduler are outside the model: the elapsed times
    at which frames run are parameters. */
module Easing {
  import opened Geometry
  import opened Viewports

  /** The default length of a navigation animation, in milliseconds. */
  const DefaultDuration := 800.0

  /** `Math.min(elapsed / duration, 1)`. */
  function Progress(elapsed: real, duration: real): (p: real)
    requires duration > 0.0
    ensures p <= 1.0
    ensures p == 1.0 <==> elapsed >= duration
    ensures elapsed >= 0.0 ==> p >= 0.0
    ensures elapsed == 0.0 ==> p == 0.0
  {
    Min(elapsed / duration, 1.0)
  }

  /** `x` to the power `n`; `Math.pow(x, 3)` is `Power(x, 3)`. */
  function Power(x: real, n: nat): real {
    if n == 0 then 1.0 else Power(x, n - 1) * x
  }

  function Cube(x: real): real {
    Power(x, 3)
  }

  lemma CubeMono(a: real, b: real)
    requires 0.0 <= a <= b
    ensures 0.0 <= Cube(a) <= Cube(b)
  {
    MulLe(a, a, b);
    MulLe(b, a, b);
    assert 0.0 <= a * a <= b * b;
    MulLe(a * a, a, b);
    MulLe(b, a * a, b * b);
    assert 0.0 <= a * a * a <= b * b * b;
    PowerThree(a);
    PowerThree(b);
  }

  lemma PowerThree(x: real)
    ensures Cube(x) == x * x * x
  {
    calc {
      Power(x, 3);
      Power(x, 2) * x;
      Power(x, 1) * x * x;
      Power(x, 0) * x * x * x;
    }
  }

  lemma MulLe(k: real, x: real, y: real)
    requires k >= 0.0 && x <= y
    ensures k * x <= k * y
  {
  }

  /** Dividing by a positive number keeps the order. */
  lemma DivLe(d: real, x: real, y: real)
    requires d > 0.0 && x <= y
    ensures x / d <= y / d
  {
    assert y / d - x / d == (y - x) / d;
  }

  /** A fraction of a non-negative amount lies between 0 and the amount. */
  lemma FractionBetween(a: real, t: real)
    requires a >= 0.0 && 0.0 <= t <= 1.0
    ensures 0.0 <= a * t <= a
  {
    MulLe(a, 0.0, t);
    MulLe(a, t, 1.0);
  }

  /** The ease-out curve `1 - (1 - p)^3`. */
  function EaseOut(p: real): real {
    1.0 - Cube(1.0 - p)
  }

  /** The ease-out curve starts at 0, ends at 1, stays within [0, 1] and never
      goes backwards on [0, 1]. */
  lemma EaseOutShape(p: real, q: real)
    ensures EaseOut(0.0) == 0.0 && EaseOut(1.0) == 1.0
    ensures 0.0 <= p <= 1.0 ==> 0.0 <= EaseOut(p) <= 1.0
    ensures 0.0 <= p <= q <= 1.0 ==> EaseOut(p) <= EaseOut(q)
  {
    if 0.0 <= p <= 1.0 {
      CubeMono(1.0 - p, 1.0);
    }
    if 0.0 <= p <= q <= 1.0 {
      CubeMono(1.0 - q, 1.0 - p);
    }
  }

  /** `start + (target - start) * t`. */
  function Lerp(start: real, target: real, t: real): (r: real)
    ensures t == 0.0 ==> r == start
    ensures t == 1.0 ==> r == target
  {
    start + (target - start) * t
  }

  /** Between the ends, an interpolation lies between the start and the target. */
  lemma LerpBetween(start: real, target: real, t: real)
    requires 0.0 <= t <= 1.0
    ensures Min(start, target) <= Lerp(start, target, t) <= Max(start, target)
  {
    var span := target - start;
    var step := span * t;
    assert Lerp(start, target, t) == start + step;
    if start <= target {
      FractionBetween(span, t);
    } else {
      FractionBetween(-span, t);
      Negates(span, t);
    }
  }

  /** The viewport a frame shows, and whether the animation has finished. */
  function Frame(start: Viewport, target: Viewport, elapsed: real, duration: real): (r: (Viewport, bool))
    requires duration > 0.0
    ensures r.1 <==> elapsed >= duration
    ensures r.1 ==> r.0 == target
    ensures elapsed == 0.0 ==> r.0 == start
  {
    var e := EaseOut(Progress(elapsed, duration));
    (Viewport(Lerp(start.x, target.x, e), Lerp(start.y, target.y, e), Lerp(start.zoom, target.zoom, e)),
     Progress(elapsed, duration) >= 1.0)
  }

  /** Every frame of a running animation shows a viewport between the start
      and the target, component by component. */
  lemma FrameBetween(start: Viewport, target: Viewport, elapsed: real, duration: real)
    requires duration > 0.0 && elapsed >= 0.0
    ensures var v := Frame(start, target, elapsed, duration).0;
      && Min(start.x, target.x) <= v.x <= Max(start.x, target.x)
      && Min(start.y, target.y) <= v.y <= Max(start.y, target.y)
      && Min(start.zoom, target.zoom) <= v.zoom <= Max(start.zoom, target.zoom)
  {
    var p := Progress(elapsed, duration);
    EaseOutShape(p, p);
    var e := EaseOut(p);
    LerpBetween(start.x, target.x, e);
    LerpBetween(start.y, target.y, e);
    LerpBetween(start.zoom, target.zoom, e);
  }

  /** Later frames are never further from the target than earlier ones: on each
      component the frame at `e1` lies between the frame at `e0 <= e1` and the
      target. */
  lemma FramesApproach(start: Viewport, target: Viewport, e0: real, e1: real, duration: real)
    requires duration > 0.0 && 0.0 <= e0 <= e1
    ensures var a := Frame(start, target, e0, duration).0;
      var b := Frame(start, target, e1, duration).0;
      && Abs(target.x - b.x) <= Abs(target.x - a.x)
      && Abs(target.y - b.y) <= Abs(target.y - a.y)
      && Abs(target.zoom - b.zoom) <= Abs(target.zoom - a.zoom)
  {
    var p0 := Progress(e0, duration);
    var p1 := Progress(e1, duration);
    assert p0 <= p1 by {
      DivLe(duration, e0, e1);
    }
    EaseOutShape(p0, p1);
    EaseOutShape(p1, p1);
    var t0 := EaseOut(p0);
    var t1 := EaseOut(p1);
    Closer(start.x, target.x, t0, t1);
    Closer(start.y, target.y, t0, t1);
    Closer(start.zoom, target.zoom, t0, t1);
  }

  lemma Closer(start: real, target: real, t0: real, t1: real)
    requires 0.0 <= t0 <= t1 <= 1.0
    ensures Abs(target - Lerp(start, target, t1)) <= Abs(target - Lerp(start, target, t0))
  {
    var d := if start <= target then target - start else start - target;
    var m0 := AbsOfGap(start, target, t0, d);
    var m1 := AbsOfGap(start, target, t1, d);
    MulLe(d, 1.0 - t1, 1.0 - t0);
    assert m1 <= m0;
  }

  /** What is left of the way after fraction `t` is that fraction of the
      distance `d`. */
  lemma AbsOfGap(start: real, target: real, t: real, d: real) returns (m: real)
    requires t <= 1.0
    requires d == if start <= target then target - start else start - target
    ensures m == d * (1.0 - t)
    ensures Abs(target - Lerp(start, target, t)) == m
  {
    m := d * (1.0 - t);
    var g := target - Lerp(start, target, t);
    Distributes(target - start, t);
    assert g == (target - start) - (target - start) * t;
    NonNegProduct(d, 1.0 - t);
    Distributes(d, t);
    if start <= target {
      assert g == m;
    } else {
      Negates(d, t);
      assert g == -m;
    }
  }

  lemma NonNegProduct(a: real, b: real)
    requires a >= 0.0 && b >= 0.0
    ensures a * b >= 0.0
  {
  }

  lemma Distributes(a: real, t: real)
    ensures a * (1.0 - t) == a - a * t
  {
  }

  lemma Negates(a: real, t: real)
    ensures (-a) * t == -(a * t)
  {
  }

  /** The animation loop: run a frame at each of the given elapsed times until
      one reaches the duration. It stops at the first such frame and leaves
      the target in place; if the times given never reach the duration the
      animation is still running on the last frame shown. */
  method Animate(start: Viewport, target: Viewport, times: seq<real>, duration: real)
    returns (v: Viewport, frames: nat, done: bool)
    requires duration > 0.0
    ensures frames <= |times|
    ensures done <==> exists i :: 0 <= i < |times| && times[i] >= duration
    ensures done ==> frames > 0 && v == target && times[frames - 1] >= duration
    ensures forall i :: 0 <= i < frames - 1 ==> times[i] < duration
    ensures !done ==> frames == |times|
    ensures !done && frames > 0 ==> v == Frame(start, target, times[frames - 1], duration).0
  {
    v, frames, done := start, 0, false;
    while frames < |times| && !done
      invariant frames <= |times|
      invariant forall i :: 0 <= i < frames - 1 ==> times[i] < duration
      invariant done ==> frames > 0 && times[frames - 1] >= duration && v == target
      invariant !done ==> forall i :: 0 <= i < frames ==> times[i] < duration
      invariant !done && frames > 0 ==> v == Frame(start, target, times[frames - 1], duration).0
    {
      var f := Frame(start, target, times[frames], duration);
      v, done := f.0, f.1;
      frames := frames + 1;
    }
  }

  /** The target of `Canvas.animateTo(position)`: the offset is
      `screen / 2 - position` and the zoom is 1 with `fitToView`, the current
      zoom otherwise. */
  function AnimateToTarget(v: Viewport, screen: Size, position: Point, fitToView: bool): (r: Viewport)
    ensures r.zoom == (if fitToView then 1.0 else v.zoom)
    ensures ScreenToWorld(r.(zoom := 1.0), Point(screen.width / 2.0, screen.height / 2.0)) == position
  {
    Viewport(-position.x + screen.width / 2.0, -position.y + screen.height / 2.0,
      if fitToView then 1.0 else v.zoom)
  }

  /** The offset formula ignores the zoom: the target puts `position` at the
      screen centre exactly when the target zoom is 1 or the position is the
      world origin. */
  lemma AnimateToCentresIff(v: Viewport, screen: Size, position: Point, fitToView: bool)
    ensures var r := AnimateToTarget(v, screen, position, fitToView);
      WorldToScreen(r, position) == Point(screen.width / 2.0, screen.height / 2.0)
      <==> r.zoom == 1.0 || position == Origin
  {
    var r := AnimateToTarget(v, screen, position, fitToView);
    assert WorldToScreen(r, position).x - screen.width / 2.0 == position.x * (r.zoom - 1.0);
    assert WorldToScreen(r, position).y - screen.height / 2.0 == position.y * (r.zoom - 1.0);
    if r.zoom != 1.0 && position != Origin {
      assert position.x != 0.0 || position.y != 0.0;
    }
  }
}

=== FILE: geometry.dfy ===
/** Plane geometry shared by every component: positions, sizes, bounds and the
    clamp the source writes as `Math.max(lo, Math.min(hi, v))`. Coordinates are
    exact reals; IEEE-754 rounding is not modelled. */
module Geometry {

  /** A world- or screen-space position (`Position`, and `Waypoint` without its
      unused direction tag). */
  datatype Point = Point(x: real, y: real)

  /** A width/height pair (`Size`). */
  datatype Size = Size(width: real, height: real)

  /** An axis-aligned box (`Bounds`). */
  datatype Bounds = Bounds(x: real, y: real, width: real, height: real)

  const Origin := Point(0.0, 0.0)

  function Abs(a: real): (r: real)
    ensures r >= 0.0 && (r == a || r == -a)
  {
    if a < 0.0 then -a else a
  }

  /** `Math.min` on two reals. */
  function Min(a: real, b: real): (r: real)
    ensures r <= a && r <= b && (r == a || r == b)
  {
    if a <= b then a else b
  }

  /** `Math.max` on two reals. */
  function Max(a: real, b: real): (r: real)
    ensures r >= a && r >= b && (r == a || r == b)
  {
    if a >= b then a else b
  }

  /** `Math.max(lo, Math.min(hi, v))`: lands in `[lo, hi]` whenever that range
      is non-empty, leaves values already inside untouched, and answers `lo`
      when the range is empty. */
  function Clamp(v: real, lo: real, hi: real): (r: real)
    ensures lo <= hi ==> lo <= r <= hi
    ensures lo <= v <= hi ==> r == v
    ensures v < lo ==> r == lo
    ensures hi < v && lo <= hi ==> r == hi
    ensures hi < lo ==> r == lo
  {
    Max(lo, Min(hi, v))
  }

  /** Centre of a box anchored at `p` with size `s` (node centres). */
  function Centre(p: Point, s: Size): (c: Point)
    ensures c.x - p.x == p.x + s.width - c.x
    ensures c.y - p.y == p.y + s.height - c.y
  {
    Point(p.x + s.width / 2.0, p.y + s.height / 2.0)
  }
}

=== FILE: keyboard.dfy ===
/** The builder's keyboard shortcuts (`setupKeyboardShortcuts` in
    `src/lib/UIBuilder.ts`): which key press on the canvas triggers which
    builder operation, and what those operations keep. */
module Keyboard {
  import opened Results
  import opened Registry
  import opened Scenes
  import opened Schemas
  import opened OrderedSets
  import opened Builder

  /** `toLowerCase` on one character, for the ASCII letters. */
  function LowerChar(c: char): (d: char)
    ensures 'A' <= c <= 'Z' ==> d as int == c as int + 32
    ensures !('A' <= c <= 'Z') ==> d == c
    ensures !('A' <= d <= 'Z')
  {
    if 'A' <= c <= 'Z' then (c as int + 32) as char else c
  }

  /** `toLowerCase`, for the ASCII letters. */
  function Lower(s: string): (t: string)
    ensures |t| == |s|
    ensures forall i :: 0 <= i < |s| ==> t[i] == LowerChar(s[i])
  {
    seq(|s|, i requires 0 <= i < |s| => LowerChar(s[i]))
  }

  /** Lower-casing twice is lower-casing once. */
  lemma LowerIdempotent(s: string)
    ensures Lower(Lower(s)) == Lower(s)
  {
  }

  /** A `keydown` on the document: the key name, the modifier flags, and
      whether the target is the page body or an element with the
      `circuit-ui-canvas` class (presses anywhere else are ignored). */
  datatype KeyEvent = KeyEvent(key: string, ctrl: bool, meta: bool, shift: bool, onCanvas: bool)

  datatype Action =
    | UndoAction
    | RedoAction
    | CopyAction
    | PasteAction
    | SelectAllAction
    | EscapeAction
    | DeleteAction
    | ModeAction(mode: Mode)

  /** The digit that switches to each mode. */
  function ModeKey(m: Mode): string {
    match m
    case SelectMode => "1"
    case AddNodeMode => "2"
    case AddPathMode => "3"
    case DeleteMode => "4"
  }

  /** The action a key press triggers, if any. Shortcuts must be enabled
      and the press must be on the canvas. With Ctrl or Cmd held only z
      (with Shift: redo), c, v and a do anything; without them escape,
      delete, backspace and the digits 1 to 4 do. */
  function Shortcut(enabled: bool, e: KeyEvent): (a: Option<Action>)
    ensures !enabled || !e.onCanvas ==> a.None?
    ensures a.Some? && (e.ctrl || e.meta) ==>
      a.value in {UndoAction, RedoAction, CopyAction, PasteAction, SelectAllAction}
    ensures a.Some? && !(e.ctrl || e.meta) ==>
      a.value.EscapeAction? || a.value.DeleteAction? || a.value.ModeAction?
  {
    if !enabled || !e.onCanvas then None
    else
      var key := Lower(e.key);
      if e.ctrl || e.meta then
        if key == "z" then Some(if e.shift then RedoAction else UndoAction)
        else if key == "c" then Some(CopyAction)
        else if key == "v" then Some(PasteAction)
        else if key == "a" then Some(SelectAllAction)
        else None
      else if key == "escape" then Some(EscapeAction)
      else if key == "delete" || key == "backspace" then Some(DeleteAction)
      else if key == "1" then Some(ModeAction(SelectMode))
      else if key == "2" then Some(ModeAction(AddNodeMode))
      else if key == "3" then Some(ModeAction(AddPathMode))
      else if key == "4" then Some(ModeAction(DeleteMode))
      else None
  }

  /** The key name is compared without regard to case, and Ctrl and Cmd
      are interchangeable. */
  lemma ShortcutInsensitive(enabled: bool, e: KeyEvent)
    ensures Shortcut(enabled, e.(key := Lower(e.key))) == Shortcut(enabled, e)
    ensures Shortcut(enabled, e.(ctrl := true, meta := false)) == Shortcut(enabled, e.(ctrl := false, meta := true))
  {
    LowerIdempotent(e.key);
  }

  /** Undo and redo are exactly Ctrl/Cmd+Z, without and with Shift. */
  lemma UndoRedoKeys(enabled: bool, e: KeyEvent)
    ensures Shortcut(enabled, e) == Some(UndoAction) <==>
      enabled && e.onCanvas && (e.ctrl || e.meta) && Lower(e.key) == "z" && !e.shift
    ensures Shortcut(enabled, e) == Some(RedoAction) <==>
      enabled && e.onCanvas && (e.ctrl || e.meta) && Lower(e.key) == "z" && e.shift
  {
  }

  /** A mode is chosen exactly by its digit, pressed without Ctrl or Cmd. */
  lemma ModeKeys(enabled: bool, e: KeyEvent, m: Mode)
    ensures Shortcut(enabled, e) == Some(ModeAction(m)) <==>
      enabled && e.onCanvas && !e.ctrl && !e.meta && Lower(e.key) == ModeKey(m)
  {
  }

  /** The ids an action needs from outside: for undo and redo, one
      generated id per path record of the snapshot restored; for paste, one
      new node id per copied node. */
  predicate Supplied(b: Builder, a: Action, gen: seq<string>, pasteIds: seq<string>) {
    && (forall i :: 0 <= i < |gen| ==> gen[i] != "")
    && (a == UndoAction && |b.undo| > 0 ==> |gen| == |b.undo[|b.undo| - 1].paths|)
    && (a == RedoAction && |b.redo| > 0 ==> |gen| == |b.redo[|b.redo| - 1].paths|)
    && (a == PasteAction ==> |pasteIds| == |b.state.clipboard.nodes|)
  }

  /** What each shortcut does to the builder. Escape returns to select mode
      and clears the selection. */
  function Perform(b: Builder, a: Action, gen: seq<string>, pasteIds: seq<string>): (r: (Builder, Option<SceneError>))
    requires Supplied(b, a, gen, pasteIds)
    ensures a == EscapeAction ==>
      r.1.None? && r.0.state.mode == SelectMode && r.0.state.pathStart.None? &&
      r.0.state.selectedNodes == [] && r.0.state.selectedPaths == []
    ensures a.ModeAction? ==> r.1.None? && r.0.state.mode == a.mode && r.0.state.pathStart.None?
    ensures a == CopyAction || a == SelectAllAction || a.ModeAction? || a == EscapeAction ==>
      r.0.undo == b.undo && r.0.redo == b.redo
    ensures a == UndoAction && |b.undo| == 0 ==> r == (b, None)
    ensures a == RedoAction && |b.redo| == 0 ==> r == (b, None)
    ensures a == UndoAction || a == RedoAction ==> |r.0.undo| + |r.0.redo| == |b.undo| + |b.redo|
    ensures Inv(b) ==> Inv(r.0)
  {
    match a
    case UndoAction => var u := Undo(b, gen); (u.0, u.2)
    case RedoAction => var u := Redo(b, gen); (u.0, u.2)
    case CopyAction => (Copy(b), None)
    case PasteAction => Paste(b, pasteIds)
    case SelectAllAction => (SelectAll(b), None)
    case EscapeAction => (ClearSelection(SetMode(b, SelectMode)), None)
    case DeleteAction => (DeleteSelected(b), None)
    case ModeAction(m) => (SetMode(b, m), None)
  }

  /** The `keydown` listener: the shortcut, if any, is performed. Every key
      press keeps the builder's invariant, and a press that is not a
      shortcut changes nothing. */
  function KeyDown(b: Builder, enabled: bool, e: KeyEvent, gen: seq<string>, pasteIds: seq<string>)
    : (r: (Builder, Option<SceneError>))
    requires Shortcut(enabled, e).Some? ==> Supplied(b, Shortcut(enabled, e).value, gen, pasteIds)
    ensures Shortcut(enabled, e).None? ==> r == (b, None)
    ensures Inv(b) ==> Inv(r.0)
  {
    match Shortcut(enabled, e)
    case None => (b, None)
    case Some(a) => Perform(b, a, gen, pasteIds)
  }

  /** With shortcuts disabled, or with the focus outside the canvas, no key
      press changes the builder. */
  lemma IgnoredPresses(b: Builder, enabled: bool, e: KeyEvent, gen: seq<string>, pasteIds: seq<string>)
    requires !enabled || !e.onCanvas
    ensures KeyDown(b, enabled, e, gen, pasteIds) == (b, None)
  {
  }
}

=== FILE: navigation.dfy ===
/** The navigation maths of `src/lib/CircuitUI.ts`: the target viewports of
    `navigateToNode`, `panTo`, `zoomTo` and `zoomToFit`, the active-node and
    history bookkeeping, and `navigateBack`. Each animation is modelled by its
    last frame, which sets the viewport to the target exactly (see
    `Easing.Frame`). */
module Navigation {
  import opened Results
  import opened Geometry
  import opened Viewports
  import opened Nodes
  import opened Registry
  import opened Scenes
  import Easing

  /** A caller's `Partial<NavigationConfig>`. */
  datatype NavigationOptions = NavigationOptions(
    duration: Option<real>,
    zoomOut: Option<bool>,
    fitToView: Option<bool>,
    padding: Option<real>)

  const NoNavigationOptions := NavigationOptions(None, None, None, None)

  datatype NavigationConfig = NavigationConfig(duration: real, zoomOut: bool, fitToView: bool, padding: real)

  /** The spread `{duration: 800, zoomOut: false, fitToView: false,
      padding: 50, ...config}`. */
  function MergeNavigation(o: NavigationOptions): (c: NavigationConfig)
    ensures o == NoNavigationOptions ==> c == NavigationConfig(800.0, false, false, 50.0)
    ensures o.duration.Some? ==> c.duration == o.duration.value
    ensures o.duration.None? ==> c.duration == 800.0
    ensures o.zoomOut.Some? ==> c.zoomOut == o.zoomOut.value
    ensures o.zoomOut.None? ==> !c.zoomOut
    ensures o.fitToView.Some? ==> c.fitToView == o.fitToView.value
    ensures o.fitToView.None? ==> !c.fitToView
    ensures o.padding.Some? ==> c.padding == o.padding.value
    ensures o.padding.None? ==> c.padding == 50.0
  {
    NavigationConfig(o.duration.GetOr(Easing.DefaultDuration), o.zoomOut.GetOr(false),
      o.fitToView.GetOr(false), o.padding.GetOr(50.0))
  }

  /** `navigationConfig.padding || 50`: a padding of 0 is replaced too. */
  function Padding(c: NavigationConfig): (p: real)
    ensures p != 0.0
    ensures c.padding != 0.0 ==> p == c.padding
    ensures c.padding == 0.0 ==> p == 50.0
  {
    if c.padding != 0.0 then c.padding else 50.0
  }

  /** The zoom that fits a node of size `ns` into the screen less the padding
      on each side, clamped to the canvas limits. */
  function FitZoom(limits: ZoomLimits, screen: Size, ns: Size, padding: real): (z: real)
    requires ns.width != 0.0 && ns.height != 0.0
    ensures limits.min <= limits.max ==> limits.min <= z <= limits.max
  {
    Clamp(Min((screen.width - padding * 2.0) / ns.width, (screen.height - padding * 2.0) / ns.height),
      limits.min, limits.max)
  }

  lemma MulBelowQuotient(z: real, a: real, n: real)
    requires n > 0.0 && z <= a / n
    ensures z * n <= a
  {
    assert a / n * n == a;
  }

  /** Unless the zoom limits intervene, the fitted node and its padding fit
      the screen, and they fill it along one axis. */
  lemma FitZoomFits(limits: ZoomLimits, screen: Size, ns: Size, padding: real)
    requires ns.width > 0.0 && ns.height > 0.0
    requires var raw := Min((screen.width - padding * 2.0) / ns.width, (screen.height - padding * 2.0) / ns.height);
      limits.min <= raw <= limits.max
    ensures var z := FitZoom(limits, screen, ns, padding);
      && ns.width * z + 2.0 * padding <= screen.width
      && ns.height * z + 2.0 * padding <= screen.height
      && (ns.width * z + 2.0 * padding == screen.width || ns.height * z + 2.0 * padding == screen.height)
  {
    var a, b := screen.width - padding * 2.0, screen.height - padding * 2.0;
    var z := FitZoom(limits, screen, ns, padding);
    assert z == Min(a / ns.width, b / ns.height);
    MulBelowQuotient(z, a, ns.width);
    MulBelowQuotient(z, b, ns.height);
    if z == a / ns.width {
      assert z * ns.width == a;
    } else {
      assert z * ns.height == b;
    }
  }

  /** The viewport that shows world point `c` at the centre of the screen at
      zoom `z`. */
  function CentreOn(screen: Size, c: Point, z: real): (v: Viewport)
    ensures v.zoom == z
    ensures WorldToScreen(v, c) == Point(screen.width / 2.0, screen.height / 2.0)
  {
    Viewport(screen.width / 2.0 - c.x * z, screen.height / 2.0 - c.y * z, z)
  }

  /** The target zoom of `navigateToNode`: the current zoom, or with
      `fitToView` a zoom within the canvas limits (see `NavigateZoomFits`). */
  function NavigateZoom(s: Scene, screen: Size, n: Node, c: NavigationConfig): (z: real)
    requires c.fitToView ==> n.config.size.width != 0.0 && n.config.size.height != 0.0
    ensures !c.fitToView ==> z == s.viewport.zoom
    ensures c.fitToView && s.canvas.zoom.min <= s.canvas.zoom.max ==>
      s.canvas.zoom.min <= z <= s.canvas.zoom.max
  {
    if c.fitToView then FitZoom(s.canvas.zoom, screen, n.config.size, Padding(c)) else s.viewport.zoom
  }

  /** With `fitToView`, unless the canvas limits intervene, the node and the
      padding (0 read as 50) on both sides fit the screen at the target zoom,
      and fill it along one axis. */
  lemma NavigateZoomFits(s: Scene, screen: Size, n: Node, c: NavigationConfig)
    requires c.fitToView && n.config.size.width > 0.0 && n.config.size.height > 0.0
    requires var p := Padding(c);
      var raw := Min((screen.width - p * 2.0) / n.config.size.width, (screen.height - p * 2.0) / n.config.size.height);
      s.canvas.zoom.min <= raw <= s.canvas.zoom.max
    ensures var z := NavigateZoom(s, screen, n, c);
      var w := n.config.size.width * z + 2.0 * Padding(c);
      var h := n.config.size.height * z + 2.0 * Padding(c);
      w <= screen.width && h <= screen.height && (w == screen.width || h == screen.height)
  {
    FitZoomFits(s.canvas.zoom, screen, n.config.size, Padding(c));
  }

  /** Does navigating to `id` push the current active node onto the history? */
  predicate Pushes(s: Scene, id: string) {
    HasActive(s) && s.active.value != id
  }

  /** `navigateToNode`: an unknown id throws (the promise rejects) before
      anything changes. Otherwise the previous active node, when defined and
      different, goes onto the history; the previous active node is
      unfocused and the target focused; the target becomes active; and the
      animation ends with the node's centre at the centre of the screen. */
  function NavigateToNode(s: Scene, screen: Size, id: string, o: NavigationOptions)
    : (r: Result<Scene, SceneError>)
    requires Has(s.nodes, id) && MergeNavigation(o).fitToView ==>
      Get(s.nodes, id).value.config.size.width != 0.0 && Get(s.nodes, id).value.config.size.height != 0.0
    ensures r.Err? <==> !Has(s.nodes, id)
    ensures r.Err? ==> r.error == NodeNotFound(id)
    ensures r.Ok? ==> r.value.active == Some(id)
    ensures r.Ok? ==> r.value.history == if Pushes(s, id) then s.history + [s.active.value] else s.history
    ensures r.Ok? ==> r.value.paths == s.paths && r.value.canvas == s.canvas
    ensures r.Ok? ==>
      WorldToScreen(r.value.viewport, NodeCentre(Get(s.nodes, id).value)) == Point(screen.width / 2.0, screen.height / 2.0)
    ensures r.Ok? ==>
      r.value.viewport.zoom == NavigateZoom(s, screen, Get(s.nodes, id).value, MergeNavigation(o))
    ensures r.Ok? ==> forall k :: Has(r.value.nodes, k) <==> Has(s.nodes, k)
    ensures r.Ok? ==> Get(r.value.nodes, id).value.focused
    ensures r.Ok? && Pushes(s, id) && Has(s.nodes, s.active.value) ==>
      !Get(r.value.nodes, s.active.value).value.focused
    ensures r.Ok? ==> forall k :: k != id && (!HasActive(s) || k != s.active.value) ==>
      Get(r.value.nodes, k) == Get(s.nodes, k)
  {
    match Get(s.nodes, id)
    case None => Err(NodeNotFound(id))
    case Some(n) =>
      var c := MergeNavigation(o);
      var target := CentreOn(screen, NodeCentre(n), NavigateZoom(s, screen, n, c));
      var history := if Pushes(s, id) then s.history + [s.active.value] else s.history;
      var s1 := if HasActive(s) then FocusNode(s, s.active.value, false) else s;
      var s2 := FocusNode(s1, id, true);
      Ok(s2.(active := Some(id), history := history, viewport := target))
  }

  /** Navigation keeps a scene well formed. */
  lemma NavigateKeepsWf(s: Scene, screen: Size, id: string, o: NavigationOptions)
    requires Wf(s)
    requires Has(s.nodes, id) && MergeNavigation(o).fitToView ==>
      Get(s.nodes, id).value.config.size.width != 0.0 && Get(s.nodes, id).value.config.size.height != 0.0
    requires NavigateToNode(s, screen, id, o).Ok?
    ensures Wf(NavigateToNode(s, screen, id, o).value)
  {
    var s1 := if HasActive(s) then FocusNode(s, s.active.value, false) else s;
    if HasActive(s) {
      FocusNodeKeepsWf(s, s.active.value, false);
    }
    FocusNodeKeepsWf(s1, id, true);
  }

  /** `panTo`: the target offset is `screen / 2 - position` at the current
      zoom, the formula of `Canvas.animateTo` without `fitToView`. */
  function PanTo(s: Scene, screen: Size, position: Point): (r: Scene)
    ensures r.viewport == Easing.AnimateToTarget(s.viewport, screen, position, false)
    ensures r == s.(viewport := r.viewport)
  {
    s.(viewport := Viewport(-position.x + screen.width / 2.0, -position.y + screen.height / 2.0, s.viewport.zoom))
  }

  /** Because the offset ignores the zoom, `panTo` brings `position` to the
      centre of the screen exactly when the zoom is 1 or the position is the
      world origin. */
  lemma PanToCentresIff(s: Scene, screen: Size, position: Point)
    ensures WorldToScreen(PanTo(s, screen, position).viewport, position) == Point(screen.width / 2.0, screen.height / 2.0)
      <==> s.viewport.zoom == 1.0 || position == Origin
  {
    Easing.AnimateToCentresIff(s.viewport, screen, position, false);
  }

  /** `zoomTo(zoom)`: the world point at the centre of the screen stays there
      while the zoom becomes `zoom`, with no clamping to the canvas limits. */
  function ZoomTo(s: Scene, screen: Size, zoom: real): (r: Scene)
    requires s.viewport.zoom != 0.0
    ensures r.viewport.zoom == zoom
    ensures WorldToScreen(r.viewport, ScreenToWorld(s.viewport, Point(screen.width / 2.0, screen.height / 2.0)))
      == Point(screen.width / 2.0, screen.height / 2.0)
    ensures r == s.(viewport := r.viewport)
  {
    var centre := Point(screen.width / 2.0, screen.height / 2.0);
    s.(viewport := CentreOn(screen, ScreenToWorld(s.viewport, centre), zoom))
  }

  /** For any non-zero zoom, the world point read at the screen centre is the
      same before and after `zoomTo`. */
  lemma ZoomToKeepsCentre(s: Scene, screen: Size, zoom: real)
    requires s.viewport.zoom != 0.0 && zoom != 0.0
    ensures var centre := Point(screen.width / 2.0, screen.height / 2.0);
      ScreenToWorld(ZoomTo(s, screen, zoom).viewport, centre) == ScreenToWorld(s.viewport, centre)
  {
    var centre := Point(screen.width / 2.0, screen.height / 2.0);
    var r := ZoomTo(s, screen, zoom);
    TransformsInverse(r.viewport, ScreenToWorld(s.viewport, centre));
  }

  /** The share of the screen `zoomToFit` gives the content. */
  const FitShare := 0.8

  /** The centre of a box. */
  function BoundsCentre(b: Bounds): Point {
    Point(b.x + b.width / 2.0, b.y + b.height / 2.0)
  }

  /** The zoom `zoomToFit` picks for content bounds `b`. */
  function FitScale(screen: Size, b: Bounds): real
    requires b.width != 0.0 && b.height != 0.0
  {
    Min(screen.width / b.width, screen.height / b.height) * FitShare
  }

  /** The viewport `zoomToFit` aims for when the content bounds are `b`:
      the centre of `b` at the centre of the screen, at the fit scale. */
  function FitView(screen: Size, b: Bounds): (v: Viewport)
    requires b.width != 0.0 && b.height != 0.0
    ensures v.zoom == FitScale(screen, b)
    ensures WorldToScreen(v, BoundsCentre(b)) == Point(screen.width / 2.0, screen.height / 2.0)
  {
    var scale := FitScale(screen, b);
    Viewport(-BoundsCentre(b).x * scale + screen.width / 2.0, -BoundsCentre(b).y * scale + screen.height / 2.0, scale)
  }

  /** Under viewport `v` the box `b` lands on the screen with at least a
      tenth of the screen to spare on every side. */
  predicate ShowsBox(v: Viewport, screen: Size, b: Bounds) {
    && 0.1 * screen.width <= WorldToScreen(v, Point(b.x, b.y)).x
    && WorldToScreen(v, Point(b.x + b.width, b.y + b.height)).x <= 0.9 * screen.width
    && 0.1 * screen.height <= WorldToScreen(v, Point(b.x, b.y)).y
    && WorldToScreen(v, Point(b.x + b.width, b.y + b.height)).y <= 0.9 * screen.height
  }

  /** With a positive screen and a positive box, the fitted box lands on
      screen with at least a tenth of the screen to spare on every side. */
  lemma FitViewShowsBox(screen: Size, b: Bounds)
    requires screen.width > 0.0 && screen.height > 0.0
    requires b.width > 0.0 && b.height > 0.0
    ensures ShowsBox(FitView(screen, b), screen, b)
  {
    var m := Min(screen.width / b.width, screen.height / b.height);
    MulBelowQuotient(m, screen.width, b.width);
    MulBelowQuotient(m, screen.height, b.height);
    HalfSpan(screen.width, b.x, b.width, m);
    HalfSpan(screen.height, b.y, b.height, m);
  }

  /** One axis of `FitViewShowsBox`: a span of `len` from `lo`, scaled by
      `0.8 * m` about its centre placed at `w / 2`, stays in the middle 80%
      of `w` when `m * len <= w`. */
  lemma HalfSpan(w: real, lo: real, len: real, m: real)
    requires len > 0.0 && m * len <= w && m >= 0.0
    ensures var off := -(lo + len / 2.0) * (m * 0.8) + w / 2.0;
      && 0.1 * w <= lo * (m * 0.8) + off
      && (lo + len) * (m * 0.8) + off <= 0.9 * w
  {
    var off := -(lo + len / 2.0) * (m * 0.8) + w / 2.0;
    assert lo * (m * 0.8) + off == w / 2.0 - 0.4 * (m * len);
    assert (lo + len) * (m * 0.8) + off == w / 2.0 + 0.4 * (m * len);
  }

  /** `zoomToFit`: nothing happens without nodes; otherwise the centre of the
      content bounds goes to the centre of the screen at 80% of the scale that
      would fit them exactly, with no clamping to the canvas limits. */
  function ZoomToFit(s: Scene, screen: Size): (r: Scene)
    requires |s.nodes| > 0 ==> ContentBounds(s).width != 0.0 && ContentBounds(s).height != 0.0
    ensures |s.nodes| == 0 ==> r == s
    ensures |s.nodes| > 0 ==> var b := ContentBounds(s);
      && r.viewport.zoom == FitScale(screen, b)
      && WorldToScreen(r.viewport, BoundsCentre(b)) == Point(screen.width / 2.0, screen.height / 2.0)
    ensures r == s.(viewport := r.viewport)
  {
    if |s.nodes| == 0 then s else s.(viewport := FitView(screen, ContentBounds(s)))
  }

  /** With a positive screen, the whole content box of a non-empty scene
      lands on screen after `zoomToFit`, at least a tenth of the screen in
      from every side. */
  lemma ZoomToFitShowsContent(s: Scene, screen: Size)
    requires |s.nodes| > 0
    requires screen.width > 0.0 && screen.height > 0.0
    requires ContentBounds(s).width > 0.0 && ContentBounds(s).height > 0.0
    ensures ShowsBox(ZoomToFit(s, screen).viewport, screen, ContentBounds(s))
  {
    var b := ContentBounds(s);
    assert ZoomToFit(s, screen).viewport == FitView(screen, b);
    FitViewShowsBox(screen, b);
  }

  /** `navigateBack`: with an empty history nothing happens; otherwise the
      most recent entry is popped and navigated to with the default options.
      If that node is gone the navigation rejects, leaving only the pop. */
  function NavigateBack(s: Scene, screen: Size): (r: Scene)
    ensures |s.history| == 0 ==> r == s
    ensures forall k :: Has(r.nodes, k) <==> Has(s.nodes, k)
    ensures |s.history| > 0 && !Has(s.nodes, s.history[|s.history| - 1]) ==>
      r == s.(history := s.history[..|s.history| - 1])
    ensures |s.history| > 0 && Has(s.nodes, s.history[|s.history| - 1]) ==>
      var prev := s.history[|s.history| - 1];
      && r.active == Some(prev)
      && r.history == (if Pushes(s, prev) then s.history[..|s.history| - 1] + [s.active.value]
                       else s.history[..|s.history| - 1])
  {
    if |s.history| == 0 then s
    else
      var prev := s.history[|s.history| - 1];
      var popped := s.(history := s.history[..|s.history| - 1]);
      match NavigateToNode(popped, screen, prev, NoNavigationOptions)
      case Ok(t) => t
      case Err(_) => popped
  }

  /** Navigating from one node to another and then back returns to the first
      node, and leaves the second on the history where the first was. (An
      empty id is falsy in `this.activeNodeId && ...`, so it is never
      pushed: both nodes need non-empty ids.) */
  lemma BackAfterNavigate(s: Scene, screen: Size, id: string)
    requires HasActive(s) && s.active.value != id && id != ""
    requires Has(s.nodes, id) && Has(s.nodes, s.active.value)
    ensures var t := NavigateToNode(s, screen, id, NoNavigationOptions);
      && t.Ok?
      && NavigateBack(t.value, screen).active == s.active
      && NavigateBack(t.value, screen).history == s.history + [id]
  {
    var t := NavigateToNode(s, screen, id, NoNavigationOptions).value;
    assert t.history == s.history + [s.active.value];
    assert t.history[..|t.history| - 1] == s.history;
  }

  /** Going back twice undoes itself: the active node and the history are
      restored (going back re-pushes the node it leaves). */
  lemma BackTwice(s: Scene, screen: Size)
    requires |s.history| > 0 && HasActive(s)
    requires s.history[|s.history| - 1] != s.active.value && s.history[|s.history| - 1] != ""
    requires Has(s.nodes, s.history[|s.history| - 1]) && Has(s.nodes, s.active.value)
    ensures NavigateBack(NavigateBack(s, screen), screen).active == s.active
    ensures NavigateBack(NavigateBack(s, screen), screen).history == s.history
  {
    var prev := s.history[|s.history| - 1];
    var a := s.active.value;
    BackOnce(s, screen);
    var t := NavigateBack(s, screen);
    BackOnce(t, screen);
    var u := NavigateBack(t, screen);
    assert t.history[..|t.history| - 1] == s.history[..|s.history| - 1];
    assert u.history == s.history[..|s.history| - 1] + [prev];
    PopPush(s.history);
  }

  /** One step back from a non-empty active node to a present, different,
      non-empty one: the two swap places between the active slot and the
      top of the history. */
  lemma BackOnce(s: Scene, screen: Size)
    requires |s.history| > 0 && HasActive(s)
    requires s.history[|s.history| - 1] != s.active.value && s.history[|s.history| - 1] != ""
    requires Has(s.nodes, s.history[|s.history| - 1])
    ensures var t := NavigateBack(s, screen);
      && t.active == Some(s.history[|s.history| - 1])
      && t.history == s.history[..|s.history| - 1] + [s.active.value]
      && (forall k :: Has(t.nodes, k) <==> Has(s.nodes, k))
  {
    assert Pushes(s, s.history[|s.history| - 1]);
  }

  lemma PopPush(h: seq<string>)
    requires |h| > 0
    ensures h[..|h| - 1] + [h[|h| - 1]] == h
  {
  }
}

=== FILE: nodes.dfy ===
/** The node entity of `src/lib/Node.ts`: its configuration with defaults
    merged in, the field-local setters, and the hovered / focused / dragging
    flags that decide which events a node emits and which style it shows.
    The SVG elements, the click animation and `pulse` are presentation only and
    are not modelled. */
module Nodes {
  import opened Results
  import opened Geometry

  const DefaultSize := Size(200.0, 120.0)

  /** `Required<NodeConfig>` without the component `type` and `data` fields,
      which nothing in the node reads. */
  datatype NodeConfig = NodeConfig(
    id: string,
    position: Point,
    size: Size,
    content: string,
    className: string,
    draggable: bool,
    zIndex: real)

  /** A caller's `NodeConfig`: id and position are required, the rest may be
      absent. */
  datatype NodeOptions = NodeOptions(
    id: string,
    position: Point,
    size: Option<Size>,
    content: Option<string>,
    className: Option<string>,
    draggable: Option<bool>,
    zIndex: Option<real>)

  /** `mergeDefaultConfig`. A size object is always truthy, and `'' || ''` is
      `''`, so the `||` defaults of size, content and class name behave like
      `??` here. */
  function MergeDefaultConfig(o: NodeOptions): (c: NodeConfig)
    ensures c.id == o.id && c.position == o.position
  {
    NodeConfig(o.id, o.position, o.size.GetOr(DefaultSize), o.content.GetOr(""),
      o.className.GetOr(""), o.draggable.GetOr(false), o.zIndex.GetOr(1.0))
  }

  /** The options record that carries every field of `c`. */
  function Full(c: NodeConfig): NodeOptions {
    NodeOptions(c.id, c.position, Some(c.size), Some(c.content), Some(c.className),
      Some(c.draggable), Some(c.zIndex))
  }

  /** The defaults of a bare `{id, position}`: a 200x120 node with no content
      and no class, not draggable, at z-index 1; and a complete configuration
      passes through unchanged. */
  lemma DefaultsAndRoundTrip(id: string, position: Point, c: NodeConfig)
    ensures MergeDefaultConfig(NodeOptions(id, position, None, None, None, None, None)) ==
      NodeConfig(id, position, Size(200.0, 120.0), "", "", false, 1.0)
    ensures MergeDefaultConfig(Full(c)) == c
  {
  }

  /** A node: its configuration and its interaction flags. */
  datatype Node = Node(config: NodeConfig, hovered: bool, focused: bool, dragging: bool)

  /** The constructor: defaults merged, no flag set. */
  function NewNode(o: NodeOptions): (n: Node)
    ensures n.config == MergeDefaultConfig(o)
    ensures !n.hovered && !n.focused && !n.dragging
  {
    Node(MergeDefaultConfig(o), false, false, false)
  }

  /** The events a node emits to its handlers. */
  datatype NodeEvent = ClickEvent | HoverEvent | LeaveEvent | DragEvent

  /** The two looks `updateHoverState` switches between. */
  datatype Look = HoverLook | NormalLook

  /** `updateHoverState`: the hover look exactly when hovered and not focused. */
  function LookOf(n: Node): (l: Look)
    ensures l == HoverLook <==> n.hovered && !n.focused
  {
    if n.hovered && !n.focused then HoverLook else NormalLook
  }

  /** `setContent`. */
  function SetContent(n: Node, content: string): (r: Node)
    ensures r.config.content == content
    ensures r.config.id == n.config.id && r.config.position == n.config.position
    ensures r.config.size == n.config.size && r.config.className == n.config.className
    ensures r.config.draggable == n.config.draggable && r.config.zIndex == n.config.zIndex
    ensures r.hovered == n.hovered && r.focused == n.focused && r.dragging == n.dragging
  {
    n.(config := n.config.(content := content))
  }

  /** `setPosition`; the animation flag only changes a CSS transition. */
  function SetPosition(n: Node, position: Point): (r: Node)
    ensures r.config.position == position
    ensures r.config.id == n.config.id && r.config.content == n.config.content
    ensures r.config.size == n.config.size && r.config.className == n.config.className
    ensures r.config.draggable == n.config.draggable && r.config.zIndex == n.config.zIndex
    ensures r.hovered == n.hovered && r.focused == n.focused && r.dragging == n.dragging
  {
    n.(config := n.config.(position := position))
  }

  /** `setSize`. */
  function SetSize(n: Node, size: Size): (r: Node)
    ensures r.config.size == size
    ensures r.config.id == n.config.id && r.config.content == n.config.content
    ensures r.config.position == n.config.position && r.config.className == n.config.className
    ensures r.config.draggable == n.config.draggable && r.config.zIndex == n.config.zIndex
    ensures r.hovered == n.hovered && r.focused == n.focused && r.dragging == n.dragging
  {
    n.(config := n.config.(size := size))
  }

  /** The setters touch disjoint fields: applied in either order they give the
      same node, and a later call of the same setter overrides an earlier one. */
  lemma SettersCommute(n: Node, content: string, position: Point, size: Size, p2: Point)
    ensures SetPosition(SetContent(n, content), position) == SetContent(SetPosition(n, position), content)
    ensures SetSize(SetContent(n, content), size) == SetContent(SetSize(n, size), content)
    ensures SetSize(SetPosition(n, position), size) == SetPosition(SetSize(n, size), position)
    ensures SetPosition(SetPosition(n, position), p2) == SetPosition(n, p2)
  {
  }

  /** `setFocused`: the focus flag becomes `focused`, everything else stays. */
  function SetFocused(n: Node, focused: bool): (r: Node)
    ensures r.focused == focused
    ensures r.config == n.config && r.hovered == n.hovered && r.dragging == n.dragging
  {
    n.(focused := focused)
  }

  /** `handleClick` (and `handleTouchStart`, which forwards to it): a focused
      node swallows the click, any other node emits it. */
  function Click(n: Node): (r: (Node, Option<NodeEvent>))
    ensures r.0 == n
    ensures r.1.Some? <==> !n.focused
    ensures r.1.Some? ==> r.1.value == ClickEvent
  {
    if n.focused then (n, None) else (n, Some(ClickEvent))
  }

  /** `handleMouseEnter`. */
  function MouseEnter(n: Node): (r: (Node, Option<NodeEvent>))
    ensures r.0.hovered && r.0.config == n.config && r.0.focused == n.focused
    ensures r.1 == Some(HoverEvent)
  {
    (n.(hovered := true), Some(HoverEvent))
  }

  /** `handleMouseLeave`. */
  function MouseLeave(n: Node): (r: (Node, Option<NodeEvent>))
    ensures !r.0.hovered && r.0.config == n.config && r.0.focused == n.focused
    ensures r.1 == Some(LeaveEvent)
  {
    (n.(hovered := false), Some(LeaveEvent))
  }

  /** A `mousedown`: the listener is attached only to draggable nodes, and the
      handler checks again; a draggable node starts dragging and emits a drag
      event. */
  function DragStart(n: Node): (r: (Node, Option<NodeEvent>))
    ensures r.1.Some? <==> n.config.draggable
    ensures r.1.Some? ==> r.1.value == DragEvent && r.0.dragging
    ensures r.1.None? ==> r.0 == n
    ensures r.0.config == n.config && r.0.focused == n.focused && r.0.hovered == n.hovered
  {
    if !n.config.draggable then (n, None) else (n.(dragging := true), Some(DragEvent))
  }

  /** A document `mouseup`, heard only by draggable nodes. */
  function DragEnd(n: Node): (r: Node)
    ensures !n.config.draggable ==> r == n
    ensures n.config.draggable ==> !r.dragging && r.config == n.config
  {
    if n.config.draggable then n.(dragging := false) else n
  }

  /** A node that is not draggable never drags, whatever pointer events it
      receives; and a focused node keeps the normal look and swallows clicks
      however the pointer enters and leaves it. */
  lemma FocusAndDragGates(n: Node)
    ensures !n.config.draggable && !n.dragging ==>
      !DragStart(n).0.dragging && !DragEnd(n).dragging
    ensures n.focused ==> LookOf(MouseEnter(n).0) == NormalLook && Click(MouseEnter(n).0).1.None?
    ensures !n.focused ==> LookOf(MouseEnter(n).0) == HoverLook && Click(MouseEnter(n).0).1.Some?
    ensures LookOf(MouseLeave(n).0) == NormalLook
  {
  }

  /** Focusing and unfocusing: a hovered node loses its hover look while it is
      focused and gets it back when unfocused, and the state reads back what
      was set. */
  lemma FocusRoundTrip(n: Node, b: bool)
    ensures SetFocused(n, b).focused == b
    ensures SetFocused(SetFocused(n, true), n.focused) == n
    ensures n.hovered ==> LookOf(SetFocused(n, true)) == NormalLook
    ensures n.hovered ==> LookOf(SetFocused(n, false)) == HoverLook
  {
  }
}

=== FILE: ordered_sets.dfy ===
/** The JavaScript `Set` of ids the builder keeps its selections in: it
    remembers insertion order and holds each id once. It is modelled as a
    sequence without repeats; `add` of a present element changes nothing, `delete`
    removes it and closes the gap. */
module OrderedSets {

  /** No element occurs twice. */
  predicate Distinct(xs: seq<string>) {
    forall i, j :: 0 <= i < j < |xs| ==> xs[i] != xs[j]
  }

  /** `Set.add`. */
  function Insert(xs: seq<string>, x: string): (r: seq<string>)
    ensures x in xs ==> r == xs
    ensures x !in xs ==> r == xs + [x]
    ensures forall y :: y in r <==> y in xs || y == x
    ensures Distinct(xs) ==> Distinct(r)
  {
    if x in xs then xs else xs + [x]
  }

  /** `Set.delete`: every occurrence of `x` goes, the rest keep their order. */
  function Remove(xs: seq<string>, x: string): (r: seq<string>)
    ensures |r| <= |xs|
    ensures forall y :: y in r <==> y in xs && y != x
    ensures x !in xs ==> r == xs
    ensures Distinct(xs) ==> Distinct(r)
  {
    if |xs| == 0 then []
    else
      var rest := Remove(xs[1..], x);
      assert forall y :: y in xs <==> y == xs[0] || y in xs[1..];
      if xs[0] == x then rest
      else
        assert Distinct(xs) ==> xs[0] !in rest;
        [xs[0]] + rest
  }

  /** Adding an absent element and removing it again gives back the set, in
      the same order; removing a present element and adding it back keeps
      the same elements, with that element now last. */
  lemma {:induction false} InsertRemove(xs: seq<string>, x: string)
    ensures x !in xs ==> Remove(Insert(xs, x), x) == xs
    ensures forall y :: y in Insert(Remove(xs, x), x) <==> y in xs || y == x
  {
    if x !in xs {
      RemoveLast(xs, x);
    }
  }

  lemma {:induction false} RemoveLast(xs: seq<string>, x: string)
    requires x !in xs
    ensures Remove(xs + [x], x) == xs
  {
    if |xs| > 0 {
      assert (xs + [x])[1..] == xs[1..] + [x];
      RemoveLast(xs[1..], x);
    }
  }

  /** `Set.add` of each listed id in turn. */
  function InsertAll(xs: seq<string>, ids: seq<string>): (r: seq<string>)
    decreases |ids|
    ensures forall y :: y in r <==> y in xs || y in ids
    ensures Distinct(xs) ==> Distinct(r)
  {
    if |ids| == 0 then xs
    else
      assert forall y :: y in ids <==> y == ids[0] || y in ids[1..];
      InsertAll(Insert(xs, ids[0]), ids[1..])
  }

  /** Adding distinct new ids appends them in order. */
  lemma {:induction false} InsertAllFresh(xs: seq<string>, ids: seq<string>)
    requires Distinct(ids)
    requires forall y :: y in ids ==> y !in xs
    ensures InsertAll(xs, ids) == xs + ids
    decreases |ids|
  {
    if |ids| > 0 {
      DistinctTail(ids);
      FreshTail(xs, ids);
      InsertAllFresh(xs + [ids[0]], ids[1..]);
      InsertAllStep(xs, ids);
    }
  }

  /** The first id is new, so it is appended, and the rest follow it. */
  lemma InsertAllStep(xs: seq<string>, ids: seq<string>)
    requires |ids| > 0 && ids[0] !in xs
    requires InsertAll(xs + [ids[0]], ids[1..]) == xs + [ids[0]] + ids[1..]
    ensures InsertAll(xs, ids) == xs + ids
  {
    var head := xs + [ids[0]];
    assert Insert(xs, ids[0]) == head;
    assert InsertAll(xs, ids) == InsertAll(head, ids[1..]);
    HeadThenTail(xs, ids);
  }

  lemma HeadThenTail(xs: seq<string>, ids: seq<string>)
    requires |ids| > 0
    ensures xs + [ids[0]] + ids[1..] == xs + ids
  {
    assert [ids[0]] + ids[1..] == ids;
  }

  /** Without its head, a list without repeats still has none, and does not
      contain the head. */
  lemma DistinctTail(ids: seq<string>)
    requires Distinct(ids) && |ids| > 0
    ensures Distinct(ids[1..]) && ids[0] !in ids[1..]
  {
    assert forall i :: 0 <= i < |ids| - 1 ==> ids[1..][i] == ids[i + 1];
  }

  /** Ids new to `xs` that are not the head are new to `xs` with the head
      appended. */
  lemma FreshTail(xs: seq<string>, ids: seq<string>)
    requires Distinct(ids) && |ids| > 0
    requires forall y :: y in ids ==> y !in xs
    ensures forall y :: y in ids[1..] ==> y !in xs + [ids[0]]
  {
    DistinctTail(ids);
    forall y | y in ids[1..]
      ensures y !in xs + [ids[0]]
    {
      assert y in ids;
    }
  }

  /** The elements of `a` occur in `b` in the same order, possibly with
      others in between. */
  predicate Subsequence(a: seq<string>, b: seq<string>)
    decreases |b|
  {
    |a| == 0 || (|b| > 0 && ((a[0] == b[0] && Subsequence(a[1..], b[1..])) || Subsequence(a, b[1..])))
  }

  /** A new head keeps a list without repeats free of repeats. */
  lemma DistinctCons(x: string, xs: seq<string>)
    requires Distinct(xs) && x !in xs
    ensures Distinct([x] + xs)
  {
    forall i, j | 0 <= i < j < |[x] + xs|
      ensures ([x] + xs)[i] != ([x] + xs)[j]
    {
      assert ([x] + xs)[j] == xs[j - 1];
      if i > 0 {
        assert ([x] + xs)[i] == xs[i - 1];
      }
    }
  }
}

=== FILE: pointer.dfy ===
/** The pointer gesture state machine of `src/lib/Canvas.ts`: press, move past a
    5-pixel threshold to start a 1:1 drag, release as a click or a drag, and
    the decaying momentum that keeps panning after a drag. */
module Pointer {
  import opened Geometry
  import opened Viewports

  /** Travel (in pixels, from the press point) a drag must exceed. */
  const DragThreshold := 5.0
  /** Share of the last pointer delta kept as momentum, and the per-frame decay. */
  const Decay := 0.95
  /** Momentum stops once both components are below this speed. */
  const StopSpeed := 0.1
  /** Momentum only starts when some component exceeds this speed. */
  const StartSpeed := 1.0

  /** The gesture fields of the canvas; `coasting` stands for a pending
      momentum animation frame. */
  datatype PointerState = PointerState(
    isDragging: bool,
    dragStarted: bool,
    startPointer: Point,
    lastPointer: Point,
    momentum: Point,
    coasting: bool)

  const Idle := PointerState(false, false, Origin, Origin, Origin, false)

  /** What a release does. */
  datatype Release = Click(at: Point) | StartCoasting | Nothing

  /** `sqrt(dx^2 + dy^2) > 5`, compared on squares. */
  predicate Beyond(p: Point, q: Point) {
    (p.x - q.x) * (p.x - q.x) + (p.y - q.y) * (p.y - q.y) > DragThreshold * DragThreshold
  }

  /** `handlePointerDown`: a fresh gesture at `p`, with momentum and any
      momentum animation cancelled. */
  function Down(s: PointerState, p: Point): (r: PointerState)
    ensures r.isDragging && !r.dragStarted && !r.coasting
    ensures r.startPointer == p && r.lastPointer == p && r.momentum == Origin
  {
    PointerState(true, false, p, p, Origin, false)
  }

  /** `handlePointerMove`: ignored unless pressed; before the threshold it does
      nothing at all; from then on it pans by the pointer's step and keeps 95%
      of that step as momentum. */
  function Move(v: Viewport, s: PointerState, p: Point): (Viewport, PointerState) {
    if !s.isDragging then (v, s)
    else
      var dx := p.x - s.lastPointer.x;
      var dy := p.y - s.lastPointer.y;
      if !s.dragStarted && !Beyond(p, s.startPointer) then (v, s)
      else
        (Pan(v, dx, dy),
         s.(dragStarted := true, momentum := Point(dx * Decay, dy * Decay), lastPointer := p))
  }

  /** A sequence of moves, in order. */
  function Moves(v: Viewport, s: PointerState, ps: seq<Point>): (Viewport, PointerState)
    decreases |ps|
  {
    if |ps| == 0 then (v, s)
    else
      var (v1, s1) := Move(v, s, ps[0]);
      Moves(v1, s1, ps[1..])
  }

  /** `handlePointerUp`: a press that never passed the threshold is a click at
      the release point; anything else may start momentum, when it is enabled
      and some component of the stored momentum exceeds 1. */
  function Up(s: PointerState, p: Point, momentumEnabled: bool): (r: (PointerState, Release))
    ensures !r.0.isDragging && !r.0.dragStarted
    ensures r.1.Click? <==> s.isDragging && !s.dragStarted
    ensures r.1.Click? ==> r.1.at == p
    ensures r.1.StartCoasting? <==>
      !(s.isDragging && !s.dragStarted) && momentumEnabled
      && (Abs(s.momentum.x) > StartSpeed || Abs(s.momentum.y) > StartSpeed)
  {
    var wasClick := s.isDragging && !s.dragStarted;
    var released := s.(isDragging := false, dragStarted := false);
    if wasClick then (released, Click(p))
    else if momentumEnabled && (Abs(s.momentum.x) > StartSpeed || Abs(s.momentum.y) > StartSpeed) then
      (released.(coasting := true), StartCoasting)
    else (released, Nothing)
  }

  /** The relation a pressed gesture keeps with the viewport `v0` at the press
      and the press point `p0`: before the threshold nothing has moved; after
      it the viewport has travelled exactly as far as the pointer. */
  ghost predicate TracksPointer(v0: Viewport, p0: Point, v: Viewport, s: PointerState) {
    && s.isDragging && s.startPointer == p0 && v.zoom == v0.zoom
    && (!s.dragStarted ==> v == v0 && s.lastPointer == p0)
    && (s.dragStarted ==>
          v.x == v0.x + (s.lastPointer.x - p0.x) && v.y == v0.y + (s.lastPointer.y - p0.y))
  }

  lemma MoveTracksPointer(v0: Viewport, p0: Point, v: Viewport, s: PointerState, p: Point)
    requires TracksPointer(v0, p0, v, s)
    ensures TracksPointer(v0, p0, Move(v, s, p).0, Move(v, s, p).1)
    ensures Move(v, s, p).1.dragStarted <==> s.dragStarted || Beyond(p, p0)
    ensures Move(v, s, p).1.dragStarted ==> Move(v, s, p).1.lastPointer == p
  {
  }

  /** Drag panning is 1:1: after a press at `p0` and any moves, the viewport is
      the viewport at the press shifted by the pointer's travel since the
      press, or untouched if no move has passed the threshold, which is
      exactly when the release will count as a click. */
  lemma {:induction false} DragPansOneToOne(v0: Viewport, p0: Point, v: Viewport, s: PointerState, ps: seq<Point>)
    requires TracksPointer(v0, p0, v, s)
    ensures TracksPointer(v0, p0, Moves(v, s, ps).0, Moves(v, s, ps).1)
    ensures Moves(v, s, ps).1.dragStarted <==>
      s.dragStarted || exists i :: 0 <= i < |ps| && Beyond(ps[i], p0)
    ensures |ps| > 0 && Moves(v, s, ps).1.dragStarted && Beyond(ps[|ps| - 1], p0) ==>
      Moves(v, s, ps).1.lastPointer == ps[|ps| - 1]
    decreases |ps|
  {
    if |ps| > 0 {
      var (v1, s1) := Move(v, s, ps[0]);
      MoveTracksPointer(v0, p0, v, s, ps[0]);
      DragPansOneToOne(v0, p0, v1, s1, ps[1..]);
      if s1.dragStarted || exists i :: 0 <= i < |ps[1..]| && Beyond(ps[1..][i], p0) {
        if !s1.dragStarted {
          var i :| 0 <= i < |ps[1..]| && Beyond(ps[1..][i], p0);
          assert Beyond(ps[i + 1], p0);
        }
      }
      if exists i :: 0 <= i < |ps| && Beyond(ps[i], p0) {
        var i :| 0 <= i < |ps| && Beyond(ps[i], p0);
        if i > 0 {
          assert Beyond(ps[1..][i - 1], p0);
        }
      }
    }
  }

  /** A gesture from press to release: it is a click exactly when no move went
      more than 5 pixels from the press point. */
  lemma PressMovesRelease(v0: Viewport, s: PointerState, p0: Point, ps: seq<Point>, up: Point, momentumEnabled: bool)
    ensures Up(Moves(v0, Down(s, p0), ps).1, up, momentumEnabled).1.Click? <==>
      forall i :: 0 <= i < |ps| ==> !Beyond(ps[i], p0)
  {
    DragPansOneToOne(v0, p0, v0, Down(s, p0), ps);
  }

  function Scale(m: Point, k: real): Point {
    Point(m.x * k, m.y * k)
  }

  function Pow(b: real, n: nat): real {
    if n == 0 then 1.0 else Pow(b, n - 1) * b
  }

  /** The momentum animation's stop test. */
  predicate Stopped(m: Point) {
    Abs(m.x) < StopSpeed && Abs(m.y) < StopSpeed
  }

  /** One animation frame of `startMomentumScroll`: stop, or pan by the
      momentum and decay it by 5%. */
  function MomentumFrame(v: Viewport, m: Point): (r: (Viewport, Point, bool))
    ensures r.2 <==> !Stopped(m)
    ensures !r.2 ==> r.0 == v && r.1 == m
    ensures r.2 ==> r.0 == Pan(v, m.x, m.y) && r.1 == Scale(m, Decay)
  {
    if Stopped(m) then (v, m, false)
    else (Pan(v, m.x, m.y), Scale(m, Decay), true)
  }

  lemma MulMono(a: real, x: real, y: real)
    requires a >= 0.0 && x <= y
    ensures a * x <= a * y
  {
  }

  /** The decayed momentum keeps below a harmonic envelope:
      `|m_k| * (19 + k) <= 19 * |m_0|`. */
  lemma EnvelopeStep(a0: real, a: real, k: nat)
    requires a >= 0.0 && a * (19.0 + k as real) <= 19.0 * a0
    ensures (a * Decay) * (19.0 + (k + 1) as real) <= 19.0 * a0
  {
    assert (a * Decay) * (19.0 + (k + 1) as real) == a * (19.0 + Decay * k as real);
    MulMono(a, 19.0 + Decay * k as real, 19.0 + k as real);
  }

  /** Both components of `rest` are below the harmonic envelope after `k` frames. */
  predicate Under(rest: Point, m: Point, k: nat) {
    && Abs(rest.x) * (19.0 + k as real) <= 19.0 * Abs(m.x)
    && Abs(rest.y) * (19.0 + k as real) <= 19.0 * Abs(m.y)
  }

  /** The viewport has travelled the geometric sum of the momenta spent so far. */
  predicate Travelled(v: Viewport, m: Point, r: Viewport, rest: Point) {
    && r.zoom == v.zoom
    && r.x == v.x + 20.0 * (m.x - rest.x) && r.y == v.y + 20.0 * (m.y - rest.y)
  }

  /** What holds of the momentum animation after `frames` frames from
      viewport `v` and momentum `m`. */
  ghost predicate CoastInv(v: Viewport, m: Point, r: Viewport, rest: Point, frames: nat) {
    && rest == Scale(m, Pow(Decay, frames))
    && Travelled(v, m, r, rest)
    && Under(rest, m, frames)
    && (frames == 0 || (frames - 1) as real <= 190.0 * Max(Abs(m.x), Abs(m.y)) - 19.0)
  }

  lemma AbsScale(a: real, k: real)
    requires k >= 0.0
    ensures Abs(a * k) == Abs(a) * k
  {
  }

  /** A frame that does not stop comes early enough: `k <= 190 * speed - 19`. */
  lemma SpeedBound(ax: real, ay: real, mx: real, my: real, k: nat)
    requires ax >= 0.0 && ay >= 0.0
    requires ax * (19.0 + k as real) <= 19.0 * mx
    requires ay * (19.0 + k as real) <= 19.0 * my
    requires ax >= StopSpeed || ay >= StopSpeed
    ensures k as real <= 190.0 * Max(mx, my) - 19.0
  {
    if ax >= StopSpeed {
      MulMono(19.0 + k as real, 0.1, ax);
    } else {
      MulMono(19.0 + k as real, 0.1, ay);
    }
  }

  lemma EnvelopeNext(m0: real, a: real, k: nat)
    requires Abs(a) * (19.0 + k as real) <= 19.0 * Abs(m0)
    ensures Abs(a * Decay) * (19.0 + (k + 1) as real) <= 19.0 * Abs(m0)
  {
    AbsScale(a, Decay);
    EnvelopeStep(Abs(m0), Abs(a), k);
  }

  lemma UnderStep(rest: Point, m: Point, k: nat)
    requires Under(rest, m, k)
    ensures Under(Scale(rest, Decay), m, k + 1)
  {
    EnvelopeNext(m.x, rest.x, k);
    EnvelopeNext(m.y, rest.y, k);
  }

  lemma TravelledStep(v: Viewport, m: Point, r: Viewport, rest: Point)
    requires Travelled(v, m, r, rest)
    ensures Travelled(v, m, Pan(r, rest.x, rest.y), Scale(rest, Decay))
  {
  }

  lemma ScaleStep(m: Point, rest: Point, n: nat)
    requires rest == Scale(m, Pow(Decay, n))
    ensures Scale(rest, Decay) == Scale(m, Pow(Decay, n + 1))
  {
    var p := Pow(Decay, n);
    assert (m.x * p) * Decay == m.x * (p * Decay);
    assert (m.y * p) * Decay == m.y * (p * Decay);
  }

  lemma CoastStep(v: Viewport, m: Point, r: Viewport, rest: Point, frames: nat)
    requires CoastInv(v, m, r, rest, frames) && !Stopped(rest)
    ensures frames as real <= 190.0 * Max(Abs(m.x), Abs(m.y)) - 19.0
    ensures CoastInv(v, m, Pan(r, rest.x, rest.y), Scale(rest, Decay), frames + 1)
  {
    SpeedBound(Abs(rest.x), Abs(rest.y), Abs(m.x), Abs(m.y), frames);
    UnderStep(rest, m, frames);
    TravelledStep(v, m, r, rest);
    ScaleStep(m, rest, frames);
  }

  /** The whole momentum animation, frame by frame, until it stops: it always
      stops, after a number of frames bounded by the initial speed; it stops at
      the first frame whose momentum is below 0.1 on both axes; and in total it
      pans by the geometric sum of the momenta, `20 * (m - rest)`. */
  method Coast(v: Viewport, m: Point) returns (r: Viewport, rest: Point, frames: nat)
    ensures Stopped(rest) && rest == Scale(m, Pow(Decay, frames))
    ensures forall j :: 0 <= j < frames ==> !Stopped(Scale(m, Pow(Decay, j)))
    ensures r.zoom == v.zoom
    ensures r.x == v.x + 20.0 * (m.x - rest.x) && r.y == v.y + 20.0 * (m.y - rest.y)
    ensures frames as real <= 190.0 * Max(Abs(m.x), Abs(m.y))
  {
    var bound := (190.0 * Max(Abs(m.x), Abs(m.y))).Floor + 1;
    r, rest, frames := v, m, 0;
    while !Stopped(rest)
      invariant CoastInv(v, m, r, rest, frames)
      invariant forall j :: 0 <= j < frames ==> !Stopped(Scale(m, Pow(Decay, j)))
      decreases bound - frames
    {
      CoastStep(v, m, r, rest, frames);
      r := Pan(r, rest.x, rest.y);
      rest := Scale(rest, Decay);
      frames := frames + 1;
    }
  }
}

=== FILE: registry.dfy ===
/** The id-keyed registries of `src/lib/CircuitUI.ts`: a JavaScript `Map`
    from string ids to entities, which remembers insertion order. It is
    modelled as a sequence of entries; `set` on a present key replaces the
    value in place, on an absent key it appends, and `delete` removes the
    entry and closes the gap. */
module Registry {
  import opened Results

  datatype Entry<T> = Entry(key: string, value: T)

  /** The keys in insertion order (`Map.keys()`). */
  function Keys<T>(r: seq<Entry<T>>): (ks: seq<string>)
    ensures |ks| == |r|
    ensures forall i :: 0 <= i < |r| ==> ks[i] == r[i].key
  {
    seq(|r|, i requires 0 <= i < |r| => r[i].key)
  }

  /** The values in insertion order (`Map.values()`). */
  function Values<T>(r: seq<Entry<T>>): (vs: seq<T>)
    ensures |vs| == |r|
    ensures forall i :: 0 <= i < |r| ==> vs[i] == r[i].value
  {
    seq(|r|, i requires 0 <= i < |r| => r[i].value)
  }

  /** `Map.has`. */
  predicate Has<T>(r: seq<Entry<T>>, k: string) {
    exists i :: 0 <= i < |r| && r[i].key == k
  }

  lemma HasCons<T>(r: seq<Entry<T>>, k: string)
    requires |r| > 0
    ensures Has(r, k) <==> r[0].key == k || Has(r[1..], k)
  {
    if Has(r[1..], k) {
      var j :| 0 <= j < |r| - 1 && r[1..][j].key == k;
      assert r[j + 1].key == k;
    }
    if Has(r, k) && r[0].key != k {
      var j :| 0 <= j < |r| && r[j].key == k;
      assert r[1..][j - 1].key == k;
    }
  }

  lemma UniqueTail<T>(r: seq<Entry<T>>)
    requires |r| > 0 && UniqueKeys(r)
    ensures UniqueKeys(r[1..])
    ensures !Has(r[1..], r[0].key)
  {
    forall a, b | 0 <= a < b < |r| - 1
      ensures r[1..][a].key != r[1..][b].key
    {
      assert r[1..][a] == r[a + 1] && r[1..][b] == r[b + 1];
    }
  }

  /** No key occurs twice: what a `Map` always guarantees. */
  predicate UniqueKeys<T>(r: seq<Entry<T>>) {
    forall i, j :: 0 <= i < j < |r| ==> r[i].key != r[j].key
  }

  /** `Map.get`: the value stored under `k`, if any. */
  function Get<T>(r: seq<Entry<T>>, k: string): (o: Option<T>)
    ensures o.Some? <==> Has(r, k)
    ensures o.Some? ==> exists i :: 0 <= i < |r| && r[i] == Entry(k, o.value)
  {
    if |r| == 0 then None
    else if r[0].key == k then Some(r[0].value)
    else
      var o := Get(r[1..], k);
      HasCons(r, k);
      assert o.Some? ==> exists i :: 0 <= i < |r| && r[i] == Entry(k, o.value) by {
        if o.Some? {
          var i :| 0 <= i < |r| - 1 && r[1..][i] == Entry(k, o.value);
          assert r[i + 1] == Entry(k, o.value);
        }
      }
      o
  }

  /** With unique keys, the entry at position `i` is what `get` finds under
      its key. */
  lemma {:induction false} GetAt<T>(r: seq<Entry<T>>, i: nat)
    requires UniqueKeys(r) && i < |r|
    ensures Get(r, r[i].key) == Some(r[i].value)
  {
    if i > 0 {
      assert r[0].key != r[i].key;
      UniqueTail(r);
      GetAt(r[1..], i - 1);
      assert r[1..][i - 1] == r[i];
    }
  }

  /** `Map.set`. */
  function Put<T>(r: seq<Entry<T>>, k: string, v: T): (out: seq<Entry<T>>)
    ensures Has(r, k) ==> Keys(out) == Keys(r)
    ensures !Has(r, k) ==> out == r + [Entry(k, v)]
    ensures Has(out, k)
    ensures forall i :: 0 <= i < |out| && out[i].key == k ==> out[i].value == v
    ensures forall i :: 0 <= i < |r| && r[i].key != k ==> out[i] == r[i]
    ensures UniqueKeys(r) ==> UniqueKeys(out)
  {
    if Has(r, k) then
      var out := seq(|r|, i requires 0 <= i < |r| => if r[i].key == k then Entry(k, v) else r[i]);
      assert Keys(out) == Keys(r);
      out
    else
      assert (r + [Entry(k, v)])[|r|].key == k;
      r + [Entry(k, v)]
  }

  /** Two registries of the same length that agree on every entry carrying
      key `x` find the same value under `x`. */
  lemma {:induction false} GetAgrees<T>(r: seq<Entry<T>>, s: seq<Entry<T>>, x: string)
    requires |r| == |s|
    requires forall i :: 0 <= i < |r| && (r[i].key == x || s[i].key == x) ==> r[i] == s[i]
    ensures Get(r, x) == Get(s, x)
  {
    if |r| > 0 {
      GetAgrees(r[1..], s[1..], x);
    }
  }

  lemma {:induction false} GetAppend<T>(r: seq<Entry<T>>, e: Entry<T>, x: string)
    requires e.key != x
    ensures Get(r + [e], x) == Get(r, x)
  {
    if |r| > 0 {
      assert (r + [e])[1..] == r[1..] + [e];
      GetAppend(r[1..], e, x);
    }
  }

  /** `get` after `set` finds the value just stored, and any other key still
      finds what it found before. */
  lemma PutThenGet<T>(r: seq<Entry<T>>, k: string, v: T, other: string)
    ensures Get(Put(r, k, v), k) == Some(v)
    ensures other != k ==> Get(Put(r, k, v), other) == Get(r, other)
  {
    if other != k {
      if Has(r, k) {
        GetAgrees(r, Put(r, k, v), other);
      } else {
        GetAppend(r, Entry(k, v), other);
      }
    }
  }

  /** `Map.delete`: every entry under `k` goes, the others keep their order. */
  function Delete<T>(r: seq<Entry<T>>, k: string): (out: seq<Entry<T>>)
    ensures |out| <= |r|
    ensures forall x :: Has(out, x) <==> Has(r, x) && x != k
    ensures !Has(r, k) ==> out == r
  {
    if |r| == 0 then []
    else
      var rest := Delete(r[1..], k);
      HasCons(r, k);
      forall x ensures Has(r, x) <==> r[0].key == x || Has(r[1..], x) {
        HasCons(r, x);
      }
      if r[0].key == k then rest
      else
        forall x ensures Has([r[0]] + rest, x) <==> r[0].key == x || Has(rest, x) {
          HasCons([r[0]] + rest, x);
          assert ([r[0]] + rest)[1..] == rest;
        }
        [r[0]] + rest
  }

  /** Deleting from a registry keeps its keys unique. */
  lemma {:induction false} DeleteKeepsUnique<T>(r: seq<Entry<T>>, k: string)
    requires UniqueKeys(r)
    ensures UniqueKeys(Delete(r, k))
  {
    if |r| > 0 {
      UniqueTail(r);
      DeleteKeepsUnique(r[1..], k);
      if r[0].key != k {
        var rest := Delete(r[1..], k);
        var out := Delete(r, k);
        assert out == [r[0]] + rest;
        forall a, b | 0 <= a < b < |out|
          ensures out[a].key != out[b].key
        {
          assert out[b] == rest[b - 1];
          if a == 0 {
            assert Has(rest, out[b].key);
          } else {
            assert out[a] == rest[a - 1];
          }
        }
      }
    }
  }

  /** Deleting a key keeps what every other key maps to. */
  lemma {:induction false} DeleteKeepsOthers<T>(r: seq<Entry<T>>, k: string, other: string)
    requires other != k
    ensures Get(Delete(r, k), other) == Get(r, other)
  {
    if |r| > 0 {
      DeleteKeepsOthers(r[1..], k, other);
      if r[0].key != k {
        assert ([r[0]] + Delete(r[1..], k))[1..] == Delete(r[1..], k);
      }
    }
  }

  /** With unique keys, deleting a present key removes exactly the one entry
      that holds it. */
  lemma {:induction false} DeleteRemovesOne<T>(r: seq<Entry<T>>, i: nat)
    requires UniqueKeys(r) && i < |r|
    ensures Delete(r, r[i].key) == r[..i] + r[i + 1..]
  {
    var k := r[i].key;
    var rest := r[1..];
    UniqueTail(r);
    if i == 0 {
      assert Delete(r, k) == Delete(rest, k) == rest;
    } else {
      DeleteRemovesOne(rest, i - 1);
      assert rest[i - 1] == r[i];
      assert r[0].key != k;
      assert Delete(r, k) == [r[0]] + Delete(rest, k);
      ConsWithout(r, i);
    }
  }

  /** Dropping index `i - 1` of the tail and putting the head back drops
      index `i` of the whole. */
  lemma ConsWithout<T>(r: seq<T>, i: nat)
    requires 0 < i < |r|
    ensures [r[0]] + (r[1..][..i - 1] + r[1..][i..]) == r[..i] + r[i + 1..]
  {
    assert [r[0]] + r[1..][..i - 1] == r[..i];
    assert r[1..][i..] == r[i + 1..];
  }

  /** Adding a fresh key and deleting it again gives back the registry. */
  lemma PutDeleteRoundTrip<T>(r: seq<Entry<T>>, k: string, v: T)
    requires !Has(r, k)
    ensures Delete(Put(r, k, v), k) == r
  {
    var out := r + [Entry(k, v)];
    DeleteRemovesOneOrAbsent(r, k, v);
  }

  lemma {:induction false} DeleteRemovesOneOrAbsent<T>(r: seq<Entry<T>>, k: string, v: T)
    requires !Has(r, k)
    ensures Delete(r + [Entry(k, v)], k) == r
  {
    if |r| == 0 {
      assert Delete([Entry(k, v)], k) == Delete([Entry(k, v)][1..], k);
    } else {
      HasCons(r, k);
      DeleteRemovesOneOrAbsent(r[1..], k, v);
      assert (r + [Entry(k, v)])[1..] == r[1..] + [Entry(k, v)];
      assert r[0].key != k;
    }
  }

  /** Appending an entry adds exactly its key. */
  lemma HasAppend<T>(r: seq<Entry<T>>, e: Entry<T>, k: string)
    ensures Has(r + [e], k) <==> Has(r, k) || e.key == k
  {
    if Has(r, k) {
      var i :| 0 <= i < |r| && r[i].key == k;
      assert (r + [e])[i].key == k;
    }
    if e.key == k {
      assert (r + [e])[|r|].key == k;
    }
    if Has(r + [e], k) && e.key != k {
      var i :| 0 <= i < |r| + 1 && (r + [e])[i].key == k;
      assert r[i].key == k;
    }
  }

  /** The value the last entry of `es` with key `k` carries, if any: what a
      run of `set` calls over `es` leaves under `k`, since later writes win. */
  function LastWrite<T>(es: seq<Entry<T>>, k: string): (o: Option<T>)
    decreases |es|
    ensures o.Some? <==> Has(es, k)
    ensures o.Some? ==> exists i :: LastEntry(es, i, Entry(k, o.value))
  {
    if |es| == 0 then None
    else
      var rest := LastWrite(es[1..], k);
      HasCons(es, k);
      assert rest.Some? ==> exists i :: LastEntry(es, i, Entry(k, rest.value)) by {
        if rest.Some? {
          var i :| LastEntry(es[1..], i, Entry(k, rest.value));
          assert es[i + 1] == Entry(k, rest.value);
          forall j | i + 1 < j < |es| ensures es[j].key != k {
            assert es[j] == es[1..][j - 1];
          }
          assert LastEntry(es, i + 1, Entry(k, rest.value));
        }
      }
      assert rest.None? && es[0].key == k ==> forall j :: 0 < j < |es| ==> es[j].key != k by {
        if rest.None? {
          forall j | 0 < j < |es| ensures es[j].key != k {
            assert es[j] == es[1..][j - 1];
          }
        }
      }
      assert rest.None? && es[0].key == k ==> LastEntry(es, 0, es[0]);
      if rest.Some? then rest else if es[0].key == k then Some(es[0].value) else None
  }

  /** `es[i]` is `e`, and no later entry has its key. */
  ghost predicate LastEntry<T>(es: seq<Entry<T>>, i: int, e: Entry<T>) {
    0 <= i < |es| && es[i] == e && forall j :: i < j < |es| ==> es[j].key != e.key
  }

  /** Every id of `ids` can be `set` in turn without meeting a key already
      present: none is in `r` and no two are equal. */
  predicate AllNew<T>(r: seq<Entry<T>>, ids: seq<string>) {
    && (forall i :: 0 <= i < |ids| ==> !Has(r, ids[i]))
    && (forall i, j :: 0 <= i < j < |ids| ==> ids[i] != ids[j])
  }

  /** `AllNew` one step at a time: the first id is new, and the rest are new
      once the first has been appended. */
  lemma AllNewStep<T>(r: seq<Entry<T>>, ids: seq<string>, e: Entry<T>)
    requires |ids| > 0 && e.key == ids[0]
    ensures AllNew(r, ids) <==> !Has(r, ids[0]) && AllNew(r + [e], ids[1..])
  {
    forall i | 0 <= i < |ids| - 1
      ensures Has(r + [e], ids[1..][i]) <==> Has(r, ids[i + 1]) || ids[0] == ids[i + 1]
    {
      HasAppend(r, e, ids[i + 1]);
    }
    if !Has(r, ids[0]) && AllNew(r + [e], ids[1..]) {
      forall i, j | 0 <= i < j < |ids|
        ensures ids[i] != ids[j]
      {
        if i == 0 {
          assert ids[j] == ids[1..][j - 1];
        } else {
          assert ids[i] == ids[1..][i - 1] && ids[j] == ids[1..][j - 1];
        }
      }
      forall i | 0 <= i < |ids|
        ensures !Has(r, ids[i])
      {
        if i > 0 {
          assert ids[i] == ids[1..][i - 1];
        }
      }
    }
    if AllNew(r, ids) {
      forall i | 0 <= i < |ids| - 1
        ensures !Has(r + [e], ids[1..][i])
      {
        assert ids[0] != ids[i + 1];
      }
    }
  }

  /** The keys of a registry with unique keys are all new to an empty one. */
  lemma UniqueKeysAllNew<T>(r: seq<Entry<T>>)
    requires UniqueKeys(r)
    ensures AllNew<T>([], Keys(r))
  {
  }
}

=== FILE: results.dfy ===
/** Failure-carrying return values used wherever the TypeScript source throws
    or answers `undefined`. */
module Results {

  /** A value that may be absent (`undefined` in the source). */
  datatype Option<+T> = None | Some(value: T) {

    /** The value, or `d` when absent: the source's `x ?? d`. */
    function GetOr(d: T): T {
      match this
      case Some(v) => v
      case None => d
    }
  }

  /** The outcome of an operation that throws `Error` on failure. */
  datatype Result<+T, +E> = Ok(value: T) | Err(error: E)
}

=== FILE: scene.dfy ===
/** The scene graph of `src/lib/CircuitUI.ts`: the node and path registries,
    the active node and navigation history, and the operations that add,
    remove and connect entries, measure the content and tear the scene down. */
module Scenes {
  import opened Results
  import opened Geometry
  import opened Viewports
  import opened Waypoints
  import opened Nodes
  import opened Registry

  /** A `CircuitUI`: its canvas (configuration and viewport), the two
      registries, the active node id and the navigation history. */
  datatype Scene = Scene(
    canvas: CanvasConfig,
    viewport: Viewport,
    nodes: seq<Entry<Node>>,
    paths: seq<Entry<PathConfig>>,
    active: Option<string>,
    history: seq<string>)

  datatype SceneError =
    | DuplicateNodeId(id: string)
    | DuplicatePathId(id: string)
    | NodesNotFound(fromId: string, toId: string)
    | NodeNotFound(id: string)
    | InvalidPath(reason: PathError)

  /** What every reachable scene satisfies: each registry has unique keys, each
      entry is stored under its own id, and each path is valid. */
  predicate Wf(s: Scene) {
    && UniqueKeys(s.nodes) && UniqueKeys(s.paths)
    && (forall i :: 0 <= i < |s.nodes| ==> s.nodes[i].value.config.id == s.nodes[i].key)
    && (forall i :: 0 <= i < |s.paths| ==> s.paths[i].value.id == s.paths[i].key)
    && (forall i :: 0 <= i < |s.paths| ==> Valid(s.paths[i].value))
  }

  /** The constructor: a canvas with defaults merged, empty registries, no
      active node and an empty history. The canvas ends its construction with
      `centerView`, so the view starts at zoom 1 with the world origin at the
      centre of the container, whose size is `screen`. */
  function NewScene(o: CanvasOptions, screen: Size): (s: Scene)
    ensures Wf(s) && s.nodes == [] && s.paths == [] && s.history == [] && s.active == None
    ensures s.canvas == Viewports.MergeDefaultConfig(o)
    ensures s.viewport == CenterView(screen)
    ensures s.viewport.zoom == 1.0 && WorldToScreen(s.viewport, Origin) == Point(screen.width / 2.0, screen.height / 2.0)
  {
    Scene(Viewports.MergeDefaultConfig(o), CenterView(screen), [], [], None, [])
  }

  /** `activeNodeId` as the source tests it: a defined, non-empty id. */
  predicate HasActive(s: Scene) {
    s.active.Some? && s.active.value != ""
  }

  /** `addNode`: a duplicate id throws and changes nothing; otherwise exactly
      one entry, the new node under its id, is appended. */
  function AddNode(s: Scene, o: NodeOptions): (r: Result<Scene, SceneError>)
    ensures r.Err? <==> Has(s.nodes, o.id)
    ensures r.Err? ==> r.error == DuplicateNodeId(o.id)
    ensures r.Ok? ==> r.value.nodes == s.nodes + [Entry(o.id, NewNode(o))]
    ensures r.Ok? ==> r.value == s.(nodes := r.value.nodes)
  {
    if Has(s.nodes, o.id) then Err(DuplicateNodeId(o.id))
    else Ok(s.(nodes := Put(s.nodes, o.id, NewNode(o))))
  }

  /** Adding a node keeps a scene well formed. */
  lemma AddNodeKeepsWf(s: Scene, o: NodeOptions)
    requires Wf(s) && AddNode(s, o).Ok?
    ensures Wf(AddNode(s, o).value)
  {
    var r := AddNode(s, o).value;
    assert Put(s.nodes, o.id, NewNode(o)) == r.nodes;
  }

  /** Is any waypoint within 10 units of `p` on both axes? */
  predicate Touches(w: seq<Point>, p: Point) {
    exists i :: 0 <= i < |w| && Abs(w[i].x - p.x) < 10.0 && Abs(w[i].y - p.y) < 10.0
  }

  /** The path registry without the paths that touch `p`, in order. */
  function KeepUntouched(ps: seq<Entry<PathConfig>>, p: Point): (out: seq<Entry<PathConfig>>)
    ensures |out| <= |ps|
    ensures forall i :: 0 <= i < |out| ==> out[i] in ps && !Touches(out[i].value.waypoints, p)
    ensures forall i :: 0 <= i < |ps| && !Touches(ps[i].value.waypoints, p) ==> ps[i] in out
  {
    if |ps| == 0 then []
    else
      var rest := KeepUntouched(ps[1..], p);
      assert forall i :: 1 <= i < |ps| ==> ps[i] == ps[1..][i - 1];
      if Touches(ps[0].value.waypoints, p) then rest else [ps[0]] + rest
  }

  /** `removePathsConnectedToNode`: when the node is registered, every path
      with a waypoint within 10 units of its position (on both axes) is
      removed; when it is not, the early return leaves the scene as it is. */
  function RemovePathsConnectedToNode(s: Scene, id: string): (r: Scene)
    ensures !Has(s.nodes, id) ==> r == s
    ensures Has(s.nodes, id) ==>
      r == s.(paths := KeepUntouched(s.paths, Get(s.nodes, id).value.config.position))
  {
    match Get(s.nodes, id)
    case None => s
    case Some(n) => s.(paths := KeepUntouched(s.paths, n.config.position))
  }

  /** `removeNode`: an absent id answers false and changes nothing; a present
      one is deleted. The path cascade runs after the delete, finds no node
      and returns at once, so no path is ever removed. */
  function RemoveNode(s: Scene, id: string): (r: (Scene, bool))
    ensures r.1 <==> Has(s.nodes, id)
    ensures !r.1 ==> r.0 == s
    ensures r.0 == s.(nodes := Delete(s.nodes, id))
    ensures r.0.paths == s.paths
  {
    if Get(s.nodes, id).None? then (s, false)
    else (RemovePathsConnectedToNode(s.(nodes := Delete(s.nodes, id)), id), true)
  }

  /** Removing a node keeps a scene well formed. */
  lemma RemoveNodeKeepsWf(s: Scene, id: string)
    requires Wf(s)
    ensures Wf(RemoveNode(s, id).0)
  {
    DeleteKeepsUnique(s.nodes, id);
    var ns := Delete(s.nodes, id);
    forall i | 0 <= i < |ns|
      ensures ns[i].value.config.id == ns[i].key
    {
      assert ns[i] in s.nodes by {
        assert Has(ns, ns[i].key);
        DeleteIsSubsequence(s.nodes, id, i);
      }
    }
  }

  lemma {:induction false} DeleteIsSubsequence<T>(r: seq<Entry<T>>, k: string, i: nat)
    requires i < |Delete(r, k)|
    ensures Delete(r, k)[i] in r
  {
    if |r| > 0 {
      if r[0].key == k {
        DeleteIsSubsequence(r[1..], k, i);
      } else if i > 0 {
        assert Delete(r, k)[i] == Delete(r[1..], k)[i - 1];
        DeleteIsSubsequence(r[1..], k, i - 1);
      }
    }
  }

  /** Adding a node and removing it again gives back the scene. */
  lemma AddRemoveNodeRoundTrip(s: Scene, o: NodeOptions)
    requires AddNode(s, o).Ok?
    ensures RemoveNode(AddNode(s, o).value, o.id) == (s, true)
  {
    PutDeleteRoundTrip(s.nodes, o.id, NewNode(o));
  }

  /** `addPath`: the id is the given one when non-empty, otherwise
      `freshId`. A registered id throws, and so does the `Path` constructor on
      fewer than two waypoints; on success exactly one valid path is appended
      under that id, with legal waypoints kept as given. */
  function AddPath(s: Scene, o: PathOptions, freshId: string): (r: Result<Scene, SceneError>)
    requires freshId != ""
    ensures var id := OrString(o.id, freshId);
      && (r.Err? <==> Has(s.paths, id) || |o.waypoints| < 2)
      && (Has(s.paths, id) ==> r == Err(DuplicatePathId(id)))
      && (!Has(s.paths, id) && |o.waypoints| < 2 ==> r == Err(InvalidPath(TooFewWaypoints)))
    ensures r.Ok? ==> var id := OrString(o.id, freshId);
      && |r.value.paths| == |s.paths| + 1
      && r.value.paths[..|s.paths|] == s.paths
      && r.value.paths[|s.paths|].key == id
      && r.value.paths[|s.paths|].value.id == id
      && Valid(r.value.paths[|s.paths|].value)
      && (AllLegal(o.waypoints) ==> r.value.paths[|s.paths|].value.waypoints == o.waypoints)
      && r.value == s.(paths := r.value.paths)
    ensures r.Ok? ==> r.value.paths == s.paths + [Entry(OrString(o.id, freshId), NewPath(o, freshId).value)]
  {
    var id := OrString(o.id, freshId);
    if Has(s.paths, id) then Err(DuplicatePathId(id))
    else
      match NewPath(o.(id := Some(id)), freshId)
      case Err(e) => Err(InvalidPath(e))
      case Ok(c) =>
        var ps := Put(s.paths, id, c);
        assert ps[..|s.paths|] == s.paths;
        Ok(s.(paths := ps))
  }

  /** Adding a path keeps a scene well formed. */
  lemma AddPathKeepsWf(s: Scene, o: PathOptions, freshId: string)
    requires freshId != ""
    requires Wf(s) && AddPath(s, o, freshId).Ok?
    ensures Wf(AddPath(s, o, freshId).value)
  {
    var r := AddPath(s, o, freshId).value;
    var id := OrString(o.id, freshId);
    assert r.paths == s.paths + [r.paths[|s.paths|]];
    assert r.paths == Put(s.paths, id, r.paths[|s.paths|].value);
  }

  /** `removePath`: an absent id answers false and changes nothing; a present
      one is deleted. */
  function RemovePath(s: Scene, id: string): (r: (Scene, bool))
    ensures r.1 <==> Has(s.paths, id)
    ensures !r.1 ==> r.0 == s
    ensures r.0 == s.(paths := Delete(s.paths, id))
    ensures !Has(r.0.paths, id)
  {
    if Get(s.paths, id).None? then (s, false)
    else (s.(paths := Delete(s.paths, id)), true)
  }

  /** Removing a path keeps a scene well formed. */
  lemma RemovePathKeepsWf(s: Scene, id: string)
    requires Wf(s)
    ensures Wf(RemovePath(s, id).0)
  {
    DeleteKeepsUnique(s.paths, id);
    var ps := Delete(s.paths, id);
    forall i | 0 <= i < |ps|
      ensures ps[i].value.id == ps[i].key && Valid(ps[i].value)
    {
      DeleteIsSubsequence(s.paths, id, i);
    }
  }

  /** Adding a path under an explicit id and removing it again gives back the
      scene. */
  lemma AddRemovePathRoundTrip(s: Scene, o: PathOptions, freshId: string)
    requires freshId != "" && AddPath(s, o, freshId).Ok?
    ensures RemovePath(AddPath(s, o, freshId).value, OrString(o.id, freshId)) == (s, true)
  {
    var id := OrString(o.id, freshId);
    var r := AddPath(s, o, freshId).value;
    var c := r.paths[|s.paths|].value;
    assert r.paths == Put(s.paths, id, c);
    PutDeleteRoundTrip(s.paths, id, c);
  }

  /** The fields of `Partial<PathConfig>` a caller of `connectNodes` may
      override; they are spread after the computed waypoints. */
  datatype PathOverrides = PathOverrides(
    id: Option<string>,
    waypoints: Option<seq<Point>>,
    width: Option<real>,
    color: Option<string>,
    animated: Option<bool>,
    className: Option<string>)

  const NoOverrides := PathOverrides(None, None, None, None, None, None)

  /** The centre of a registered node. */
  function NodeCentre(n: Node): Point {
    Centre(n.config.position, n.config.size)
  }

  /** `connectNodes`: both nodes must exist; the path runs as an L from the
      centre of one to the centre of the other, corner at the destination,
      unless the caller overrides the waypoints. */
  function ConnectNodes(s: Scene, fromId: string, toId: string, ov: PathOverrides, freshId: string)
    : (r: Result<Scene, SceneError>)
    requires freshId != ""
    ensures r == Err(NodesNotFound(fromId, toId)) <==> !Has(s.nodes, fromId) || !Has(s.nodes, toId)
    ensures Has(s.nodes, fromId) && Has(s.nodes, toId) ==>
      (r.Ok? <==> !Has(s.paths, OrString(ov.id, freshId)) && (ov.waypoints.None? || |ov.waypoints.value| >= 2))
    ensures r.Ok? ==> |r.value.paths| == |s.paths| + 1 && r.value.paths[..|s.paths|] == s.paths
    ensures r.Ok? ==> r.value == s.(paths := r.value.paths)
    ensures r.Ok? && ov.waypoints.None? ==>
      r.value.paths[|s.paths|].value.waypoints ==
        LPath(NodeCentre(Get(s.nodes, fromId).value), NodeCentre(Get(s.nodes, toId).value), true)
    ensures r.Ok? ==> Overridden(r.value.paths[|s.paths|], ov, freshId)
  {
    var a, b := Get(s.nodes, fromId), Get(s.nodes, toId);
    if a.None? || b.None? then Err(NodesNotFound(fromId, toId))
    else
      var w := ov.waypoints.GetOr(LPath(NodeCentre(a.value), NodeCentre(b.value), true));
      var o := PathOptions(ov.id, w, ov.width, ov.color, ov.animated, ov.className);
      assert NewPath(o, freshId).Ok? ==>
        NewPath(o, freshId).value == Waypoints.MergeDefaultConfig(o, freshId).(waypoints := NewPath(o, freshId).value.waypoints) by {
        if NewPath(o, freshId).Ok? {
          NewPathFields(o, freshId);
        }
      }
      AddPath(s, o, freshId)
  }

  /** The caller's overrides win over the computed route and the defaults:
      a given id, width, colour, animation flag, class name and legal route
      are the path's own (an empty id or colour and a zero width are falsy
      and fall back to the defaults). */
  predicate Overridden(e: Entry<PathConfig>, ov: PathOverrides, freshId: string) {
    && e.key == OrString(ov.id, freshId) && e.value.id == e.key
    && (ov.width.Some? && ov.width.value != 0.0 ==> e.value.width == ov.width.value)
    && (ov.color.Some? && ov.color.value != "" ==> e.value.color == ov.color.value)
    && (ov.animated.Some? ==> e.value.animated == ov.animated.value)
    && (ov.className.Some? ==> e.value.className == ov.className.value)
    && (ov.waypoints.Some? && AllLegal(ov.waypoints.value) ==> e.value.waypoints == ov.waypoints.value)
  }

  /** Connecting two nodes keeps a scene well formed. */
  lemma ConnectNodesKeepsWf(s: Scene, fromId: string, toId: string, ov: PathOverrides, freshId: string)
    requires freshId != ""
    ensures Wf(s) && ConnectNodes(s, fromId, toId, ov, freshId).Ok? ==> Wf(ConnectNodes(s, fromId, toId, ov, freshId).value)
  {
    var a, b := Get(s.nodes, fromId), Get(s.nodes, toId);
    if Wf(s) && a.Some? && b.Some? {
      var w := ov.waypoints.GetOr(LPath(NodeCentre(a.value), NodeCentre(b.value), true));
      var o := PathOptions(ov.id, w, ov.width, ov.color, ov.animated, ov.className);
      if AddPath(s, o, freshId).Ok? {
        AddPathKeepsWf(s, o, freshId);
      }
    }
  }

  /** `p` is one of the waypoints of one of the paths `ps`. */
  ghost predicate WaypointOf(ps: seq<Entry<PathConfig>>, p: Point) {
    exists i, j :: 0 <= i < |ps| && 0 <= j < |ps[i].value.waypoints| && p == ps[i].value.waypoints[j]
  }

  /** Every point of every path, path by path. */
  function AllWaypoints(ps: seq<Entry<PathConfig>>): (r: seq<Point>)
    ensures forall i, j :: 0 <= i < |ps| && 0 <= j < |ps[i].value.waypoints| ==>
      ps[i].value.waypoints[j] in r
    ensures forall k :: 0 <= k < |r| ==> WaypointOf(ps, r[k])
  {
    if |ps| == 0 then []
    else
      var rest := AllWaypoints(ps[1..]);
      WaypointsCons(ps, rest);
      ps[0].value.waypoints + rest
  }

  /** Every point of `rest` is a waypoint of a path in `ps[1..]`, so every
      point of the first path's waypoints followed by `rest` is one of `ps`. */
  lemma WaypointsCons(ps: seq<Entry<PathConfig>>, rest: seq<Point>)
    requires |ps| > 0
    requires forall k :: 0 <= k < |rest| ==> WaypointOf(ps[1..], rest[k])
    ensures forall k :: 0 <= k < |ps[0].value.waypoints + rest| ==>
      WaypointOf(ps, (ps[0].value.waypoints + rest)[k])
  {
    var w0 := ps[0].value.waypoints;
    var r := w0 + rest;
    forall k | 0 <= k < |r|
      ensures WaypointOf(ps, r[k])
    {
      if k < |w0| {
        assert r[k] == ps[0].value.waypoints[k];
      } else {
        assert WaypointOf(ps[1..], rest[k - |w0|]);
        var i, j :| 0 <= i < |ps[1..]| && 0 <= j < |ps[1..][i].value.waypoints| && rest[k - |w0|] == ps[1..][i].value.waypoints[j];
        assert ps[1..][i] == ps[i + 1];
        assert r[k] == ps[i + 1].value.waypoints[j];
      }
    }
  }

  /** The corners that can set the lower bounds: node positions and waypoints. */
  function Lows(s: Scene): seq<Point> {
    seq(|s.nodes|, i requires 0 <= i < |s.nodes| => s.nodes[i].value.config.position)
      + AllWaypoints(s.paths)
  }

  /** The far corner of a node. */
  function FarCorner(n: Node): Point {
    Point(n.config.position.x + n.config.size.width, n.config.position.y + n.config.size.height)
  }

  /** The corners that can set the upper bounds: far node corners and waypoints. */
  function Highs(s: Scene): seq<Point> {
    seq(|s.nodes|, i requires 0 <= i < |s.nodes| => FarCorner(s.nodes[i].value))
      + AllWaypoints(s.paths)
  }

  function MinX(ps: seq<Point>): (m: real)
    requires |ps| > 0
    ensures forall i :: 0 <= i < |ps| ==> m <= ps[i].x
    ensures exists i :: 0 <= i < |ps| && m == ps[i].x
  {
    if |ps| == 1 then ps[0].x
    else
      var m := MinX(ps[1..]);
      assert forall i :: 1 <= i < |ps| ==> ps[i] == ps[1..][i - 1];
      Min(ps[0].x, m)
  }

  function MinY(ps: seq<Point>): (m: real)
    requires |ps| > 0
    ensures forall i :: 0 <= i < |ps| ==> m <= ps[i].y
    ensures exists i :: 0 <= i < |ps| && m == ps[i].y
  {
    if |ps| == 1 then ps[0].y
    else
      var m := MinY(ps[1..]);
      assert forall i :: 1 <= i < |ps| ==> ps[i] == ps[1..][i - 1];
      Min(ps[0].y, m)
  }

  function MaxX(ps: seq<Point>): (m: real)
    requires |ps| > 0
    ensures forall i :: 0 <= i < |ps| ==> ps[i].x <= m
    ensures exists i :: 0 <= i < |ps| && m == ps[i].x
  {
    if |ps| == 1 then ps[0].x
    else
      var m := MaxX(ps[1..]);
      assert forall i :: 1 <= i < |ps| ==> ps[i] == ps[1..][i - 1];
      Max(ps[0].x, m)
  }

  function MaxY(ps: seq<Point>): (m: real)
    requires |ps| > 0
    ensures forall i :: 0 <= i < |ps| ==> ps[i].y <= m
    ensures exists i :: 0 <= i < |ps| && m == ps[i].y
  {
    if |ps| == 1 then ps[0].y
    else
      var m := MaxY(ps[1..]);
      assert forall i :: 1 <= i < |ps| ==> ps[i] == ps[1..][i - 1];
      Max(ps[0].y, m)
  }

  /** The margin `calculateContentBounds` adds on every side. */
  const Margin := 100.0

  /** Does the box lie inside `b` with at least the margin on every side? */
  predicate InsideWithMargin(lo: Point, hi: Point, b: Bounds) {
    && b.x + Margin <= lo.x && hi.x <= b.x + b.width - Margin
    && b.y + Margin <= lo.y && hi.y <= b.y + b.height - Margin
  }

  /** `calculateContentBounds` (only ever called with at least one node): the
      extremes of the node rectangles and the waypoints, grown by 100 units on
      each side; each side of the box is set by some node corner or waypoint. */
  function ContentBounds(s: Scene): (b: Bounds)
    requires |s.nodes| > 0
    ensures exists i :: 0 <= i < |Lows(s)| && Lows(s)[i].x == b.x + Margin
    ensures exists i :: 0 <= i < |Lows(s)| && Lows(s)[i].y == b.y + Margin
    ensures exists i :: 0 <= i < |Highs(s)| && Highs(s)[i].x == b.x + b.width - Margin
    ensures exists i :: 0 <= i < |Highs(s)| && Highs(s)[i].y == b.y + b.height - Margin
  {
    var minX, minY, maxX, maxY := MinX(Lows(s)), MinY(Lows(s)), MaxX(Highs(s)), MaxY(Highs(s));
    Bounds(minX - Margin, minY - Margin, maxX - minX + 2.0 * Margin, maxY - minY + 2.0 * Margin)
  }

  /** The content bounds hold every node rectangle and every waypoint with
      the full margin to spare on each side. */
  lemma ContentBoundsContain(s: Scene)
    requires |s.nodes| > 0
    ensures forall i :: 0 <= i < |s.nodes| ==>
      InsideWithMargin(s.nodes[i].value.config.position, FarCorner(s.nodes[i].value), ContentBounds(s))
    ensures forall i, j :: 0 <= i < |s.paths| && 0 <= j < |s.paths[i].value.waypoints| ==>
      InsideWithMargin(s.paths[i].value.waypoints[j], s.paths[i].value.waypoints[j], ContentBounds(s))
  {
    forall i | 0 <= i < |s.nodes|
      ensures InsideWithMargin(s.nodes[i].value.config.position, FarCorner(s.nodes[i].value), ContentBounds(s))
    {
      NodeInside(s, i);
    }
    forall i, j | 0 <= i < |s.paths| && 0 <= j < |s.paths[i].value.waypoints|
      ensures InsideWithMargin(s.paths[i].value.waypoints[j], s.paths[i].value.waypoints[j], ContentBounds(s))
    {
      var all := AllWaypoints(s.paths);
      var p := s.paths[i].value.waypoints[j];
      assert p in all;
      var k :| 0 <= k < |all| && all[k] == p;
      WaypointInside(s, k);
    }
  }

  lemma NodeInside(s: Scene, i: nat)
    requires i < |s.nodes|
    ensures InsideWithMargin(s.nodes[i].value.config.position, FarCorner(s.nodes[i].value), ContentBounds(s))
  {
    var lo, hi := Lows(s), Highs(s);
    assert lo[i] == s.nodes[i].value.config.position;
    assert hi[i] == FarCorner(s.nodes[i].value);
    Extremes(lo, hi, i, i);
  }

  lemma WaypointInside(s: Scene, k: nat)
    requires |s.nodes| > 0 && k < |AllWaypoints(s.paths)|
    ensures var p := AllWaypoints(s.paths)[k]; InsideWithMargin(p, p, ContentBounds(s))
  {
    var lo, hi := Lows(s), Highs(s);
    assert lo[|s.nodes| + k] == AllWaypoints(s.paths)[k];
    assert hi[|s.nodes| + k] == AllWaypoints(s.paths)[k];
    Extremes(lo, hi, |s.nodes| + k, |s.nodes| + k);
  }

  lemma Extremes(lo: seq<Point>, hi: seq<Point>, i: nat, j: nat)
    requires i < |lo| && j < |hi|
    ensures InsideWithMargin(lo[i], hi[j],
      Bounds(MinX(lo) - Margin, MinY(lo) - Margin,
        MaxX(hi) - MinX(lo) + 2.0 * Margin, MaxY(hi) - MinY(lo) + 2.0 * Margin))
  {
  }

  /** `destroy`: both registries are emptied. The active node id and the
      navigation history are not reset. */
  function Destroy(s: Scene): (r: Scene)
    ensures Wf(r) && r.nodes == [] && r.paths == []
    ensures r.active == s.active && r.history == s.history
    ensures r.canvas == s.canvas && r.viewport == s.viewport
  {
    s.(nodes := [], paths := [])
  }

  /** Set the focus flag of the node registered under `id`, if any. */
  function FocusNode(s: Scene, id: string, focused: bool): (r: Scene)
    ensures Keys(r.nodes) == Keys(s.nodes)
    ensures UniqueKeys(s.nodes) ==>
      forall i :: 0 <= i < |s.nodes| ==> r.nodes[i].value.config == s.nodes[i].value.config
    ensures forall k :: Has(r.nodes, k) <==> Has(s.nodes, k)
    ensures Has(s.nodes, id) ==> Get(r.nodes, id).value.focused == focused
    ensures Has(s.nodes, id) ==> Get(r.nodes, id).value.config == Get(s.nodes, id).value.config
    ensures Has(s.nodes, id) ==> Get(r.nodes, id) == Some(SetFocused(Get(s.nodes, id).value, focused))
    ensures forall k :: k != id ==> Get(r.nodes, k) == Get(s.nodes, k)
    ensures r == s.(nodes := r.nodes)
  {
    match Get(s.nodes, id)
    case None => s
    case Some(n) =>
      var ns := Put(s.nodes, id, SetFocused(n, focused));
      PutThenGet(s.nodes, id, SetFocused(n, focused), id);
      forall k | k != id
        ensures Get(ns, k) == Get(s.nodes, k)
      {
        PutThenGet(s.nodes, id, SetFocused(n, focused), k);
      }
      assert UniqueKeys(s.nodes) ==> forall i :: 0 <= i < |s.nodes| && s.nodes[i].key == id ==> s.nodes[i].value == n by {
        if UniqueKeys(s.nodes) {
          forall i | 0 <= i < |s.nodes| && s.nodes[i].key == id
            ensures s.nodes[i].value == n
          {
            FirstMatch(s.nodes, id, i);
          }
        }
      }
      s.(nodes := ns)
  }

  /** In a registry without unique keys `get` still answers the first entry;
      with unique keys it is the only one. */
  lemma FirstMatch<T>(r: seq<Entry<T>>, k: string, i: nat)
    requires i < |r| && r[i].key == k
    ensures Get(r, k).Some?
    ensures UniqueKeys(r) ==> Get(r, k).value == r[i].value
  {
    if UniqueKeys(r) {
      GetAt(r, i);
    }
  }

  /** Focusing keeps a scene well formed. */
  lemma FocusNodeKeepsWf(s: Scene, id: string, focused: bool)
    ensures Wf(s) ==> Wf(FocusNode(s, id, focused))
  {
    var r := FocusNode(s, id, focused);
    assert forall i :: 0 <= i < |r.nodes| ==> r.nodes[i].key == Keys(r.nodes)[i];
  }
}

=== FILE: schema.dfy ===
/** Export and import of a whole scene (`toSchema` / `fromSchema` in
    `src/lib/CircuitUI.ts`): a schema records the canvas configuration and the
    node and path configurations in registry order, and importing replays them
    through `addNode` and `addPath`. The JSON text itself and the metadata
    timestamps are not modelled. */
module Schemas {
  import opened Results
  import opened Geometry
  import opened Viewports
  import opened Waypoints
  import opened Nodes
  import opened Registry
  import opened Scenes

  const Version := "1.0.0"

  /** A `CircuitUISchema`. An imported schema may leave optional fields out,
      so its records are the option records the constructors accept. */
  datatype Schema = Schema(
    version: string,
    canvas: CanvasOptions,
    nodes: seq<NodeOptions>,
    paths: seq<PathOptions>)

  /** `toSchema`: every field of the canvas, of each node (in insertion
      order) and of each path (in insertion order). The interaction flags of
      the nodes, the viewport, the active node and the history are not
      part of it. */
  function ToSchema(s: Scene): (sc: Schema)
    ensures sc.version == Version
    ensures Viewports.MergeDefaultConfig(sc.canvas) == s.canvas
    ensures |sc.nodes| == |s.nodes| && |sc.paths| == |s.paths|
    ensures forall i :: 0 <= i < |s.nodes| ==> Nodes.MergeDefaultConfig(sc.nodes[i]) == s.nodes[i].value.config
    ensures forall i :: 0 <= i < |s.paths| ==> sc.paths[i].waypoints == s.paths[i].value.waypoints
  {
    Viewports.DefaultsAndRoundTrip(s.canvas);
    forall i | 0 <= i < |s.nodes|
      ensures Nodes.MergeDefaultConfig(Nodes.Full(s.nodes[i].value.config)) == s.nodes[i].value.config
    {
      Nodes.DefaultsAndRoundTrip("", Geometry.Origin, s.nodes[i].value.config);
    }
    Schema(Version, Viewports.Full(s.canvas),
      seq(|s.nodes|, i requires 0 <= i < |s.nodes| => Nodes.Full(s.nodes[i].value.config)),
      seq(|s.paths|, i requires 0 <= i < |s.paths| => Waypoints.Full(s.paths[i].value)))
  }

  /** The `TypeError` a call of a method the object does not define
      throws. */
  datatype ExportError = NotAFunction(receiver: string, member: string)

  /** Can `toSchema` as written export the scene? Only when there is
      nothing to export. */
  predicate Exportable(s: Scene) {
    |s.nodes| == 0 && |s.paths| == 0
  }

  /** `toSchema` as the source writes it. The node record asks the node for
      `getClassName`, `isDraggable`, `getZIndex`, `getType` and `getData`,
      and the path record asks the path for `getClassName`; `Node` and
      `Path` define none of these, so the first node, or failing that the
      first path, throws at its `getClassName`. Only a scene with no node
      and no path is exported, and then the export agrees with `ToSchema`. */
  function ToSchemaAsWritten(s: Scene): (r: Result<Schema, ExportError>)
    ensures r.Ok? <==> Exportable(s)
    ensures |s.nodes| > 0 ==> r == Err(NotAFunction("node", "getClassName"))
    ensures |s.nodes| == 0 && |s.paths| > 0 ==> r == Err(NotAFunction("path", "getClassName"))
    ensures r.Ok? ==> r.value == ToSchema(s)
  {
    if |s.nodes| > 0 then Err(NotAFunction("node", "getClassName"))
    else if |s.paths| > 0 then Err(NotAFunction("path", "getClassName"))
    else Ok(Schema(Version, Viewports.Full(s.canvas), [], []))
  }

  /** The discrepancy: a well-formed scene with a node or a path is one the
      intended export carries through an import intact, while the export as
      written throws on it. */
  lemma ExportRoundTripFails(s: Scene, gen: seq<string>, screen: Size)
    requires Wf(s) && (|s.nodes| > 0 || |s.paths| > 0)
    requires |gen| == |s.paths|
    requires forall i :: 0 <= i < |gen| ==> gen[i] != ""
    ensures ToSchemaAsWritten(s).Err?
    ensures var r := FromSchema(ToSchema(s), gen, screen);
      r.Ok? && |r.value.nodes| == |s.nodes| && r.value.paths == s.paths
  {
    SchemaRoundTrip(s, gen, screen);
  }

  /** Importing does not go through the export: a schema holding one path
      with two or more waypoints loads into a scene whose only path is that
      path's entry, and the as-written export refuses that scene. */
  lemma ImportNeedsNoExport(sc: Schema, gen: seq<string>, screen: Size)
    requires |sc.nodes| == 0 && |sc.paths| == 1 && |sc.paths[0].waypoints| >= 2
    requires |gen| == 1 && gen[0] != ""
    ensures FromSchema(sc, gen, screen).Ok?
    ensures FromSchema(sc, gen, screen).value.paths == PathEntries(sc.paths, gen)
    ensures ToSchemaAsWritten(FromSchema(sc, gen, screen).value) == Err(NotAFunction("path", "getClassName"))
  {
  }

  /** The ids the node records ask for. */
  function NodeIds(ns: seq<NodeOptions>): (ids: seq<string>)
    ensures |ids| == |ns|
    ensures forall i :: 0 <= i < |ns| ==> ids[i] == ns[i].id
  {
    seq(|ns|, i requires 0 <= i < |ns| => ns[i].id)
  }

  /** The registry entries `addNode` creates for the node records. */
  function NodeEntries(ns: seq<NodeOptions>): (es: seq<Entry<Node>>)
    ensures |es| == |ns|
    ensures forall i :: 0 <= i < |ns| ==> es[i] == Entry(ns[i].id, NewNode(ns[i]))
  {
    seq(|ns|, i requires 0 <= i < |ns| => Entry(ns[i].id, NewNode(ns[i])))
  }

  /** `schema.nodes.forEach(addNode)`: nodes are added in order until one
      throws; what was added before the throw stays. The result is the
      scene reached and the error, if any. Loading succeeds exactly when every
      id is new to the scene and to the schema, and then appends one new
      node per record, in order. */
  function LoadNodes(s: Scene, ns: seq<NodeOptions>): (r: (Scene, Option<SceneError>))
    decreases |ns|
    ensures NodesLoaded(s, ns, r)
  {
    if |ns| == 0 then (s, None)
    else
      match AddNode(s, ns[0])
      case Err(err) =>
        assert NodeIds(ns)[0] == ns[0].id;
        (s, Some(err))
      case Ok(t) =>
        var r := LoadNodes(t, ns[1..]);
        LoadNodesStep(s, ns, r);
        r
  }

  /** What loading the node records `ns` into `s` promises of its result
      `r`: only the nodes change; loading succeeds exactly when every id is
      new to the scene and to the schema, and then one new node per record is
      appended; the only error is a duplicate id; a well-formed scene stays
      well formed. */
  predicate NodesLoaded(s: Scene, ns: seq<NodeOptions>, r: (Scene, Option<SceneError>)) {
    && r.0 == s.(nodes := r.0.nodes)
    && (r.1.None? <==> AllNew(s.nodes, NodeIds(ns)))
    && (r.1.None? ==> r.0.nodes == s.nodes + NodeEntries(ns))
    && (r.1.Some? ==> r.1.value.DuplicateNodeId?)
    && (Wf(s) ==> Wf(r.0))
  }

  /** The first record is accepted: what loading the rest promises from the
      scene with that node added is what loading all of them promises. */
  lemma LoadNodesStep(s: Scene, ns: seq<NodeOptions>, r: (Scene, Option<SceneError>))
    requires |ns| > 0 && AddNode(s, ns[0]).Ok?
    requires NodesLoaded(AddNode(s, ns[0]).value, ns[1..], r)
    ensures NodesLoaded(s, ns, r)
  {
    var e := Entry(ns[0].id, NewNode(ns[0]));
    if Wf(s) {
      AddNodeKeepsWf(s, ns[0]);
    }
    AllNewStep(s.nodes, NodeIds(ns), e);
    assert NodeIds(ns)[1..] == NodeIds(ns[1..]);
    if r.1.None? {
      var tail := NodeEntries(ns[1..]);
      assert NodeEntries(ns) == [e] + tail;
      SeqAssoc(s.nodes, [e], tail);
    }
  }

  /** The ids the path records end up with: the given one when non-empty,
      otherwise the generated one. */
  function PathIds(ps: seq<PathOptions>, gen: seq<string>): (ids: seq<string>)
    requires |gen| == |ps|
    ensures |ids| == |ps|
    ensures forall i :: 0 <= i < |ps| ==> ids[i] == OrString(ps[i].id, gen[i])
  {
    seq(|ps|, i requires 0 <= i < |ps| => OrString(ps[i].id, gen[i]))
  }

  /** Does every path record carry at least two waypoints? */
  predicate LongEnough(ps: seq<PathOptions>) {
    forall i :: 0 <= i < |ps| ==> |ps[i].waypoints| >= 2
  }

  /** The registry entries `addPath` creates for the path records. */
  function PathEntries(ps: seq<PathOptions>, gen: seq<string>): (es: seq<Entry<PathConfig>>)
    requires |gen| == |ps| && LongEnough(ps)
    requires forall i :: 0 <= i < |gen| ==> gen[i] != ""
    ensures |es| == |ps|
    ensures forall i :: 0 <= i < |ps| ==>
      es[i].key == es[i].value.id == OrString(ps[i].id, gen[i]) && Valid(es[i].value)
    ensures forall i :: 0 <= i < |ps| && AllLegal(ps[i].waypoints) ==> es[i].value.waypoints == ps[i].waypoints
  {
    EntryList(ps, gen)
  }

  /** Each loaded path is the record with the path defaults merged in and
      its route repaired, as the `Path` constructor builds it, whatever the
      schema holds: width, colour, animated flag and class name come from the
      merge, and an illegal route is stored repaired. */
  lemma PathEntriesRepaired(ps: seq<PathOptions>, gen: seq<string>)
    requires |gen| == |ps| && LongEnough(ps)
    requires forall i :: 0 <= i < |gen| ==> gen[i] != ""
    ensures forall i :: 0 <= i < |ps| ==>
      PathEntries(ps, gen)[i].value == Waypoints.MergeDefaultConfig(ps[i], gen[i]).(waypoints := Corrected(ps[i].waypoints))
  {
    forall i | 0 <= i < |ps|
      ensures PathEntries(ps, gen)[i].value == Waypoints.MergeDefaultConfig(ps[i], gen[i]).(waypoints := Corrected(ps[i].waypoints))
    {
      NewPathFields(ps[i], gen[i]);
    }
  }

  /** `PathEntries` without its contract, so that reasoning about the list's
      shape does not drag the path invariants along. */
  function EntryList(ps: seq<PathOptions>, gen: seq<string>): seq<Entry<PathConfig>>
    requires |gen| == |ps| && LongEnough(ps)
    requires forall i :: 0 <= i < |gen| ==> gen[i] != ""
  {
    seq(|ps|, i requires 0 <= i < |ps| => Entry(OrString(ps[i].id, gen[i]), NewPath(ps[i], gen[i]).value))
  }

  /** The entry list one record at a time. */
  lemma EntryListCons(ps: seq<PathOptions>, gen: seq<string>)
    requires |gen| == |ps| > 0 && LongEnough(ps) && LongEnough(ps[1..])
    requires forall i :: 0 <= i < |gen| ==> gen[i] != ""
    ensures EntryList(ps, gen) == [Entry(OrString(ps[0].id, gen[0]), NewPath(ps[0], gen[0]).value)] + EntryList(ps[1..], gen[1..])
  {
    assert forall i :: 0 < i < |ps| ==> ps[i] == ps[1..][i - 1] && gen[i] == gen[1..][i - 1];
  }

  /** `schema.paths.forEach(addPath)`, with `gen[i]` the id generated for
      the i-th record. Paths are added in order until one throws. Loading
      succeeds exactly when every resulting id is new and every record has at
      least two waypoints, and then appends one valid path per record. */
  function LoadPaths(s: Scene, ps: seq<PathOptions>, gen: seq<string>): (r: (Scene, Option<SceneError>))
    requires |gen| == |ps|
    requires forall i :: 0 <= i < |gen| ==> gen[i] != ""
    decreases |ps|
    ensures Loaded(s, ps, gen, r)
  {
    if |ps| == 0 then (s, None)
    else
      var step := AddPath(s, ps[0], gen[0]);
      if step.Err? then
        LoadPathsFails(s, ps, gen, step.error);
        (s, Some(step.error))
      else
        var rest := LoadPaths(step.value, ps[1..], gen[1..]);
        LoadPathsStep(s, ps, gen, rest);
        rest
  }

  /** What loading the path records `ps` into `s` promises of its result
      `r`: only the paths change; loading succeeds exactly when every
      resulting id is new and every record has at least two waypoints, and
      then one valid path per record is appended; a well-formed scene stays
      well formed. */
  ghost predicate Loaded(s: Scene, ps: seq<PathOptions>, gen: seq<string>, r: (Scene, Option<SceneError>))
    requires |gen| == |ps|
    requires forall i :: 0 <= i < |gen| ==> gen[i] != ""
  {
    && r.0 == s.(paths := r.0.paths)
    && (r.1.None? <==> AllNew(s.paths, PathIds(ps, gen)) && LongEnough(ps))
    && (r.1.None? ==> r.0.paths == s.paths + PathEntries(ps, gen))
    && (Wf(s) ==> Wf(r.0))
  }

  /** The first record is refused, so loading stops there. */
  lemma LoadPathsFails(s: Scene, ps: seq<PathOptions>, gen: seq<string>, err: SceneError)
    requires |gen| == |ps| > 0
    requires forall i :: 0 <= i < |gen| ==> gen[i] != ""
    requires AddPath(s, ps[0], gen[0]) == Err(err)
    ensures Loaded(s, ps, gen, (s, Some(err)))
  {
    assert PathIds(ps, gen)[0] == OrString(ps[0].id, gen[0]);
  }

  /** The first record is accepted: what loading the rest promises from the
      scene with that path added is what loading all of them promises. */
  lemma LoadPathsStep(s: Scene, ps: seq<PathOptions>, gen: seq<string>, rest: (Scene, Option<SceneError>))
    requires |gen| == |ps| > 0
    requires forall i :: 0 <= i < |gen| ==> gen[i] != ""
    requires AddPath(s, ps[0], gen[0]).Ok?
    requires Loaded(AddPath(s, ps[0], gen[0]).value, ps[1..], gen[1..], rest)
    ensures Loaded(s, ps, gen, rest)
  {
    var t := AddPath(s, ps[0], gen[0]).value;
    var e := Entry(OrString(ps[0].id, gen[0]), NewPath(ps[0], gen[0]).value);
    if Wf(s) {
      AddPathKeepsWf(s, ps[0], gen[0]);
    }
    StepIff(s.paths, ps, gen, e, rest.1.None?);
    if rest.1.None? {
      StepAppend(s.paths, ps, gen, e, rest.0.paths);
    }
  }

  /** Loading succeeds from `r` exactly when the first record is acceptable
      there and the others succeed from `r` with its path added. */
  lemma StepIff(r: seq<Entry<PathConfig>>, ps: seq<PathOptions>, gen: seq<string>, e: Entry<PathConfig>, ok: bool)
    requires |gen| == |ps| > 0
    requires forall i :: 0 <= i < |gen| ==> gen[i] != ""
    requires e.key == OrString(ps[0].id, gen[0])
    requires !Has(r, e.key) && |ps[0].waypoints| >= 2
    requires ok <==> AllNew(r + [e], PathIds(ps[1..], gen[1..])) && LongEnough(ps[1..])
    ensures ok <==> AllNew(r, PathIds(ps, gen)) && LongEnough(ps)
  {
    PathsCons(ps, gen);
    AllNewStep(r, PathIds(ps, gen), e);
  }

  /** The paths the first record adds, followed by those the others add, are
      the paths all of them add. */
  lemma StepAppend(r: seq<Entry<PathConfig>>, ps: seq<PathOptions>, gen: seq<string>, e: Entry<PathConfig>, out: seq<Entry<PathConfig>>)
    requires |gen| == |ps| > 0
    requires forall i :: 0 <= i < |gen| ==> gen[i] != ""
    requires LongEnough(ps)
    requires e == Entry(OrString(ps[0].id, gen[0]), NewPath(ps[0], gen[0]).value)
    requires out == (r + [e]) + PathEntries(ps[1..], gen[1..])
    ensures out == r + PathEntries(ps, gen)
  {
    var tail := PathEntries(ps[1..], gen[1..]);
    PathsCons(ps, gen);
    assert PathIds(ps, gen)[0] == e.key;
    assert PathEntries(ps, gen) == [e] + tail;
    SeqAssoc(r, [e], tail);
  }

  lemma SeqAssoc<T>(a: seq<T>, b: seq<T>, c: seq<T>)
    ensures (a + b) + c == a + (b + c)
  {
  }

  /** The path records one at a time. */
  lemma PathsCons(ps: seq<PathOptions>, gen: seq<string>)
    requires |gen| == |ps| > 0
    requires forall i :: 0 <= i < |gen| ==> gen[i] != ""
    ensures PathIds(ps, gen)[1..] == PathIds(ps[1..], gen[1..])
    ensures LongEnough(ps) <==> |ps[0].waypoints| >= 2 && LongEnough(ps[1..])
    ensures LongEnough(ps) ==>
      PathEntries(ps, gen) == [Entry(PathIds(ps, gen)[0], NewPath(ps[0], gen[0]).value)] + PathEntries(ps[1..], gen[1..])
  {
    assert forall i :: 0 < i < |ps| ==> ps[i] == ps[1..][i - 1];
    if LongEnough(ps) {
      EntryListCons(ps, gen);
    }
  }

  /** `fromSchema`: a new canvas from the schema's canvas configuration
      (defaults merged) in a container of size `screen`, then the nodes, then
      the paths; the first throw aborts the whole import. */
  function FromSchema(sc: Schema, gen: seq<string>, screen: Size): (r: Result<Scene, SceneError>)
    requires |gen| == |sc.paths|
    requires forall i :: 0 <= i < |gen| ==> gen[i] != ""
    ensures r.Ok? <==> AllNew<Node>([], NodeIds(sc.nodes)) && AllNew<PathConfig>([], PathIds(sc.paths, gen)) && LongEnough(sc.paths)
    ensures r.Ok? ==> r.value.canvas == Viewports.MergeDefaultConfig(sc.canvas)
    ensures r.Ok? ==> r.value.viewport == CenterView(screen) && r.value.active == None && r.value.history == []
    ensures r.Ok? ==> r.value.nodes == NodeEntries(sc.nodes)
    ensures r.Ok? ==> r.value.paths == PathEntries(sc.paths, gen)
  {
    var s0 := NewScene(sc.canvas, screen);
    var (s1, e1) := LoadNodes(s0, sc.nodes);
    if e1.Some? then Err(e1.value)
    else
      var (s2, e2) := LoadPaths(s1, sc.paths, gen);
      if e2.Some? then Err(e2.value) else Ok(s2)
  }

  /** An import that succeeds is well formed. */
  lemma FromSchemaWf(sc: Schema, gen: seq<string>, screen: Size)
    requires |gen| == |sc.paths|
    requires forall i :: 0 <= i < |gen| ==> gen[i] != ""
    requires FromSchema(sc, gen, screen).Ok?
    ensures Wf(FromSchema(sc, gen, screen).value)
  {
    NodeEntriesWf(sc.nodes);
    PathEntriesWf(sc.paths, gen);
  }

  lemma NodeEntriesWf(ns: seq<NodeOptions>)
    requires AllNew<Node>([], NodeIds(ns))
    ensures UniqueKeys(NodeEntries(ns))
    ensures forall i :: 0 <= i < |ns| ==> NodeEntries(ns)[i].value.config.id == NodeEntries(ns)[i].key
  {
    var es, ids := NodeEntries(ns), NodeIds(ns);
    assert forall i, j :: 0 <= i < j < |es| ==> es[i].key == ids[i] && es[j].key == ids[j];
  }

  lemma PathEntriesWf(ps: seq<PathOptions>, gen: seq<string>)
    requires |gen| == |ps| && LongEnough(ps)
    requires forall i :: 0 <= i < |gen| ==> gen[i] != ""
    requires AllNew<PathConfig>([], PathIds(ps, gen))
    ensures UniqueKeys(PathEntries(ps, gen))
  {
    var es, ids := PathEntries(ps, gen), PathIds(ps, gen);
    assert forall i, j :: 0 <= i < j < |es| ==> es[i].key == ids[i] && es[j].key == ids[j];
  }

  /** The registries of a well-formed scene survive export and import: the
      canvas configuration, every node configuration and every path come back
      in order, whatever ids would be generated. The node flags, the
      viewport, the active node and the history start afresh. */
  lemma SchemaRoundTrip(s: Scene, gen: seq<string>, screen: Size)
    requires Wf(s)
    requires |gen| == |s.paths|
    requires forall i :: 0 <= i < |gen| ==> gen[i] != ""
    ensures var r := FromSchema(ToSchema(s), gen, screen);
      && r.Ok?
      && r.value.canvas == s.canvas
      && r.value.paths == s.paths
      && |r.value.nodes| == |s.nodes|
      && (forall i :: 0 <= i < |s.nodes| ==>
            r.value.nodes[i] == Entry(s.nodes[i].key, Node(s.nodes[i].value.config, false, false, false)))
  {
    ExportedNodes(s);
    ExportedPaths(s, gen);
  }

  /** The exported node records ask for the scene's own keys, and rebuild
      each node's configuration with its flags cleared. */
  lemma ExportedNodes(s: Scene)
    requires Wf(s)
    ensures AllNew<Node>([], NodeIds(ToSchema(s).nodes))
    ensures |NodeEntries(ToSchema(s).nodes)| == |s.nodes|
    ensures forall i :: 0 <= i < |s.nodes| ==>
      NodeEntries(ToSchema(s).nodes)[i] == Entry(s.nodes[i].key, Node(s.nodes[i].value.config, false, false, false))
  {
    var sc := ToSchema(s);
    assert NodeIds(sc.nodes) == Keys(s.nodes);
    UniqueKeysAllNew(s.nodes);
  }

  /** The exported path records rebuild exactly the scene's paths. */
  lemma ExportedPaths(s: Scene, gen: seq<string>)
    requires Wf(s)
    requires |gen| == |s.paths|
    requires forall i :: 0 <= i < |gen| ==> gen[i] != ""
    ensures AllNew<PathConfig>([], PathIds(ToSchema(s).paths, gen)) && LongEnough(ToSchema(s).paths)
    ensures PathEntries(ToSchema(s).paths, gen) == s.paths
  {
    var sc := ToSchema(s);
    assert forall i :: 0 <= i < |s.paths| ==> sc.paths[i] == Waypoints.Full(s.paths[i].value);
    assert PathIds(sc.paths, gen) == Keys(s.paths);
    UniqueKeysAllNew(s.paths);
    var es := PathEntries(sc.paths, gen);
    forall i | 0 <= i < |s.paths|
      ensures es[i] == s.paths[i]
    {
      NewPathFull(s.paths[i].value, gen[i]);
    }
  }
}

=== FILE: viewport.dfy ===
/** The viewport engine of `src/lib/Canvas.ts`: configuration defaults, the
    world-to-screen transform, pan, zoom, zoom-at-point, centring and the wheel
    zoom factor. A viewport maps world point `w` to screen point
    `w * zoom + (x, y)`. */
module Viewports {
  import opened Results
  import opened Geometry

  datatype Viewport = Viewport(x: real, y: real, zoom: real)

  datatype Theme = Dark | Light | Matrix
  datatype Grid = Grid(enabled: bool, size: real, opacity: real)
  datatype ZoomLimits = ZoomLimits(min: real, max: real, step: real)
  datatype PanOptions = PanOptions(momentum: bool, edgeResistance: bool)

  /** `Required<CanvasConfig>` without the DOM container. */
  datatype CanvasConfig = CanvasConfig(
    dimensions: Size,
    theme: Theme,
    grid: Grid,
    zoom: ZoomLimits,
    pan: PanOptions)

  /** A caller's `CanvasConfig`: each leaf the source reads with `??` or `||`
      may be absent (an absent group makes all its leaves absent). */
  datatype CanvasOptions = CanvasOptions(
    dimensions: Option<Size>,
    theme: Option<Theme>,
    gridEnabled: Option<bool>,
    gridSize: Option<real>,
    gridOpacity: Option<real>,
    zoomMin: Option<real>,
    zoomMax: Option<real>,
    zoomStep: Option<real>,
    momentum: Option<bool>,
    edgeResistance: Option<bool>)

  const NoOptions := CanvasOptions(None, None, None, None, None, None, None, None, None, None)

  /** `mergeDefaultConfig` of the canvas. */
  function MergeDefaultConfig(o: CanvasOptions): CanvasConfig {
    CanvasConfig(
      o.dimensions.GetOr(Size(3000.0, 2000.0)),
      o.theme.GetOr(Dark),
      Grid(o.gridEnabled.GetOr(true), o.gridSize.GetOr(20.0), o.gridOpacity.GetOr(0.1)),
      ZoomLimits(o.zoomMin.GetOr(0.1), o.zoomMax.GetOr(3.0), o.zoomStep.GetOr(0.1)),
      PanOptions(o.momentum.GetOr(true), o.edgeResistance.GetOr(true)))
  }

  /** The options record that carries every field of `c`. */
  function Full(c: CanvasConfig): CanvasOptions {
    CanvasOptions(Some(c.dimensions), Some(c.theme), Some(c.grid.enabled), Some(c.grid.size),
      Some(c.grid.opacity), Some(c.zoom.min), Some(c.zoom.max), Some(c.zoom.step),
      Some(c.pan.momentum), Some(c.pan.edgeResistance))
  }

  /** The defaults: a 3000x2000 dark canvas, a 20-unit grid at opacity 0.1,
      zoom limited to [0.1, 3.0] in steps of 0.1, momentum and edge
      resistance on; and a complete configuration passes through unchanged,
      which is what re-creating a canvas from an exported one relies on. */
  lemma DefaultsAndRoundTrip(c: CanvasConfig)
    ensures MergeDefaultConfig(NoOptions) ==
      CanvasConfig(Size(3000.0, 2000.0), Dark, Grid(true, 20.0, 0.1),
        ZoomLimits(0.1, 3.0, 0.1), PanOptions(true, true))
    ensures MergeDefaultConfig(Full(c)) == c
  {
  }

  /** The screen position of world point `w`. */
  function WorldToScreen(v: Viewport, w: Point): Point {
    Point(w.x * v.zoom + v.x, w.y * v.zoom + v.y)
  }

  /** The world point under screen point `p`: `(p - (x, y)) / zoom`, the
      formula the debug overlay and `zoomTo` use. */
  function ScreenToWorld(v: Viewport, p: Point): (w: Point)
    requires v.zoom != 0.0
    ensures WorldToScreen(v, w) == p
  {
    var w := Point((p.x - v.x) / v.zoom, (p.y - v.y) / v.zoom);
    QuotientTimes(p.x - v.x, v.zoom);
    QuotientTimes(p.y - v.y, v.zoom);
    assert WorldToScreen(v, w).x == p.x && WorldToScreen(v, w).y == p.y;
    w
  }

  lemma QuotientTimes(a: real, z: real)
    requires z != 0.0
    ensures (a / z) * z == a
  {
  }

  /** The two transforms are inverse to each other in both orders. */
  lemma TransformsInverse(v: Viewport, w: Point)
    requires v.zoom != 0.0
    ensures ScreenToWorld(v, WorldToScreen(v, w)) == w
  {
    var s := WorldToScreen(v, w);
    assert (s.x - v.x) / v.zoom == w.x by {
      assert s.x - v.x == w.x * v.zoom;
    }
    assert (s.y - v.y) / v.zoom == w.y by {
      assert s.y - v.y == w.y * v.zoom;
    }
  }

  /** `pan`: shifts the screen image of every world point by the deltas. */
  function Pan(v: Viewport, dx: real, dy: real): (r: Viewport)
    ensures r.zoom == v.zoom
    ensures forall w: Point {:trigger WorldToScreen(r, w)} ::
      WorldToScreen(r, w) == Point(WorldToScreen(v, w).x + dx, WorldToScreen(v, w).y + dy)
  {
    Viewport(v.x + dx, v.y + dy, v.zoom)
  }

  /** `zoom(factor)`: the clamped product becomes the zoom; the offset is never
      touched, so the world origin stays where it is on screen. */
  function Zoom(v: Viewport, limits: ZoomLimits, factor: real): (r: Viewport)
    ensures r.x == v.x && r.y == v.y
    ensures r.zoom == Clamp(v.zoom * factor, limits.min, limits.max)
    ensures limits.min <= limits.max ==> limits.min <= r.zoom <= limits.max
  {
    var newZoom := Clamp(v.zoom * factor, limits.min, limits.max);
    if newZoom != v.zoom then v.(zoom := newZoom) else v
  }

  /** `zoomAt(point, factor)`: the clamped product becomes the zoom and the
      offset is rescaled about `point`; nothing moves when the clamp leaves
      the zoom where it was. */
  function ZoomAt(v: Viewport, limits: ZoomLimits, point: Point, factor: real): (r: Viewport)
    requires v.zoom != 0.0
    ensures r.zoom == Clamp(v.zoom * factor, limits.min, limits.max)
    ensures limits.min <= limits.max ==> limits.min <= r.zoom <= limits.max
    ensures r.zoom == v.zoom ==> r == v
  {
    var oldZoom := v.zoom;
    var newZoom := Clamp(oldZoom * factor, limits.min, limits.max);
    if newZoom != oldZoom then
      var ratio := newZoom / oldZoom;
      Viewport(point.x - (point.x - v.x) * ratio, point.y - (point.y - v.y) * ratio, newZoom)
    else v
  }

  lemma RatioCancels(a: real, z0: real, z1: real)
    requires z0 != 0.0 && z1 != 0.0
    ensures a * (z1 / z0) / z1 == a / z0
  {
    var q := a / z0;
    assert a == q * z0;
    assert z1 / z0 * z0 == z1;
    calc {
      a * (z1 / z0);
      q * z0 * (z1 / z0);
      q * (z1 / z0 * z0);
      q * z1;
    }
  }

  /** The zoom-anchoring invariant: the world point under the focal point is
      the same before and after `zoomAt`. */
  lemma ZoomAtAnchorsPoint(v: Viewport, limits: ZoomLimits, point: Point, factor: real)
    requires v.zoom != 0.0
    requires ZoomAt(v, limits, point, factor).zoom != 0.0
    ensures ScreenToWorld(ZoomAt(v, limits, point, factor), point) == ScreenToWorld(v, point)
  {
    var r := ZoomAt(v, limits, point, factor);
    if r.zoom != v.zoom {
      ZoomAtMoves(v, limits, point, factor);
      AnchorAxis(point.x, v.x, r.x, v.zoom, r.zoom);
      AnchorAxis(point.y, v.y, r.y, v.zoom, r.zoom);
      assert ScreenToWorld(r, point) == Point((point.x - r.x) / r.zoom, (point.y - r.y) / r.zoom);
      assert ScreenToWorld(v, point) == Point((point.x - v.x) / v.zoom, (point.y - v.y) / v.zoom);
    }
  }

  /** A zoom that changes the zoom level rescales both offsets about the
      focal point by the ratio of the new zoom to the old. */
  lemma ZoomAtMoves(v: Viewport, limits: ZoomLimits, point: Point, factor: real)
    requires v.zoom != 0.0
    requires ZoomAt(v, limits, point, factor).zoom != v.zoom
    ensures var r := ZoomAt(v, limits, point, factor);
      && r.x == point.x - (point.x - v.x) * (r.zoom / v.zoom)
      && r.y == point.y - (point.y - v.y) * (r.zoom / v.zoom)
  {
    var newZoom := Clamp(v.zoom * factor, limits.min, limits.max);
    assert newZoom != v.zoom;
  }

  /** One axis of the anchoring: an offset rescaled about `p` by the zoom
      ratio keeps the world coordinate under `p`. */
  lemma AnchorAxis(p: real, o0: real, o1: real, z0: real, z1: real)
    requires z0 != 0.0 && z1 != 0.0
    requires o1 == p - (p - o0) * (z1 / z0)
    ensures (p - o1) / z1 == (p - o0) / z0
  {
    assert p - o1 == (p - o0) * (z1 / z0);
    RatioCancels(p - o0, z0, z1);
  }

  /** `centerView` on a container of size `screen`: zoom 1 with the world
      origin at the centre of the screen. */
  function CenterView(screen: Size): (r: Viewport)
    ensures r.zoom == 1.0
    ensures WorldToScreen(r, Origin) == Point(screen.width / 2.0, screen.height / 2.0)
  {
    Viewport(screen.width / 2.0, screen.height / 2.0, 1.0)
  }

  /** The initial zoom sensitivity of the wheel. */
  const DefaultZoomSensitivity := 0.1

  /** `setZoomSensitivity`: clamped into [0.01, 0.5]. */
  function SetZoomSensitivity(s: real): (r: real)
    ensures 0.01 <= r <= 0.5
    ensures 0.01 <= s <= 0.5 ==> r == s
  {
    Clamp(s, 0.01, 0.5)
  }

  /** The factor one wheel notch zooms by: scrolling down (`deltaY > 0`)
      zooms out by the sensitivity, anything else zooms in by it. */
  function WheelFactor(deltaY: real, sensitivity: real): (f: real)
    ensures deltaY > 0.0 ==> f + sensitivity == 1.0
    ensures deltaY <= 0.0 ==> f - sensitivity == 1.0
  {
    if deltaY > 0.0 then 1.0 - sensitivity else 1.0 + sensitivity
  }

  /** `handleWheel`: zoom at the pointer, measured from the container's
      top-left corner; the world point under the cursor stays under it. */
  function Wheel(v: Viewport, limits: ZoomLimits, client: Point, containerTopLeft: Point,
                 deltaY: real, sensitivity: real): (r: Viewport)
    requires v.zoom != 0.0
    ensures r.zoom == Clamp(v.zoom * WheelFactor(deltaY, sensitivity), limits.min, limits.max)
    ensures var cursor := Point(client.x - containerTopLeft.x, client.y - containerTopLeft.y);
      r.zoom != 0.0 ==> ScreenToWorld(r, cursor) == ScreenToWorld(v, cursor)
  {
    var cursor := Point(client.x - containerTopLeft.x, client.y - containerTopLeft.y);
    var f := WheelFactor(deltaY, sensitivity);
    assert ZoomAt(v, limits, cursor, f).zoom != 0.0 ==>
      ScreenToWorld(ZoomAt(v, limits, cursor, f), cursor) == ScreenToWorld(v, cursor) by {
      if ZoomAt(v, limits, cursor, f).zoom != 0.0 {
        ZoomAtAnchorsPoint(v, limits, cursor, f);
      }
    }
    ZoomAt(v, limits, cursor, f)
  }

  /** A wheel notch that changes the zoom zooms in on scrolling up and out on
      scrolling down, for any sensitivity the setter allows, and never leaves
      the zoom limits. */
  lemma WheelDirection(v: Viewport, limits: ZoomLimits, client: Point, topLeft: Point,
                       deltaY: real, sensitivity: real)
    requires v.zoom > 0.0 && 0.01 <= sensitivity <= 0.5
    requires limits.min <= v.zoom <= limits.max
    ensures deltaY > 0.0 ==> Wheel(v, limits, client, topLeft, deltaY, sensitivity).zoom <= v.zoom
    ensures deltaY <= 0.0 ==> Wheel(v, limits, client, topLeft, deltaY, sensitivity).zoom >= v.zoom
    ensures limits.min <= Wheel(v, limits, client, topLeft, deltaY, sensitivity).zoom <= limits.max
  {
    var f := WheelFactor(deltaY, sensitivity);
    if deltaY > 0.0 {
      assert v.zoom * f <= v.zoom;
    } else {
      assert v.zoom * f >= v.zoom;
    }
  }

  /** `setViewport`: the given viewport replaces the current one verbatim. */
  function SetViewport(current: Viewport, v: Viewport): (r: Viewport)
    ensures forall w: Point {:trigger WorldToScreen(r, w)} :: WorldToScreen(r, w) == WorldToScreen(v, w)
  {
    v
  }
}

=== FILE: waypoints.dfy ===
/** The path router of `src/lib/Path.ts`: the circuit-legality predicate, the
    auto-repair of waypoint lists, construction-time validation, the default
    path configuration and the static route generators. */
module Waypoints {
  import opened Results
  import opened Geometry

  /** Default stroke width and colour of a path. */
  const DefaultWidth := 3.0
  const DefaultColor := "#00ff88"

  /** A horizontal, vertical or exactly 45-degree segment. */
  predicate Legal(a: Point, b: Point) {
    var dx := Abs(b.x - a.x);
    var dy := Abs(b.y - a.y);
    dy == 0.0 || dx == 0.0 || dx == dy
  }

  /** Every consecutive pair of `w` is circuit-legal. */
  predicate AllLegal(w: seq<Point>) {
    forall i :: 0 <= i < |w| - 1 ==> Legal(w[i], w[i + 1])
  }

  function Last<T>(s: seq<T>): T
    requires |s| > 0
  {
    s[|s| - 1]
  }

  /** Legality, seen as geometry: the step from `a` to `b` lies on one of the
      four lines through the origin at 0, 90, 45 and 135 degrees. The relation
      is symmetric and invariant under translation. */
  lemma LegalIffCompassLine(a: Point, b: Point, t: Point)
    ensures Legal(a, b) <==>
      (b.y - a.y == 0.0 || b.x - a.x == 0.0
       || b.y - a.y == b.x - a.x || b.y - a.y == a.x - b.x)
    ensures Legal(a, b) == Legal(b, a)
    ensures Legal(a, b) == Legal(Point(a.x + t.x, a.y + t.y), Point(b.x + t.x, b.y + t.y))
  {
  }

  lemma AllLegalAppend(a: seq<Point>, b: seq<Point>)
    requires |a| > 0 && |b| > 0
    requires AllLegal(a) && AllLegal(b) && Legal(Last(a), b[0])
    ensures AllLegal(a + b)
  {
    var ab := a + b;
    forall i | 0 <= i < |ab| - 1
      ensures Legal(ab[i], ab[i + 1])
    {
      if i < |a| - 1 {
        assert ab[i] == a[i] && ab[i + 1] == a[i + 1];
      } else if i == |a| - 1 {
        assert ab[i] == Last(a) && ab[i + 1] == b[0];
      } else {
        assert ab[i] == b[i - |a|] && ab[i + 1] == b[i - |a| + 1];
      }
    }
  }

  /** `createCircuitPath`: the horizontal-then-vertical detour from `from` to
      `to`, dropping the corner `(to.x, from.y)` when it coincides with an end. */
  function CircuitPath(from: Point, to: Point): (r: seq<Point>)
    ensures 1 <= |r| <= 2 && Last(r) == to
    ensures Legal(from, r[0]) && AllLegal(r)
    ensures |r| == 2 ==> r[0].y == from.y && r[0].x == to.x
    ensures |r| == 2 <==> from.x != to.x && from.y != to.y
  {
    var corner := Point(to.x, from.y);
    if corner.x == from.x && corner.y == from.y then [to]
    else if corner.x == to.x && corner.y == to.y then [to]
    else [corner, to]
  }

  /** What `correctWaypoints` appends for the input point `cur` when the last
      point written so far is `prev`. */
  function Piece(prev: Point, cur: Point): seq<Point> {
    if Legal(prev, cur) then [cur] else CircuitPath(prev, cur)
  }

  /** Reference definition of the auto-repair: the repair of a prefix, followed
      by the piece for its next point. */
  function Corrected(w: seq<Point>): (r: seq<Point>)
    requires |w| > 0
    ensures |w| <= |r| <= 2 * |w| - 1
    ensures r[0] == w[0] && Last(r) == Last(w)
    ensures AllLegal(r)
    decreases |w|
  {
    if |w| == 1 then [w[0]]
    else
      var pre := Corrected(w[..|w| - 1]);
      assert Last(pre) == w[|w| - 2];
      AllLegalAppend(pre, Piece(w[|w| - 2], w[|w| - 1]));
      pre + Piece(w[|w| - 2], w[|w| - 1])
  }

  /** `correctWaypoints`, as the loop the source runs: it reads the previous
      point back from the output, and the loop keeps that point equal to the
      previous input point. */
  method CorrectWaypoints(w: seq<Point>) returns (corrected: seq<Point>)
    requires |w| > 0
    ensures corrected == Corrected(w)
  {
    corrected := [w[0]];
    var i := 1;
    while i < |w|
      invariant 1 <= i <= |w|
      invariant corrected == Corrected(w[..i])
    {
      var prev := corrected[|corrected| - 1];
      var current := w[i];
      assert w[..i + 1][..i] == w[..i];
      if Legal(prev, current) {
        corrected := corrected + [current];
      } else {
        corrected := corrected + CircuitPath(prev, current);
      }
      i := i + 1;
    }
    assert w[..|w|] == w;
  }

  /** A list that is already legal is returned unchanged by the repair. */
  lemma {:induction false} CorrectedKeepsLegal(w: seq<Point>)
    requires |w| > 0 && AllLegal(w)
    ensures Corrected(w) == w
    decreases |w|
  {
    if |w| > 1 {
      var pre := w[..|w| - 1];
      assert AllLegal(pre) by {
        forall i | 0 <= i < |pre| - 1 ensures Legal(pre[i], pre[i + 1]) {
          assert pre[i] == w[i] && pre[i + 1] == w[i + 1];
        }
      }
      CorrectedKeepsLegal(pre);
      assert Legal(w[|w| - 2], w[|w| - 1]);
      assert pre + [w[|w| - 1]] == w;
    }
  }

  /** The repair leaves `w` alone exactly when `w` is already legal. */
  lemma CorrectedFixedIffLegal(w: seq<Point>)
    requires |w| > 0
    ensures Corrected(w) == w <==> AllLegal(w)
  {
    if AllLegal(w) {
      CorrectedKeepsLegal(w);
    }
  }

  /** Repairing twice is repairing once. */
  lemma CorrectedIdempotent(w: seq<Point>)
    requires |w| > 0
    ensures Corrected(Corrected(w)) == Corrected(w)
  {
    CorrectedKeepsLegal(Corrected(w));
  }

  /** Where each input point lands in the repaired list: it moves one place
      further for every corner inserted before it. */
  function InputPositions(w: seq<Point>): (idx: seq<nat>)
    requires |w| > 0
    ensures |idx| == |w|
    decreases |w|
  {
    if |w| == 1 then [0]
    else
      var pre := InputPositions(w[..|w| - 1]);
      var step := if Legal(w[|w| - 2], w[|w| - 1]) then 1 else 2;
      pre + [pre[|pre| - 1] + step]
  }

  /** `r` is `w` with at most one corner inserted into each segment, the
      corner of an illegal segment from `a` to `b` being `(b.x, a.y)`; `idx`
      says where each input point sits in `r`. */
  ghost predicate Embeds(w: seq<Point>, r: seq<Point>, idx: seq<nat>) {
    && |idx| == |w| > 0
    && idx[0] == 0 && idx[|idx| - 1] == |r| - 1
    && (forall i :: 0 <= i < |w| ==> idx[i] < |r| && r[idx[i]] == w[i])
    && (forall i :: 0 <= i < |w| - 1 ==>
          (Legal(w[i], w[i + 1]) ==> idx[i + 1] == idx[i] + 1))
    && (forall i :: 0 <= i < |w| - 1 ==>
          (!Legal(w[i], w[i + 1]) ==>
             idx[i + 1] == idx[i] + 2 && r[idx[i] + 1] == Point(w[i + 1].x, w[i].y)))
  }

  /** The repaired list keeps every input point, in order, and inserts exactly
      one corner into each illegal segment and nothing anywhere else. */
  lemma {:induction false} CorrectedEmbedsInput(w: seq<Point>)
    requires |w| > 0
    ensures Embeds(w, Corrected(w), InputPositions(w))
    decreases |w|
  {
    if |w| > 1 {
      var pre := w[..|w| - 1];
      CorrectedEmbedsInput(pre);
      var idx0 := InputPositions(pre);
      EmbedsStep(w, Corrected(pre), idx0);
      assert Corrected(pre) + Piece(w[|w| - 2], w[|w| - 1]) == Corrected(w);
      assert Extend(w, idx0) == InputPositions(w);
    }
  }

  /** The positions one more input point gives: one place further than the
      last, two when a corner goes in between. */
  function Extend(w: seq<Point>, idx0: seq<nat>): seq<nat>
    requires |w| > 1 && |idx0| > 0
  {
    idx0 + [idx0[|idx0| - 1] + (if Legal(w[|w| - 2], w[|w| - 1]) then 1 else 2)]
  }

  /** One more input point extends an embedding by its piece. */
  lemma EmbedsStep(w: seq<Point>, r0: seq<Point>, idx0: seq<nat>)
    requires |w| > 1
    requires Embeds(w[..|w| - 1], r0, idx0)
    ensures Embeds(w, r0 + Piece(w[|w| - 2], w[|w| - 1]), Extend(w, idx0))
  {
    var r := r0 + Piece(w[|w| - 2], w[|w| - 1]);
    var idx := Extend(w, idx0);
    EmbedsStepPoints(w, r0, idx0);
    EmbedsStepLegal(w, r0, idx0);
    EmbedsStepCorners(w, r0, idx0);
    assert idx[|idx| - 1] == |r| - 1;
  }

  lemma EmbedsStepPoints(w: seq<Point>, r0: seq<Point>, idx0: seq<nat>)
    requires |w| > 1
    requires Embeds(w[..|w| - 1], r0, idx0)
    ensures forall i :: 0 <= i < |w| ==>
      Extend(w, idx0)[i] < |r0 + Piece(w[|w| - 2], w[|w| - 1])| &&
      (r0 + Piece(w[|w| - 2], w[|w| - 1]))[Extend(w, idx0)[i]] == w[i]
  {
    var pre := w[..|w| - 1];
    var r := r0 + Piece(w[|w| - 2], w[|w| - 1]);
    var idx := Extend(w, idx0);
    forall i | 0 <= i < |w|
      ensures idx[i] < |r| && r[idx[i]] == w[i]
    {
      if i < |w| - 1 {
        assert idx[i] == idx0[i] && w[i] == pre[i];
      }
    }
  }

  lemma EmbedsStepLegal(w: seq<Point>, r0: seq<Point>, idx0: seq<nat>)
    requires |w| > 1
    requires Embeds(w[..|w| - 1], r0, idx0)
    ensures forall i :: 0 <= i < |w| - 1 ==>
      (Legal(w[i], w[i + 1]) ==> Extend(w, idx0)[i + 1] == Extend(w, idx0)[i] + 1)
  {
    var pre := w[..|w| - 1];
    var idx := Extend(w, idx0);
    forall i | 0 <= i < |w| - 1 && Legal(w[i], w[i + 1])
      ensures idx[i + 1] == idx[i] + 1
    {
      if i < |w| - 2 {
        assert w[i] == pre[i] && w[i + 1] == pre[i + 1];
      }
    }
  }

  lemma EmbedsStepCorners(w: seq<Point>, r0: seq<Point>, idx0: seq<nat>)
    requires |w| > 1
    requires Embeds(w[..|w| - 1], r0, idx0)
    ensures forall i :: 0 <= i < |w| - 1 ==>
      (!Legal(w[i], w[i + 1]) ==>
         Extend(w, idx0)[i + 1] == Extend(w, idx0)[i] + 2 &&
         (r0 + Piece(w[|w| - 2], w[|w| - 1]))[Extend(w, idx0)[i] + 1] == Point(w[i + 1].x, w[i].y))
  {
    var pre := w[..|w| - 1];
    var r := r0 + Piece(w[|w| - 2], w[|w| - 1]);
    var idx := Extend(w, idx0);
    forall i | 0 <= i < |w| - 1 && !Legal(w[i], w[i + 1])
      ensures idx[i + 1] == idx[i] + 2 && r[idx[i] + 1] == Point(w[i + 1].x, w[i].y)
    {
      if i < |w| - 2 {
        assert w[i] == pre[i] && w[i + 1] == pre[i + 1];
        assert idx[i] == idx0[i] && idx[i + 1] == idx0[i + 1];
      } else {
        assert idx0[i] == |r0| - 1;
      }
    }
  }

  /** A path's configuration once defaults are merged (`Required<PathConfig>`). */
  datatype PathConfig = PathConfig(
    id: string,
    waypoints: seq<Point>,
    width: real,
    color: string,
    animated: bool,
    className: string)

  /** A caller's `PathConfig`: every field but the waypoints may be absent. */
  datatype PathOptions = PathOptions(
    id: Option<string>,
    waypoints: seq<Point>,
    width: Option<real>,
    color: Option<string>,
    animated: Option<bool>,
    className: Option<string>)

  /** JavaScript truthiness of an optional string / number (`x || d`). */
  function OrString(o: Option<string>, d: string): string {
    if o.Some? && o.value != "" then o.value else d
  }
  function OrNumber(o: Option<real>, d: real): real {
    if o.Some? && o.value != 0.0 then o.value else d
  }

  /** A configuration that merging defaults into cannot change: an id, a width
      and a colour that `||` would not replace. */
  predicate Normal(c: PathConfig) {
    c.id != "" && c.width != 0.0 && c.color != ""
  }

  /** The options record that carries every field of `c`. */
  function Full(c: PathConfig): PathOptions {
    PathOptions(Some(c.id), c.waypoints, Some(c.width), Some(c.color), Some(c.animated), Some(c.className))
  }

  /** `mergeDefaultConfig`; `freshId` stands for the `path-<time>-<random>`
      id the source generates. */
  function MergeDefaultConfig(o: PathOptions, freshId: string): (c: PathConfig)
    requires freshId != ""
    ensures Normal(c)
    ensures c.waypoints == o.waypoints
    ensures o.animated.None? ==> c.animated
    ensures o.width == Some(0.0) ==> c.width == DefaultWidth
    ensures o.id.Some? && o.id.value != "" ==> c.id == o.id.value
    ensures o.width.Some? && o.width.value != 0.0 ==> c.width == o.width.value
    ensures o.color.Some? && o.color.value != "" ==> c.color == o.color.value
    ensures o.animated.Some? ==> c.animated == o.animated.value
    ensures o.className.Some? ==> c.className == o.className.value
  {
    PathConfig(
      OrString(o.id, freshId),
      o.waypoints,
      OrNumber(o.width, DefaultWidth),
      OrString(o.color, DefaultColor),
      o.animated.GetOr(true),
      OrString(o.className, ""))
  }

  /** Merging defaults into a complete configuration gives it back exactly
      when it is `Normal`: a zero width, an empty id or an empty colour is
      replaced. */
  lemma MergeFullIffNormal(c: PathConfig, freshId: string)
    requires freshId != ""
    ensures MergeDefaultConfig(Full(c), freshId) == c <==> Normal(c)
  {
  }

  datatype PathError = TooFewWaypoints

  /** `validateWaypoints`: fewer than two waypoints is an error; otherwise a
      list with an illegal segment is replaced by its repair and a legal list
      is kept as it is. */
  function ValidateWaypoints(w: seq<Point>): (r: Result<seq<Point>, PathError>)
    ensures r.Err? <==> |w| < 2
    ensures r.Ok? ==> |r.value| >= 2 && AllLegal(r.value)
    ensures r.Ok? ==> r.value[0] == w[0] && Last(r.value) == Last(w)
  {
    if |w| < 2 then Err(TooFewWaypoints)
    else if AllLegal(w) then Ok(w)
    else Ok(Corrected(w))
  }

  /** Validation rewrites a list exactly when it has an illegal segment, and
      what it produces is always the repair. */
  lemma ValidateIsRepair(w: seq<Point>)
    requires |w| >= 2
    ensures ValidateWaypoints(w) == Ok(Corrected(w))
    ensures ValidateWaypoints(w) == Ok(w) <==> AllLegal(w)
  {
    CorrectedFixedIffLegal(w);
  }

  /** The `Path` constructor: merge defaults, then validate. */
  function NewPath(o: PathOptions, freshId: string): (r: Result<PathConfig, PathError>)
    requires freshId != ""
    ensures r.Err? <==> |o.waypoints| < 2
    ensures r.Ok? ==> Valid(r.value) && r.value.id == OrString(o.id, freshId)
    ensures r.Ok? && AllLegal(o.waypoints) ==> r.value.waypoints == o.waypoints
    ensures r.Ok? ==> r.value.waypoints == Corrected(o.waypoints)
  {
    var c := MergeDefaultConfig(o, freshId);
    match ValidateWaypoints(c.waypoints)
    case Err(e) => Err(e)
    case Ok(w) =>
      ValidateIsRepair(c.waypoints);
      Ok(c.(waypoints := w))
  }

  /** Construction takes every field but the waypoints from the merged
      defaults, so the caller's truthy id, width and colour and any given
      animated flag and class name are the path's own. */
  lemma NewPathFields(o: PathOptions, freshId: string)
    requires freshId != "" && NewPath(o, freshId).Ok?
    ensures NewPath(o, freshId).value == MergeDefaultConfig(o, freshId).(waypoints := NewPath(o, freshId).value.waypoints)
  {
  }

  /** A valid configuration survives being rebuilt from all of its fields:
      this is what lets an exported path be imported again unchanged. */
  lemma NewPathFull(c: PathConfig, freshId: string)
    requires freshId != "" && Valid(c)
    ensures NewPath(Full(c), freshId) == Ok(c)
  {
    MergeFullIffNormal(c, freshId);
    ValidateIsRepair(c.waypoints);
  }

  /** The invariant every constructed path keeps. */
  predicate Valid(c: PathConfig) {
    Normal(c) && |c.waypoints| >= 2 && AllLegal(c.waypoints)
  }

  /** `updateWaypoints`: the new list is stored first and validated second, so
      on the too-few-waypoints error the path is left holding the short list. */
  function UpdateWaypoints(c: PathConfig, w: seq<Point>): (r: (PathConfig, Option<PathError>))
    ensures r.0 == c.(waypoints := r.0.waypoints)
    ensures r.1.Some? <==> |w| < 2
    ensures r.1.Some? ==> r.0.waypoints == w
    ensures r.1.None? ==> |w| >= 2 && r.0.waypoints == Corrected(w)
  {
    var stored := c.(waypoints := w);
    match ValidateWaypoints(w)
    case Err(e) => (stored, Some(e))
    case Ok(v) =>
      ValidateIsRepair(w);
      (stored.(waypoints := v), None)
  }

  /** `createJunctions`: one marker per interior waypoint. */
  function Junctions(w: seq<Point>): (j: seq<Point>)
    ensures |j| == if |w| < 2 then 0 else |w| - 2
    ensures forall i :: 0 <= i < |j| ==> j[i] == w[i + 1]
  {
    if |w| < 2 then [] else w[1..|w| - 1]
  }

  /** `createStraightPath`. */
  function StraightPath(from: Point, to: Point): (r: seq<Point>)
    ensures |r| == 2 && r[0] == from && r[1] == to
    ensures AllLegal(r) <==> Legal(from, to)
  {
    [from, to]
  }

  /** `createLPath`: one bend, horizontal first when the corner is at the
      destination's x, vertical first otherwise. */
  function LPath(from: Point, to: Point, cornerAtDestination: bool): (r: seq<Point>)
    ensures |r| == 3 && r[0] == from && r[2] == to && AllLegal(r)
    ensures cornerAtDestination ==> r[1].y == from.y && r[1].x == to.x
    ensures !cornerAtDestination ==> r[1].x == from.x && r[1].y == to.y
  {
    if cornerAtDestination then [from, Point(to.x, from.y), to]
    else [from, Point(from.x, to.y), to]
  }

  /** Repairing an illegal straight segment gives exactly the L-path with
      its corner at the destination. */
  lemma RepairIsLPath(from: Point, to: Point)
    requires !Legal(from, to)
    ensures Corrected(StraightPath(from, to)) == LPath(from, to, true)
  {
    var w := StraightPath(from, to);
    assert w[..1] == [from];
  }

  /** The fraction of the x-distance at which a Z-path turns. */
  const ZBend := 0.7

  /** `createZPath`: horizontal, vertical, horizontal, turning at 70% of the
      x-distance. */
  function ZPath(from: Point, to: Point): (r: seq<Point>)
    ensures |r| == 4 && r[0] == from && r[3] == to && AllLegal(r)
    ensures r[1].y == from.y && r[2].y == to.y && r[1].x == r[2].x
    ensures r[1].x - from.x == ZBend * (to.x - from.x)
    ensures to.x - r[1].x == (1.0 - ZBend) * (to.x - from.x)
  {
    var midX := from.x + (to.x - from.x) * ZBend;
    [from, Point(midX, from.y), Point(midX, to.y), to]
  }
}
